=== FILE: README.md ===
# Loyalty engine: target campaigns, offers and vouchers

A Dafny model of the core of a loyalty engine service (NestJS, TypeScript).
The service runs cashback **target campaigns** for stores and applies
**offers** through **vouchers**.

**Target campaigns.** A store is set a target amount over a window of days.
Each campaign has pending cashback rows: one DAILY row per day of the
window, and one WEEKLY row at its end for a weekly campaign.

- **Settlement.** Two passes settle pending rows against the store's
  delivered orders.
  - The daily pass runs a seven-branch cascade per row.
  - The weekly pass sums the finished daily rows.
  - Each pass credits the store's wallet under the idempotency key
    `LCB-<row id>`.
- **Editing a campaign.** An edit switches off the pending rows, recomputes
  the window still to be generated, rechecks the campaign's vouchers against
  a regenerated daily offer, and creates new rows.
- **Upload.** An uploaded campaign sheet is validated row by row. It stops
  at the first error, checks for overlapping campaigns, and rejects a store
  repeated within one upload.
- **Progress view.** The store's progress view classifies each daily row and
  shows what remains of the target.

**Offers** hold json-rules-engine rules.

- A voucher's offer applies either to the whole order or item by item. For
  item rules, the facts are an item merged with its order.
- The model covers:
  - the discount and its cap;
  - the cashback details of a cashback offer;
  - the 409 (level and type conflict) and 420 (cannot be applied) outcomes;
  - the candidate-voucher query, an OR of up to four branches;
  - the CSV validators of the offer and voucher sheets, which accumulate
    errors;
  - the small helpers of the common service: the header-mapping parser, the
    date-shape check, the mapper and the number conversion.

**Rules engine.** The one custom operator, `containsAndGreaterThan`, is
modelled concretely.

- The rules library itself is stood in for in one of two ways:
  - a small all/any evaluator (module `RulesEngine`);
  - in the offer service, a parameter `run(condition, facts)` that answers
    `None` when the engine throws. An engine error reaches the client as a
    500.

**Conventions.**

- Dates are integer day numbers, and `today` is a parameter. Offer instants
  are minutes since day 0.
- Money is `real`. Cashback is an `int` via `Math.ceil`.
- Things the code reads from outside are inputs: repositories, HTTP clients,
  the wallet map, the clock, the parsers `new Date`/`JSON.parse`, random
  codes and generated ids. Wallet credits are an appended log of
  `(store, amount, key)`.
- Objects the source updates in place are classes with fields:
  - campaign rows and cashback rows;
  - vouchers;
  - uploaded sheet rows;
  - the rules engine instance;
  - the bulk-upload record.
- Their methods are proved against functions on the rows' values.

Modules, one file each:

| module | file | what it models |
|---|---|---|
| `Wrappers` | `wrappers.dfy` | Option and Result |
| `Strings` | `strings.dfy` | split, join, trim, digit text |
| `Json` | `json.dfy` | JavaScript values, nullishness, `Number()` |
| `Common` | `common.dfy` | common.service.ts |
| `RulesEngine` | `rules.dfy` | rules-engine.service.ts and the evaluator |
| `OrderFacts` | `order_facts.dfy` | the order-item fact merges |
| `OfferEntities` | `offer_entities.dfy` | the offer and voucher entities |
| `TargetEntities` | `target_entities.dfy` | the campaign and cashback entities |
| `TargetRows` | `target_rows.dfy` | row and daily-offer generation |
| `TargetSettlement` | `target_settlement.dfy` | the daily and weekly passes |
| `TargetUpload` | `target_upload.dfy` | upload validation |
| `TargetController` | `target_controller.dfy` | target.controller.ts |
| `Partition` | `partition.dfy` | the success/failed split |
| `OfferService` | `offer_service.dfy` | offer.service.ts |
| `OfferController` | `offer_controller.dfy` | offer.controller.ts |

## Model

| member | source | states |
|---|---|---|
| Common.Mapper | src/core/common/common.service.ts:14-36 | Only properties the destination already owns are written: the key set is unchanged. A primitive or undefined source value is copied. A Date is copied as is. A null keeps a truthy destination value and stores null otherwise. A nested object is mapped recursively into the destination's object, or into `{}` when that value is falsy. Properties absent from the source keep their value. |
| Common.MapperIdempotent | src/core/common/common.service.ts:14-36 | Mapping the same source a second time changes nothing. |
| Common.DateFormatGroups | src/core/common/common.service.ts:64-67 | A string passes the date-shape check iff it is 4 digits, '-', 2 digits, '-', 2 digits (the ISO 8601 extended calendar-date shape). |
| Common.DateFormatAccepts | src/core/common/common.service.ts:64-67 | Any digit groups of lengths 4, 2 and 2 joined by dashes pass, with no calendar check. |
| Common.NoCalendarCheck | src/core/common/common.service.ts:64-67 | "2023-13-45" passes. |
| Common.GetHeaderMap | src/core/common/common.service.ts:74-82 | The loop over the comma-split pairs builds exactly the in-order pair map. |
| Common.HeaderMapLastWins | src/core/common/common.service.ts:74-82 | A key is in the map iff some "value:key" pair carries it. It holds the value of the last such pair. |
| Common.PairParts | src/core/common/common.service.ts:74-82 | "v:k", with neither part holding ':', reads back as value v and key k. |
| Common.ConvertToNumber | src/core/common/common.service.ts:88-90 | Null or undefined gives null. A number stays itself. A digit string becomes its value. |
| Json.StringToNumber | src/core/common/common.service.ts:88-90 | `Number(s)` on a digit string is that string's decimal value. |
| Json.StringToNumberStripsUnicodeSpace | src/core/common/common.service.ts:88-90 | `Number` strips JavaScript's white space and line terminators, a no-break space and U+2028 included. |
| Json.ToNumber | src/core/common/common.service.ts:88-90 | `Number(v)`: a number is itself, undefined is NaN, null is 0. |
| RulesEngine.ContainsAndGreaterThanIff | src/core/common/rules-engine.service.ts:8-19 | On SKU lines: the operator holds iff some element has the rule's skuCode and a finalAmount strictly above minValue. |
| RulesEngine.ContainsAndGreaterThanEdges | src/core/common/rules-engine.service.ts:10-18 | On SKU lines: an empty fact list gives false. A finalAmount equal to minValue gives false. |
| RulesEngine.ContainsAndGreaterThanOrderFree | src/core/common/rules-engine.service.ts:10-17 | On SKU lines: any reordering of the elements (same multiset) gives the same answer. |
| RulesEngine.ContainsAndGreaterThanAppend | src/core/common/rules-engine.service.ts:10-17 | On SKU lines: appending elements never turns true into false. |
| RulesEngine.ContainsAndGreaterThanOperator | src/core/common/rules-engine.service.ts:9-19 | The `for...of` loop throws (a TypeError) for a fact value that is neither an array nor a string. It throws on a non-empty string only when the rule value is nullish. A string fact never gives true. |
| RulesEngine.CharactersNeverMatch | src/core/common/rules-engine.service.ts:10-18 | A string's characters have no skuCode or finalAmount: the loop gives false, or throws when the rule value is nullish. |
| RulesEngine.ContainsAndGreaterThanItemsFirst | src/core/common/rules-engine.service.ts:10-18 | False iff no element matches and none throws. Otherwise the result is that of the first element that matches or throws. |
| RulesEngine.ContainsAndGreaterThanItemsAppend | src/core/common/rules-engine.service.ts:10-17 | Once an element matches, elements appended after it change nothing, a null among them included. |
| RulesEngine.ContainsAndGreaterThanOnSkuLines | src/core/common/rules-engine.service.ts:10-18 | With every element a SKU line and the rule a threshold, nothing throws and the result is the SKU-line operator's. So the lemmas above describe it. |
| RulesEngine.ContainsAndGreaterThanLooseEquality | src/core/common/rules-engine.service.ts:12-13 | `==` is loose: skuCode 123 matches "123". A string minValue "10" is compared as a number against the amount 12. |
| RulesEngine.ContainsAndGreaterThanTextOrder | src/core/common/rules-engine.service.ts:13 | Two strings compare as text: the amount "9" exceeds the minValue "10", and the number 9 does not. |
| RulesEngine.ContainsAndGreaterThanNullElement | src/core/common/rules-engine.service.ts:10-13 | A null element before a match throws. After a match it is never reached, so element order matters. |
| RulesEngine.EvaluateAllIff | src/core/common/rules-engine.service.ts:23-33 | Evaluator stand-in: `all` holds iff every child holds. |
| RulesEngine.EvaluateAnyIff | src/core/common/rules-engine.service.ts:23-33 | Evaluator stand-in: `any` holds iff some child holds. |
| RulesEngine.Engine.Run | src/core/common/rules-engine.service.ts:23-33 | Fails exactly when a rule uses the custom operator and it was never registered. Otherwise returns the events of the rules that hold, in order. |
| RulesEngine.CheckRulesWithFacts | src/core/common/rules-engine.service.ts:23-33 | A fresh engine per call: the result is the rule's event when its conditions hold and nothing otherwise. No state from earlier calls can matter. |
| OrderFacts.CopyOrderItem | src/offer/classes/order-item.class.ts:7-32 | Exactly the 25 listed fields, each read from the item. |
| OrderFacts.ModifiedOrderItem | src/offer/classes/modified-order-item.class.ts:8-11 | Keys are the item fields plus the order's. Every order field wins. Item fields the order lacks survive. |
| OrderFacts.ModifiedFranchiseOrderItem | src/offer/classes/modified-franchise-order-item.class.ts:4-11 | Item fields, then order fields over them. `offerAppliedSkuCount` is the argument, and the order cannot override it. |
| OrderFacts.SharedNamesTakeOrderValue | src/offer/classes/modified-order-item.class.ts:8-11 | On id, status, refundAmount and taxDetails the order's value is what the rules see. |
| OfferEntities.NewOfferFromDto | src/offer/entity/offers.entity.ts:66-89 | The rules type is the request's condition type (the earlier ALL is overwritten). The event is the request's type with empty params. `active` is the request's value. Name and application rules stay unset. The display and discount fields are copied. |
| OfferEntities.NewOfferEntity | src/offer/entity/offers.entity.ts:91-119 | All twelve arguments land in their fields. `active` keeps its default true. |
| OfferEntities.Voucher.FromDto | src/offer/entity/vouchers.entity.ts:53-74 | voucher_for, voucher_type and is_public default to FRANCHISE, STATIC and true. assigned_to is the entity. Neither code nor active is assigned. |
| OfferEntities.Voucher.Entity | src/offer/entity/vouchers.entity.ts:76-98 | The eight data arguments, campaign_id included, and the user. active is not assigned. |
| TargetEntities.TargetCampaign.Create | src/offer/entity/target-campaign.entity.ts:64-86 | Store, types and target are copied. Dates are parsed. status 1, active 1, created and modified by the user, no id. The metadata is the value the upload flow assigns right after the factory (target.service.ts, lines 65-68). |
| TargetEntities.NewCashbackRow | src/offer/entity/target-cashback.entity.ts:60-80 | Type, date, percent, target, campaign and store are copied. Cashback is null with fresh metadata (no amounts, no remarks, not wallet-eligible). active 1, created and modified by the user, id left unset. |
| TargetEntities.TargetCashback.FromCampaign | src/offer/entity/target-cashback.entity.ts:60-80 | The new row object holds exactly the factory's row. |
| TargetRows.WindowMembers | src/offer/target.service.ts:617-638 | A day is in a window exactly when it lies between the two ends inclusive. |
| TargetRows.DaysDiff | src/offer/target.service.ts:580-582 | Positive iff start ≤ end, and then the inclusive number of days in the window. |
| TargetRows.DailyTargetValue | src/offer/target.service.ts:584-593 | WEEKLY: daily target × days = target. Any other type keeps the whole target. |
| TargetRows.DailyRowsShape | src/offer/target.service.ts:617-638 | Exactly one DAILY row per day of the window, in order. Each is pending and active, of the campaign's store, at the daily percent and daily target. |
| TargetRows.DailyRowsArePending | src/offer/target.service.ts:200-215 | Every generated row is returned by the pending-row query over its window. |
| TargetRows.CreateDailyLoyaltyCashbacks | src/offer/target.service.ts:617-638 | The loop creates fresh row objects whose values are exactly the window's DAILY rows. |
| TargetRows.CashbackEntriesShape | src/offer/target.service.ts:113-147 | DAILY rows are created only when both ends and the daily percent are present. Exactly one WEEKLY row at the campaign end, with the full target, exists iff the campaign is WEEKLY with a weekly percent, whatever the window. |
| TargetRows.CreateCashbackEntriesFromCampaign | src/offer/target.service.ts:113-147 | The method's fresh rows are exactly those entries. |
| TargetRows.DailyOfferRuleMeaning | src/offer/target.service.ts:558-574 | The daily rule holds iff the order's non-bulk gross amount is a number ≥ the daily target. It needs no custom operator. |
| TargetRows.DailyOfferTerms | src/offer/target.service.ts:716 | The terms begin with the printed percent and end with the fixed T&C text. They are long enough to hold both numbers and that text. |
| TargetRows.DailyOffer | src/offer/target.service.ts:705-747 | An offer exists iff the daily percent is positive. It is PERCENT, cashback-level, auto-applicable and uncapped at that percent, open 02:00 the day before the start to 18:00 the day before the end. Its terms state the percent and the daily target. |
| TargetRows.CreateDailyOfferForTargetCampaign | src/offer/target.service.ts:90-111 | A voucher is created iff an offer is: assigned to the store, FRANCHISE/STATIC/ASSIGNED, public, tagged with the campaign. |
| TargetSettlement.CreditKeyInjective | src/offer/target.service.ts:262-288 | Two row ids give the same `LCB-` key exactly when they are equal. |
| TargetSettlement.DailyCascade | src/offer/target.service.ts:221-300 | The branches in order, over every input. No order: 0, amounts 0, "No Order Placed.". Refund ticket: remarks only. No voucher, zero daily cashback, different voucher: 0 with the order's amounts. The campaign voucher is read only after the zero-percent test: a store without one throws there, exactly when the earlier tests pass and the percent is not 0, and the row is unchanged. Wallet-ineligible: amounts and remarks, cashback untouched. Final: ceil(effective × percent / 100), credit keyed `LCB-<id>` iff positive, otherwise 0. Settled cashback is never negative. |
| TargetSettlement.SettledRowsLeavePending | src/offer/target.service.ts:200-290 | A pending row stays pending exactly in the refund-ticket and wallet-ineligible branches and when the step throws. A credited row leaves the pending-row query. |
| TargetSettlement.DailyCreditsPerRow | src/offer/target.service.ts:221-290 | A daily pass issues at most one credit per row, each positive and keyed by that row's id for its store. |
| TargetSettlement.DailyCreditKeysDistinct | src/offer/target.service.ts:221-290 | With distinct row ids, no two credits of one pass share a key. |
| TargetSettlement.DailySettledCount | src/offer/target.service.ts:227-246 | The rows the pass settles: up to the first row whose voucher read throws, or all of them. |
| TargetSettlement.ProcessDailyCashbacks | src/offer/target.service.ts:221-290 | The pass completes iff no row's step throws. The rows before the first throw end as their daily steps; that row and the rest keep their values. The credit log is the credits of the settled rows, in row order. |
| TargetSettlement.WeeklyCascade | src/offer/target.service.ts:302-361 | The totals are always written. Any unfinished daily row keeps the weekly row pending with a remark. A qualifier sum below target gives 0. Otherwise ceil(sumEffective × percent / 100), credited iff positive, else 0. |
| TargetSettlement.WeeklyWorkedExample | src/offer/target.service.ts:302-361 | Target 700, qualifiers 750, effective 700 at 5%: a credit of 35. |
| TargetSettlement.ProcessWeeklyCashbacks | src/offer/target.service.ts:302-361 | Every weekly row object ends as the weekly step against its campaign's daily rows. Credits are logged in row order. |
| TargetUpload.CheckOverlappingEntryIff | src/offer/target.service.ts:498-517 | Overlap iff some stored window has start ≤ new end and end ≥ new start. |
| TargetUpload.OverlapMeansCommonDay | src/offer/target.service.ts:498-517 | That closed-interval test holds exactly when the two windows share a day. |
| TargetUpload.UploadCheckPasses | src/offer/target.service.ts:363-496 | A row has no error iff both dates parse, start > today and start ≤ end, there is no overlap, the store id is not yet accepted, the numbers are non-negative and the daily percent is integral. |
| TargetUpload.UploadPassAtMostOneError | src/offer/target.service.ts:363-496 | A rejected row gains exactly one error. An accepted row gains none. |
| TargetUpload.UploadAcceptedStoresDistinct | src/offer/target.service.ts:363-496 | No two accepted rows of one upload share a store id. |
| TargetUpload.ValidateTargetCampaignUpload | src/offer/target.service.ts:363-496 | The row objects end as the pass's values. Success and failed lists are the rows without and with errors, in input order. |
| TargetController.TargetHeaderMap | src/offer/target.controller.ts:82-97 | The upload's mapping string reads back as each sheet header naming its bean field. |
| TargetController.BeanPropsLastWins | src/offer/target.controller.ts:82-97 | A field is set iff some cell's header maps to it, and holds the last such cell's text. |
| TargetController.ParsedStoreId | src/offer/target.controller.ts:82-97 | The bean's store id is the text of the last "Store Id" cell. |
| TargetController.ParseTargetCampaignByHeaderMapping | src/offer/target.controller.ts:82-97 | One fresh bean per sheet row, in order, holding its mapped cells. |
| TargetController.UploadSaveDecision | src/offer/target.controller.ts:100-155 | targetType defaults to WEEKLY and must be WEEKLY or DAILY. campaignType defaults to MOV and must be MOV. The upload must exist. cancel absent initiates, loosely 1 cancels, anything else fails. Every failure is a 404. |
| TargetController.CancelWithSpaces | src/offer/target.controller.ts:145-153 | " 1" and a no-break space before "1" cancel like "1". |
| TargetController.CancelRejected | src/offer/target.controller.ts:145-153 | "0" and "yes" are rejected. |
| TargetController.TargetCampaignUploadSave | src/offer/target.controller.ts:100-155 | Applies the decision. A confirmed upload is marked 1, a cancelled one 0, and a rejected call leaves it untouched. |
| TargetController.WindowWhenFirstPending | src/offer/target.controller.ts:320-349 | No DAILY rows, or a pending first one: the whole campaign window. |
| TargetController.WindowWhenAllSettled | src/offer/target.controller.ts:320-349 | A settled last DAILY row (first settled too): no window. |
| TargetController.WindowWhenPartlySettled | src/offer/target.controller.ts:320-349 | Otherwise from the first pending DAILY row's date, which exists, to the campaign end. |
| TargetController.StartAndEndDatesReadsKeys | src/offer/target.controller.ts:320-349 | The window depends only on each row's type, date and cashback. |
| TargetController.GetStartAndEndDates | src/offer/target.controller.ts:320-349 | The method computes that window from the row objects. |
| TargetController.DisabledRow | src/offer/target.controller.ts:380-391 | A pending row is switched off (active 0, modifiedBy) and drops out of every pending query. A settled row is unchanged. |
| TargetController.DisableLoyaltyCashbacks | src/offer/target.controller.ts:380-391 | Every row object ends as its disabled value. |
| TargetController.DisablingKeepsWindow | src/offer/target.controller.ts:287-391 | Disabling leaves the edit window unchanged, so computing it before or after makes no difference. |
| TargetController.SameRequestIffNoEdit | src/offer/target.controller.ts:393-405 | A request is "the same" iff applying its target, status and two percents would change nothing. |
| TargetController.RecheckedVoucher | src/offer/target.controller.ts:364-377 | A rechecked voucher is active iff there is a new offer and the status is not 0. An active one points at the offer. Every one gets updated_by. |
| TargetController.RecheckCampaignVouchers | src/offer/target.controller.ts:351-378 | With no vouchers, a daily offer and its voucher are created first. Then the rebuilt offer is saved, and every voucher object ends rechecked against it. |
| TargetController.UpdateCampaign | src/offer/target.controller.ts:275-318 | Unknown campaign: 404. A same request changes nothing. Otherwise the edit sequence below. |
| TargetController.EditCampaign | src/offer/target.controller.ts:287-316 | In order: pending rows disabled; the window taken from the rows as they stood; the request applied; the vouchers rechecked; rows regenerated for that window only when the new status is 1, with the daily target from the full campaign window. |
| TargetController.GroupUpToMeaning | src/offer/target.controller.ts:407-417 | A campaign id is a key iff some row carries it, and maps to exactly its rows in input order. |
| TargetController.GetDailyTargetMap | src/offer/target.controller.ts:407-417 | The loop builds that grouping. |
| TargetController.DailyStatusMeaning | src/offer/target.controller.ts:490-514 | CURRENT iff dated tomorrow. IN_PROCESS iff dated today and unsettled. FAILED iff not tomorrow and cashback 0. LOCKED and EARNED are the remaining unsettled and settled cases. |
| TargetController.DailyTargetListItem | src/offer/target.controller.ts:468-516 | The item carries that status. A CURRENT item shows the cart amount and an IN_PROCESS item today's order amount (0 when absent). The other items show the row's qualifier. |
| TargetController.RemainingTarget | src/offer/target.controller.ts:543-548 | max(0, target − qualifier): never negative, 0 iff the target is met, and otherwise the shortfall. |
| TargetController.RemainingTargetShrinks | src/offer/target.controller.ts:543-548 | More qualifying amount never leaves more to do. |
| TargetController.LastCurrentTargetIsTomorrows | src/offer/target.controller.ts:532-548 | Today's target is the target of the row dated tomorrow, and none when no row is. |
| TargetController.BuildDailyLoyaltyCashbackResponse | src/offer/target.controller.ts:518-560 | One item per row in order. The current qualifier is the cart amount or 0. The remaining target is max(0, today's target − current qualifier). |
| TargetController.QualifierTotalBounds | src/offer/target.controller.ts:579-590 | Non-negative amounts give a non-negative total. All-null amounts total 0. |
| TargetController.BuildWeeklyLoyaltyCashbackResponse | src/offer/target.controller.ts:562-604 | The week's total sums the daily items with null counted as 0. The remaining target is max(0, target − total). |
| Partition.SelectPartition | src/offer/target.service.ts:487-494 | The success and failed lists together hold every row exactly once (as multisets). |
| Partition.SelectMembers | src/offer/offer.controller.ts:432-437 | A row is in the failed list iff it is flagged, and in the success list iff it is not. |
| OfferService.RulesFromOfferMeaning | src/offer/offer.service.ts:58-74 | The rule holds iff some condition does (ANY) or every condition does (any other type). |
| OfferService.Discount | src/offer/offer.service.ts:453-478 | Never above max_limit and never above the uncapped discount. Equal to the uncapped one without a cap. |
| OfferService.LooseCapKeepsDiscount | src/offer/offer.service.ts:453-478 | A cap at or above the uncapped discount changes nothing. |
| OfferService.PercentDiscountMonotone | src/offer/offer.service.ts:465-478 | A larger base never gives a smaller discount. |
| OfferService.CalculateOrderDiscount | src/offer/offer.service.ts:453-463 | On the order's totalSpGrossAmount. Never above max_limit. Without a cap, FLAT gives value, PERCENT gives value × totalSpGrossAmount / 100 and a missing type gives 0. With a cap, the minimum of the two is stated by Discount. |
| OfferService.CalculateItemDiscount | src/offer/offer.service.ts:465-478 | The same on the item's spGrossAmount. |
| OfferService.OfferCashbackDetails | src/offer/offer.service.ts:488-496 | A percent iff PERCENT and an amount iff FLAT, each the offer's value. |
| OfferService.ConsumerOrderLevelAsWritten | src/offer/offer.service.ts:92-107 | As written: the cap is tested on bill × value / 100, whatever the discount type. |
| OfferService.FlatOfferCapMisfires | src/offer/offer.service.ts:92-107 | FLAT 60, cap 100, bill 200 becomes FLAT 100. FLAT 60, cap 50, bill 50 keeps 60, above the cap. |
| OfferService.ConsumerOrderLevelWithinCap | src/offer/offer.service.ts:92-107 | With the cap tested on the actual discount, the granted amount is within the cap and within the uncapped discount. |
| OfferService.ConsumerSkuLevelCount | src/offer/offer.service.ts:108-123 | One SKU discount per matching item. The list is empty iff no item matches. |
| OfferService.ConsumerSkuLevelMembers | src/offer/offer.service.ts:108-123 | A discount is listed iff it is the uncapped discount of an item the rule fires on. |
| OfferService.FranchiseSkuLevelCapped | src/offer/offer.service.ts:301-319 | Every franchise SKU discount respects the cap. |
| OfferService.FranchiseSkuLevelEmpty | src/offer/offer.service.ts:305-319 | The list is empty iff the rule fires on no item, each item seeing offerAppliedSkuCount 0. |
| OfferService.ValidateCoupon | src/offer/offer.service.ts:76-136 | ORDERLEVEL: the order-level discount on a match, its cap tested on the actual discount. ORDERITEM: one uncapped SKU discount per match, in item order. Any other event type: 409. No match: 420. An engine throw: 500. |
| OfferService.FranchiseOrderLevelMatch | src/offer/offer.service.ts:288-300 | CASHBACK level: the cashback details. ORDER level: the capped order discount. Any other level is left as it was. |
| OfferService.ValidateOfferFranchise | src/offer/offer.service.ts:278-332 | ORDERLEVEL: applied on a match. ITEMLEVEL: each item gets the number of earlier matches as offerAppliedSkuCount and a capped SKU discount per match. Otherwise 409. No match: 420. |
| OfferService.AnyItemAppliesSome | src/offer/offer.service.ts:223-238 | The item search answers true iff the rule fires on some item, with no throw before it. |
| OfferService.AnyItemAppliesNone | src/offer/offer.service.ts:223-238 | It answers false iff the rule fires on no item and never throws. |
| OfferService.CheckOfferApplicable | src/offer/offer.service.ts:210-241 | ORDERLEVEL: whether the rule fires on the order. Other event types: whether it fires on some item. |
| OfferService.CheckViewOfferApplicable | src/offer/offer.service.ts:338-363 | Shown when the voucher, its offer or its view rules are null. Otherwise shown iff the view rule fires. |
| OfferService.ViewRuleErrorHides | src/offer/offer.service.ts:355-362 | An engine error hides the voucher. |
| OfferService.BuildOfferFilters | src/offer/offer.service.ts:159-209 | The global branch always, and the store, customer and old-code branches only when given. A voucher matches a branch iff it is a candidate. |
| OfferService.CandidatesAreLive | src/offer/offer.service.ts:159-209 | Every match is active, for the asked audience, with a live offer (start < now < end). Any non-null isAutoApplicable requires an auto-applicable offer. Only the old-code branch skips is_public. |
| OfferService.GetVouchersFromUserAndStoreId | src/offer/offer.service.ts:138-157 | Exactly the stored candidates, in table order. |
| OfferService.VoucherFromCode | src/offer/offer.service.ts:247-265 | The first stored voucher the code names for the store (ASSIGNED to it, or ALL), and none iff there is none. |
| OfferService.OfferFromId | src/offer/offer.service.ts:267-276 | The first offer with that id that is active and live, and none iff there is none. |
| OfferController.CheckMissingHeader | src/offer/offer.controller.ts:346-353 | The first required attribute absent from the header set, or none iff all are present. |
| OfferController.ConvertToColonSeparatedString | src/offer/offer.controller.ts:619-630 | The text is the "f:f" pairs joined by ','. |
| OfferController.ColonStringCommas | src/offer/offer.controller.ts:619-630 | "" for no fields, otherwise n − 1 commas for comma-free fields. |
| OfferController.ColonStringRoundTrip | src/offer/offer.controller.ts:619-630 | For names free of ',' and ':', getHeaderMap of the string maps every name to itself and nothing else. |
| OfferController.OldVoucherFromCart | src/offer/offer.controller.ts:184-195 | The code only when offerData and voucherCode are present and isOfferApplied is loosely true. |
| OfferController.OldVoucherOnlyWhenApplied | src/offer/offer.controller.ts:184-195 | An applied offer gives its code. One marked not applied gives null. |
| OfferController.OldVoucherArgument | src/offer/offer.controller.ts:117-119 | A point-of-sale request (app id `com.example.pos_flutter_app`, common.service.ts lines 38-40) passes no old code. Any other request passes the cart's applied voucher code. |
| OfferController.OldVoucherArgumentMeaning | src/offer/offer.controller.ts:117-124 | A point-of-sale request lists only public vouchers. Any other request also lists the cart's applied voucher, public or not, when it is active, for consumers and live. |
| OfferController.FetchOffersForStore | src/offer/offer.controller.ts:106-129 | 400 "Cart does not exist" without a cart. Otherwise the CONSUMER candidates for the store, customer and old code, listed for the cart as getVouchersList does. |
| OfferController.OfferNameMapMeaning | src/offer/offer.controller.ts:611-617 | The keys are the offers' names. Each holds the last offer of that name. |
| OfferController.OffersListMap | src/offer/offer.controller.ts:611-617 | The loop builds that map. |
| OfferController.OfferErrorsAccumulate | src/offer/offer.controller.ts:359-428 | One error per failing check. A row fails iff some check does. |
| OfferController.OfferLevelReportedAsDiscountType | src/offer/offer.controller.ts:411-420 | A bad offer_level is reported with the discount_type message and field. |
| OfferController.OfferConversions | src/offer/offer.controller.ts:370-431 | A numeric discount_value becomes a number. A numeric active becomes Number(active) ≠ 0. Present dates become Dates. |
| OfferController.OfferSheetRow.Check | src/offer/offer.controller.ts:357-431 | The row object ends as its checked value. |
| OfferController.ParseOffers | src/offer/offer.controller.ts:355-439 | Every row is checked. Rows without errors go to success and the others to failed, in input order. |
| OfferController.VoucherErrorsAccumulate | src/offer/offer.controller.ts:527-609 | The six voucher checks accumulate. offer_id is set iff the name is one of the upload's offers, and then it is that offer's id. |
| OfferController.VoucherSheetRow.Check | src/offer/offer.controller.ts:532-604 | The row object ends as its checked value. |
| OfferController.ParseVouchers | src/offer/offer.controller.ts:527-609 | Every row is checked. Success and failed lists by errors, in input order. |
| OfferController.VouchersListMeaning | src/offer/offer.controller.ts:131-151 | Input order is kept and exactly the vouchers the view rule hides are dropped. Each flag is whether the offer applies. |
| OfferController.VouchersList | src/offer/offer.controller.ts:131-151 | The loop builds that list, or fails as the first failing check does. |
| OfferController.FetchAutoApplyCode | src/offer/offer.controller.ts:647-654 | The code of the first FRANCHISE auto-applicable candidate, or null when there is none. |

## Left out

- The json-rules-engine library. Its all/any semantics, built-in operators
  and asynchronous `run` are a parameter (`Runner`) in the offer service.
  `RulesEngine.Evaluate` is a small stand-in that makes no claim of fidelity
  beyond `containsAndGreaterThan`.
- The shared, injected engine of offer.service.ts and its addRule/removeRule
  lifecycle across requests. Each run is modelled as independent.
- TypeORM repositories. Queries become filter predicates over in-memory
  tables, and `findOne` is the first match in table order.
  - A `null` in a `where` clause is modelled as a dropped condition.
  - Numeric columns that read back as strings are not modelled.
  - Save, upsert, the Postgres error-code mapping and the monthly/lifetime
    sums are left out.
- HTTP clients for the cart, order, store, effective bill and wallet. Their
  answers are inputs. A wallet credit is an entry appended to a log.
- CSV reading, file buffers, bulk-upload persistence, the upload endpoints'
  orchestration, Swagger and class-validator decorators, guards,
  configuration, modules and migrations.
- The cron endpoints that load rows and call the passes (target.controller.ts
  158-267), the store-detail endpoint (420-466) and its helpers
  (addOtherCashbackDetails, getTodayDeliveredOrderByDate, buildDateMap,
  getWalletMap) and markCashbacksWalletEligible. Those are queries and
  client calls around the modelled logic.
- Wall-clock time and time zones: `Date.now`, moment, the IST +5:30 shift and
  the date keying. Dates are day numbers and offer instants are minutes.
  `new Date(text)` and `JSON.parse` are parameters (`SheetEnv`, and
  `UploadContext.parseDay`).
- Random voucher codes, uuids and the timestamped offer names. These are
  caller-supplied parameters.
- `Number()` beyond decimal literals: hex, exponents and Infinity read as NaN.
- Floating-point rounding. Money is exact `real`. The completion percentages
  (target.controller.ts 549-553, 598-602) are display floats and are not
  modelled.
- src/offer/offer-params.service.ts, a database read with a default.
- Response bean classes. The mapper's handling of arrays is not modelled.
- Sheet and upload rows are modelled only on the columns the validators read
  or convert. Other columns pass through untouched.
- A property read on a `null` offer or rule (a TypeError) in
  `getVouchersList` is modelled as the 500 outcome of an engine error by
  OfferController.ItemApplicable. OfferService.ValidateCoupon,
  OfferService.ValidateOfferFranchise and OfferService.CheckOfferApplicable
  instead require the offer to carry its application rules: the
  `offer_application_rules` column is NOT NULL (offers.entity.ts:22-23), so
  every stored offer has them.
- The TargetCampaignMetadata constructor (target-campaign.entity.ts:14-17) is
  the positional datatype constructor `CampaignMetadata(weekly, daily)`, with
  each percent in its own field. It has no separate member.
- OfferController.OldVoucherArgument: a cart voucher code that is not a
  string (a number, say) is passed as no old code; the query would compare
  it to the code column.
- TargetEntities.TargetCampaign.Create: the dates are read through a
  caller-supplied `dayOf`, not by the JavaScript Date parser.
- OfferService.ValidateCoupon: the order-level discount uses the corrected cap test (`ConsumerOrderLevel`), not the test as written at offer.service.ts:92-107; see Findings.
- RulesEngine.Evaluate: a TypeError thrown by `containsAndGreaterThan`
  (`ContainsAndGreaterThanOperator` giving none) makes the leaf false; the
  library would reject the run instead.
- RulesEngine.ContainsAndGreaterThanOperator: loose `==` treats an object,
  array or Date as equal to nothing, rather than comparing identities or
  primitive forms. `>` converts an array or object operand with `Number`
  rather than through its string form. Strings are ordered by code point,
  not by UTF-16 code unit.
- TargetRows.DailyOfferTerms: JavaScript's printing of numbers in the terms
  text (`${dailyCashbackPercent}`, `${dailyTarget}`) is the caller-supplied
  `render`; the shortest round-trip decimal form of a double is not
  modelled on reals.
- Common.Mapper: returns a new record. The source writes nested destination
  objects in place, so a nested object shared with another record would
  change there too; that aliasing is not captured.
- OfferService.CheckOfferApplicable: an engine throw is reported as a 500
  result rather than a rejected promise, and the shared engine's leftover
  rules are not modelled.

## Findings

| source | as written | input that shows it | evidently intended | confidence | as-written member | corrected member |
|---|---|---|---|---|---|---|
| src/offer/offer.service.ts:92-107 | the order-level cap is tested on finalBillAmount × discount_value / 100 whatever the discount type, and the capped value becomes FLAT max_limit | FLAT 60 with max_limit 100 on a bill of 200 becomes FLAT 100, raising the discount; FLAT 60 with max_limit 50 on a bill of 50 keeps 60, above the cap | test the cap on the discount the offer actually gives, as calculateOrderDiscount (453-463) does | not executed | OfferService.ConsumerOrderLevelAsWritten, OfferService.FlatOfferCapMisfires | OfferService.ConsumerOrderLevel, OfferService.ConsumerOrderLevelWithinCap |

=== FILE: common.dfy ===
/**
 * Helpers of the common service (src/core/common/common.service.ts): the
 * object mapper, the point-of-sale check, the date-shape check, the
 * header-mapping parser and the nullable number conversion.
 */
module Common {
  import opened Wrappers
  import opened Strings
  import opened Json

  // ----- mapper -----

  /**
   * `mapper(source, destination)`: every property of `source` that the
   * destination already owns is written into it. A Date is copied as is; a
   * null keeps a truthy destination value and otherwise stores null; a
   * nested object is mapped recursively into the destination's value (a
   * fresh `{}` when that value is falsy); any other value is copied.
   * The destination is returned as a new record.
   */
  function Mapper(source: Facts, dest: Facts): (r: Facts)
    ensures r.Keys == dest.Keys
    ensures forall p :: p in dest && p !in source ==> r[p] == dest[p]
    ensures forall p :: p in dest && p in source && source[p].Date? ==> r[p] == source[p]
    ensures forall p :: p in dest && p in source && source[p].Null? ==>
      r[p] == if Truthy(dest[p]) then dest[p] else Null
    // a primitive or undefined source value is copied over the destination's
    ensures forall p :: p in dest && p in source && (source[p].Undefined? || source[p].Bool? || source[p].Num? || source[p].Str?) ==>
      r[p] == source[p]
    // a nested object is mapped into the destination's object, or into a fresh `{}` when that value is falsy
    ensures forall p :: p in dest && p in source && source[p].Obj? && Truthy(dest[p]) && dest[p].Obj? ==>
      r[p] == Obj(Mapper(source[p].props, dest[p].props))
    ensures forall p :: p in dest && p in source && source[p].Obj? && !Truthy(dest[p]) ==>
      r[p] == Obj(Mapper(source[p].props, map[]))
    ensures forall p :: p in dest && p in source && (source[p].Obj? || source[p].Arr?) && Truthy(dest[p]) && !dest[p].Obj? ==>
      r[p] == dest[p]
    decreases Obj(source)
  {
    map p | p in dest ::
      if p !in source then dest[p]
      else
        match source[p]
        case Date(_) => source[p]
        case Null => if Truthy(dest[p]) then dest[p] else Null
        case Obj(inner) =>
          var target := if Truthy(dest[p]) then dest[p] else Obj(map[]);
          if target.Obj? then Obj(Mapper(inner, target.props)) else target
        case Arr(_) => if Truthy(dest[p]) then dest[p] else Obj(map[])
        case _ => source[p]
  }

  /** Mapping the same source a second time changes nothing. */
  lemma {:induction false} MapperIdempotent(source: Facts, dest: Facts)
    ensures Mapper(source, Mapper(source, dest)) == Mapper(source, dest)
    decreases Obj(source)
  {
    var once := Mapper(source, dest);
    var twice := Mapper(source, once);
    forall p | p in dest
      ensures twice[p] == once[p]
    {
      if p in source && source[p].Obj? {
        var inner := source[p].props;
        var target := if Truthy(dest[p]) then dest[p] else Obj(map[]);
        if target.Obj? {
          MapperIdempotent(inner, target.props);
        }
      }
    }
  }

  // ----- isPosRequest -----

  const POS_APP_ID := "com.example.pos_flutter_app"

  /** Whether the request comes from the point-of-sale app: one fixed application id. */
  predicate IsPosRequest(appId: Option<string>)
  {
    appId == Some(POS_APP_ID)
  }

  // ----- isValidDateFormat -----

  datatype ShapeToken = AnyDigit | Literal(c: char)

  /** Four digits, '-', two digits, '-', two digits: the shape of an ISO 8601 extended calendar date. */
  const DATE_SHAPE: seq<ShapeToken> :=
    [AnyDigit, AnyDigit, AnyDigit, AnyDigit, Literal('-'), AnyDigit, AnyDigit, Literal('-'), AnyDigit, AnyDigit]

  predicate TokenMatches(t: ShapeToken, c: char)
  {
    match t
    case AnyDigit => IsDigit(c)
    case Literal(x) => c == x
  }

  predicate MatchesShape(s: string, shape: seq<ShapeToken>)
  {
    |s| == |shape| && forall i :: 0 <= i < |s| ==> TokenMatches(shape[i], s[i])
  }

  /** The anchored pattern four-digits dash two-digits dash two-digits; no calendar check. */
  predicate IsValidDateFormat(s: string)
  {
    MatchesShape(s, DATE_SHAPE)
  }

  /** The date shape, read as its three digit groups. */
  lemma DateFormatGroups(s: string)
    ensures IsValidDateFormat(s) <==>
      |s| == 10 && AllDigits(s[..4]) && s[4] == '-' && AllDigits(s[5..7]) && s[7] == '-' && AllDigits(s[8..])
  {
    if |s| == 10 && AllDigits(s[..4]) && s[4] == '-' && AllDigits(s[5..7]) && s[7] == '-' && AllDigits(s[8..]) {
      forall i | 0 <= i < 10
        ensures TokenMatches(DATE_SHAPE[i], s[i])
      {
        if i < 4 { assert s[..4][i] == s[i]; }
        else if 5 <= i < 7 { assert s[5..7][i - 5] == s[i]; }
        else if 8 <= i { assert s[8..][i - 8] == s[i]; }
      }
    }
  }

  /** Any three digit groups of lengths 4, 2 and 2 joined by dashes pass, whether or not they name a real day. */
  lemma {:induction false} DateFormatAccepts(y: string, m: string, d: string)
    requires |y| == 4 && |m| == 2 && |d| == 2
    requires AllDigits(y) && AllDigits(m) && AllDigits(d)
    ensures IsValidDateFormat(y + "-" + m + "-" + d)
  {
    var s := y + "-" + m + "-" + d;
    assert s[..4] == y && s[5..7] == m && s[8..] == d;
    DateFormatGroups(s);
  }

  /** Month 13, day 45 has the right shape, so it passes. */
  lemma {:induction false} NoCalendarCheck()
    ensures IsValidDateFormat("2023-13-45")
  {
    DateFormatAccepts("2023", "13", "45");
  }

  // ----- getHeaderMap -----

  /** The `value` of a "value:key" pair: the text before the first ':'. */
  function PairValue(pair: string): string
  {
    Split(pair, ':')[0]
  }

  /** The `key` of a "value:key" pair: the text between the first and second ':', `undefined` when there is none. */
  function PairKey(pair: string): Option<string>
  {
    var parts := Split(pair, ':');
    if |parts| >= 2 then Some(parts[1]) else None
  }

  /** The map built from `pairs` in order; a later pair overwrites an earlier one with the same key. */
  function HeaderMapOf(pairs: seq<string>): map<Option<string>, string>
  {
    if |pairs| == 0 then map[]
    else
      var last := pairs[|pairs| - 1];
      HeaderMapOf(pairs[..|pairs| - 1])[PairKey(last) := PairValue(last)]
  }

  /**
   * `getHeaderMap(mapping)`: split on ',' and store each pair's value under
   * its key, in order.
   */
  method GetHeaderMap(mapping: string) returns (m: map<Option<string>, string>)
    ensures m == HeaderMapOf(Split(mapping, ','))
  {
    var pairs := Split(mapping, ',');
    m := map[];
    var i := 0;
    while i < |pairs|
      invariant 0 <= i <= |pairs|
      invariant m == HeaderMapOf(pairs[..i])
    {
      assert pairs[..i + 1][..i] == pairs[..i];
      m := m[PairKey(pairs[i]) := PairValue(pairs[i])];
      i := i + 1;
    }
    assert pairs[..|pairs|] == pairs;
  }

  /**
   * A key is in the map iff some pair carries it, and it holds the value of
   * the LAST such pair.
   */
  lemma {:induction false} HeaderMapLastWins(pairs: seq<string>, k: Option<string>)
    ensures k in HeaderMapOf(pairs) <==> exists i :: 0 <= i < |pairs| && PairKey(pairs[i]) == k
    ensures forall i ::
      (0 <= i < |pairs| && PairKey(pairs[i]) == k && forall j :: i < j < |pairs| ==> PairKey(pairs[j]) != k)
      ==> HeaderMapOf(pairs)[k] == PairValue(pairs[i])
  {
    if |pairs| > 0 {
      var n := |pairs| - 1;
      var init := pairs[..n];
      HeaderMapLastWins(init, k);
      if PairKey(pairs[n]) != k {
        forall i | 0 <= i < n && PairKey(init[i]) == k
          ensures PairKey(pairs[i]) == k
        {
        }
        forall i | 0 <= i < n && PairKey(pairs[i]) == k
          ensures PairKey(init[i]) == k
        {
        }
      }
    }
  }

  /** A pair written as "value:key", neither part holding ':', reads back as that value and that key. */
  lemma PairParts(v: string, k: string)
    requires ':' !in v && ':' !in k
    ensures PairValue(v + ":" + k) == v && PairKey(v + ":" + k) == Some(k)
  {
    SplitPrefix(v, ":" + k, ':');
    assert v + ":" + k == v + (":" + k);
    assert (":" + k)[1..] == k;
    SplitAbsent(k, ':');
    assert Split(":" + k, ':') == ["", k];
    assert v + "" == v;
  }

  // ----- convertToNumber -----

  /** `convertToNumber(v)`: `null` (and `undefined`) stay null, anything else goes through `Number`. */
  function ConvertToNumber(v: Value): (r: Option<Number>)
    ensures r.None? <==> IsNullish(v)
    ensures v.Num? ==> r == Some(Finite(v.n))
    ensures v.Str? && AllDigits(v.s) && |v.s| > 0 ==> r == Some(Finite(DigitsValue(v.s) as real))
  {
    if IsNullish(v) then None else Some(ToNumber(v))
  }
}

=== FILE: json.dfy ===
/**
 * JavaScript values as the service sees them: rows parsed from CSV, request
 * records, rule facts. Only the parts of JavaScript's semantics that the
 * modelled code depends on are written out: nullishness (`x == null`),
 * truthiness (`x || y`), the `Number(x)` coercion, property reads, loose
 * equality and the `>` comparison.
 */
module Json {
  import opened Wrappers
  import opened Strings

  /** `Date(None)` is an Invalid Date; a valid date carries its instant. */
  datatype Value =
    | Undefined
    | Null
    | Bool(b: bool)
    | Num(n: real)
    | Str(s: string)
    | Date(time: Option<int>)
    | Arr(items: seq<Value>)
    | Obj(props: map<string, Value>)

  /** A plain object: property name to value. A property that is absent reads as `undefined`. */
  type Facts = map<string, Value>

  function Get(m: Facts, key: string): Value
  {
    if key in m then m[key] else Undefined
  }

  /** `v == null` in JavaScript's loose equality: true of `null` and `undefined` only. */
  predicate IsNullish(v: Value) { v.Undefined? || v.Null? }

  /** JavaScript truthiness; every object, array and Date is truthy. */
  predicate Truthy(v: Value)
  {
    match v
    case Undefined => false
    case Null => false
    case Bool(b) => b
    case Num(n) => n != 0.0
    case Str(s) => s != ""
    case _ => true
  }

  /** A JavaScript number; infinities are not modelled. */
  datatype Number = Finite(r: real) | NaN

  /** The value of an unsigned decimal literal "ddd", "ddd.ddd", ".ddd" or "ddd.", if `body` is one. */
  function DecimalLiteral(body: string): (r: Option<real>)
    ensures AllDigits(body) && |body| > 0 ==> r == Some(DigitsValue(body) as real)
    ensures r.Some? ==> r.value >= 0.0
  {
    var parts := Split(body, '.');
    if AllDigits(body) then
      assert forall i :: 0 <= i < |body| ==> body[i] != '.';
      SplitAbsent(body, '.');
      if |body| > 0 then Some(DigitsValue(body) as real) else None
    else if |parts| == 2 && AllDigits(parts[0]) && AllDigits(parts[1]) && |parts[0]| + |parts[1]| > 0 then
      Some(DigitsValue(parts[0]) as real + (DigitsValue(parts[1]) as real) / (Pow10(|parts[1]|) as real))
    else None
  }

  /**
   * `Number(s)` for a string: surrounding white space and line terminators
   * (Strings.IsSpace) are ignored, the empty
   * string is 0, an optional sign may precede a decimal literal, anything
   * else is NaN.
   */
  function StringToNumber(s: string): (r: Number)
    ensures AllDigits(s) && |s| > 0 ==> r == Finite(DigitsValue(s) as real)
  {
    var t := Trim(s);
    if |t| == 0 then Finite(0.0)
    else
      var neg := t[0] == '-';
      var body := if t[0] == '-' || t[0] == '+' then t[1..] else t;
      match DecimalLiteral(body)
      case None => NaN
      case Some(x) => Finite(if neg then -x else x)
  }

  /** A no-break space and a line separator around digits are stripped, as JavaScript does. */
  lemma StringToNumberStripsUnicodeSpace()
    ensures StringToNumber("\U{00A0}5") == Finite(5.0)
    ensures StringToNumber("7\U{2028}") == Finite(7.0)
  {
    assert TrimStart("\U{00A0}5") == TrimStart("5");
    assert TrimEnd("7\U{2028}") == TrimEnd("7");
    assert DigitsValue("5") == 5;
    assert DigitsValue("7") == 7;
  }

  /** `Number(v)`. Arrays and plain objects are taken to be NaN. */
  function ToNumber(v: Value): (r: Number)
    ensures v.Num? ==> r == Finite(v.n)
    ensures v.Undefined? ==> r.NaN?
    ensures v.Null? ==> r == Finite(0.0)
  {
    match v
    case Undefined => NaN
    case Null => Finite(0.0)
    case Bool(b) => Finite(if b then 1.0 else 0.0)
    case Num(n) => Finite(n)
    case Str(s) => StringToNumber(s)
    case Date(t) => if t.Some? then Finite(t.value as real) else NaN
    case Arr(_) => NaN
    case Obj(_) => NaN
  }

  /** The global `isNaN(v)`. */
  predicate IsNaN(v: Value) { ToNumber(v).NaN? }

  /** `Number.isInteger(Number(v))`. */
  predicate IsIntegerValued(v: Value)
  {
    var x := ToNumber(v);
    x.Finite? && x.r.Floor as real == x.r
  }

  /** `Number(v) < k`; NaN compares false. */
  predicate NumberLess(v: Value, k: real)
  {
    var x := ToNumber(v);
    x.Finite? && x.r < k
  }

  /** Loose equality `v == n` against a number literal. */
  predicate LooseEqualsNumber(v: Value, n: real)
  {
    !IsNullish(v) && ToNumber(v) == Finite(n)
  }

  /**
   * Property `key` of a value: `undefined` unless the value is an object
   * holding it. Reading a property of `null` or `undefined` throws instead;
   * callers that can meet those test `IsNullish` first. The built-in
   * properties of strings and arrays (`length`, methods) are not modelled.
   */
  function Member(v: Value, key: string): Value
  {
    if v.Obj? then Get(v.props, key) else Undefined
  }

  predicate Primitive(v: Value) { v.Bool? || v.Num? || v.Str? }

  /**
   * Loose equality `a == b`: `null` and `undefined` equal each other and
   * nothing else; two strings compare as text; any other pair of primitives
   * compares as numbers, NaN equal to nothing. An object, array or Date is
   * taken to equal nothing (JavaScript compares two of them by identity,
   * and one against a primitive through its primitive form).
   */
  predicate LooseEquals(a: Value, b: Value)
  {
    if IsNullish(a) || IsNullish(b) then IsNullish(a) && IsNullish(b)
    else if a.Str? && b.Str? then a.s == b.s
    else Primitive(a) && Primitive(b) && ToNumber(a).Finite? && ToNumber(a) == ToNumber(b)
  }

  /** Strict code-point order on strings: a proper prefix comes first. */
  predicate StringGreater(a: string, b: string)
  {
    |a| > 0 && (|b| == 0 || a[0] > b[0] || (a[0] == b[0] && StringGreater(a[1..], b[1..])))
  }

  /**
   * The relational comparison `a > b`: two strings compare as text, any
   * other pair as numbers, and a NaN on either side makes it false.
   */
  predicate Greater(a: Value, b: Value)
  {
    if a.Str? && b.Str? then StringGreater(a.s, b.s)
    else
      var x, y := ToNumber(a), ToNumber(b);
      x.Finite? && y.Finite? && x.r > y.r
  }

  /** The value `Number(v)` stores back into a record; only called where `v` is not NaN. */
  function NumberValue(v: Value): (r: Value)
    requires !IsNaN(v)
    ensures r.Num? && ToNumber(r) == ToNumber(v)
  {
    Num(ToNumber(v).r)
  }
}

=== FILE: offer_controller.dfy ===
/**
 * The offer controller's own logic (src/offer/offer.controller.ts): the
 * row validators of the offer and voucher sheet uploads, the header check
 * and the header-mapping string of an upload, the old voucher code read
 * from a cart, the offer-name index, the voucher list shown to a cart and
 * the code an auto-apply request gets.
 *
 * Sheet rows are the objects the CSV reader yields: every cell is a string
 * or absent (`undefined`), so the text columns are `Option<string>`; the
 * columns a validator converts in place hold a JavaScript `Value`.
 */
module OfferController {
  import opened Wrappers
  import opened Json
  import opened Strings
  import opened Common
  import opened Partition
  import opened RulesEngine
  import opened OrderFacts
  import opened OfferEntities
  import opened TargetEntities
  import opened TargetUpload
  import opened OfferService

  // ----- checkMissingHeader -----

  /**
   * `checkMissingHeader`: the first required attribute the sheet's header
   * row lacks, or `None` when it has them all.
   */
  method CheckMissingHeader(attributes: seq<string>, fieldSet: set<string>) returns (missing: Option<string>)
    ensures missing.None? <==> forall i :: 0 <= i < |attributes| ==> attributes[i] in fieldSet
    ensures missing.Some? ==> exists i :: (
      && 0 <= i < |attributes| && attributes[i] == missing.value && missing.value !in fieldSet
      && forall j :: 0 <= j < i ==> attributes[j] in fieldSet)
  {
    for i := 0 to |attributes|
      invariant forall j :: 0 <= j < i ==> attributes[j] in fieldSet
    {
      if attributes[i] !in fieldSet {
        return Some(attributes[i]);
      }
    }
    missing := None;
  }

  // ----- convertToColonSeparatedString -----

  /** Each header name as the pair "name:name". */
  function SelfPairs(fields: seq<string>): (pairs: seq<string>)
    ensures |pairs| == |fields|
    ensures forall i :: 0 <= i < |fields| ==> pairs[i] == fields[i] + ":" + fields[i]
  {
    seq(|fields|, i requires 0 <= i < |fields| => fields[i] + ":" + fields[i])
  }

  /**
   * `convertToColonSeparatedString`: every header as "name:name", joined
   * with ',' and no separator after the last.
   */
  method ConvertToColonSeparatedString(fields: seq<string>) returns (text: string)
    ensures text == Join(SelfPairs(fields), ',')
  {
    var pairs := SelfPairs(fields);
    text := "";
    var n := |fields|;
    for i := 0 to n
      invariant text == Join(pairs[..i], ',') + (if 0 < i < n then "," else "")
    {
      var val := fields[i];
      JoinPrefixStep(pairs, i);
      text := text + (val + ":" + val);
      if i != n - 1 {
        text := text + ",";
      }
    }
    assert pairs[..n] == pairs;
  }

  /** One more piece of a join: the first piece alone, or the separator and the piece appended. */
  lemma JoinPrefixStep(parts: seq<string>, i: nat)
    requires i < |parts|
    ensures Join(parts[..i + 1], ',') == (if i == 0 then parts[0] else Join(parts[..i], ',') + "," + parts[i])
  {
    if i > 0 {
      JoinSnoc(parts[..i], parts[i], ',');
      assert parts[..i + 1] == parts[..i] + [parts[i]];
    } else {
      assert parts[..1] == [parts[0]];
    }
  }

  /** Appending one piece to a non-empty join adds the separator and that piece. */
  lemma {:induction false} JoinSnoc(parts: seq<string>, p: string, sep: char)
    requires |parts| >= 1
    ensures Join(parts + [p], sep) == Join(parts, sep) + [sep] + p
  {
    if |parts| == 1 {
      assert (parts + [p])[1..] == [p];
    } else {
      JoinSnoc(parts[1..], p, sep);
      assert (parts + [p])[1..] == parts[1..] + [p];
    }
  }

  /** The mapping string of no headers is empty; of n headers free of ',' it holds n - 1 commas. */
  lemma ColonStringCommas(fields: seq<string>)
    requires forall i :: 0 <= i < |fields| ==> ',' !in fields[i]
    ensures |fields| == 0 ==> Join(SelfPairs(fields), ',') == ""
    ensures |fields| > 0 ==> Count(Join(SelfPairs(fields), ','), ',') == |fields| - 1
  {
    var pairs := SelfPairs(fields);
    if |fields| > 0 {
      forall i | 0 <= i < |pairs|
        ensures ',' !in pairs[i]
      {
        SelfPairCommaFree(fields[i]);
      }
      JoinCount(pairs, ',');
    }
  }

  lemma SelfPairCommaFree(f: string)
    requires ',' !in f
    ensures ',' !in f + ":" + f
  {
    assert forall c :: c in f + ":" + f ==> c in f || c == ':';
  }

  /** The map that sends every header name to itself. */
  function IdentityHeaders(fields: seq<string>): (m: map<Option<string>, string>)
    ensures forall k :: k in m <==> k.Some? && k.value in fields
    ensures forall k :: k in m ==> m[k] == k.value
  {
    map k | k in (set f | f in fields :: Some(f)) :: k.value
  }

  /** Reading the first `n` pairs back stores each of the first `n` names under itself. */
  lemma {:induction false} SelfPairsReadBack(fields: seq<string>, n: nat)
    requires n <= |fields|
    requires forall i :: 0 <= i < |fields| ==> ':' !in fields[i]
    ensures HeaderMapOf(SelfPairs(fields)[..n]) == IdentityHeaders(fields[..n])
  {
    var pairs := SelfPairs(fields);
    if n == 0 {
      assert pairs[..0] == [];
    } else {
      SelfPairsReadBack(fields, n - 1);
      PairParts(fields[n - 1], fields[n - 1]);
      assert pairs[..n][..n - 1] == pairs[..n - 1];
      assert fields[..n] == fields[..n - 1] + [fields[n - 1]];
      assert forall f :: f in fields[..n] <==> f in fields[..n - 1] || f == fields[n - 1];
    }
  }

  /**
   * The round trip with `getHeaderMap`: for header names free of ',' and ':',
   * the mapping string built from them reads back as every name mapped to
   * itself, and nothing else.
   */
  lemma ColonStringRoundTrip(fields: seq<string>)
    requires forall i :: 0 <= i < |fields| ==> ',' !in fields[i] && ':' !in fields[i]
    ensures |fields| > 0 ==> HeaderMapOf(Split(Join(SelfPairs(fields), ','), ',')) == IdentityHeaders(fields)
  {
    var pairs := SelfPairs(fields);
    if |fields| > 0 {
      forall i | 0 <= i < |pairs|
        ensures ',' !in pairs[i]
      {
        SelfPairCommaFree(fields[i]);
      }
      SplitJoin(pairs, ',');
      SelfPairsReadBack(fields, |fields|);
      assert pairs[..|fields|] == pairs && fields[..|fields|] == fields;
    }
  }

  // ----- getOldVoucherFromCart -----


  /** The cart's `offerData`, `undefined` for a missing cart. */
  function OfferData(cart: Option<Order>): Value
  {
    if cart.None? then Undefined else Get(cart.value.fields, "offerData")
  }

  /**
   * `getOldVoucherFromCart`: the code of the voucher the cart already
   * carries, when its offer data names a code and says the offer is applied
   * (`isOfferApplied == true`, loosely: true, 1 or "1"); `null` otherwise.
   */
  function OldVoucherFromCart(cart: Option<Order>): (code: Value)
    ensures !IsNullish(code) <==>
      && cart.Some? && !IsNullish(OfferData(cart))
      && !IsNullish(Member(OfferData(cart), "voucherCode"))
      && LooseEqualsNumber(Member(OfferData(cart), "isOfferApplied"), 1.0)
    ensures !IsNullish(code) ==> code == Member(OfferData(cart), "voucherCode")
  {
    var data := OfferData(cart);
    if cart.Some? && !IsNullish(data) then
      if !IsNullish(Member(data, "voucherCode")) && LooseEqualsNumber(Member(data, "isOfferApplied"), 1.0)
      then Member(data, "voucherCode")
      else Null
    else Null
  }

  /** An applied offer gives back its code; an offer marked not applied gives none. */
  lemma OldVoucherOnlyWhenApplied(fields: Facts, data: Facts, code: string)
    requires "offerData" in fields && fields["offerData"] == Obj(data)
    requires "voucherCode" in data && data["voucherCode"] == Str(code)
    ensures "isOfferApplied" in data && data["isOfferApplied"] == Bool(true) ==>
      OldVoucherFromCart(Some(Order(fields, []))) == Str(code)
    ensures "isOfferApplied" !in data || data["isOfferApplied"] == Bool(false) ==>
      OldVoucherFromCart(Some(Order(fields, []))) == Null
  {
  }

  // ----- getOffersListMap -----

  /** The offers indexed by name after the first `n`: a later offer replaces an earlier one of the same name. */
  function OfferNameMap(offers: seq<Offer>, n: nat): map<Option<string>, Offer>
    requires n <= |offers|
  {
    if n == 0 then map[] else OfferNameMap(offers, n - 1)[offers[n - 1].offerName := offers[n - 1]]
  }

  /** A name is indexed iff some offer among the first `n` has it. */
  lemma {:induction false} OfferNameMapKeys(offers: seq<Offer>, n: nat, name: Option<string>)
    requires n <= |offers|
    ensures name in OfferNameMap(offers, n) <==> exists i :: 0 <= i < n && offers[i].offerName == name
  {
    if n > 0 {
      OfferNameMapKeys(offers, n - 1, name);
    }
  }

  /** A name holds the LAST offer with that name. */
  lemma {:induction false} OfferNameMapLastWins(offers: seq<Offer>, n: nat, i: nat)
    requires i < n <= |offers|
    requires forall j :: i < j < n ==> offers[j].offerName != offers[i].offerName
    ensures offers[i].offerName in OfferNameMap(offers, n) && OfferNameMap(offers, n)[offers[i].offerName] == offers[i]
  {
    if i < n - 1 {
      OfferNameMapLastWins(offers, n - 1, i);
    }
  }

  /** The whole map: its keys are the offers' names, each holding the last offer of that name. */
  lemma OfferNameMapMeaning(offers: seq<Offer>)
    ensures forall name :: name in OfferNameMap(offers, |offers|) <==> exists i :: 0 <= i < |offers| && offers[i].offerName == name
    ensures forall i | 0 <= i < |offers| && forall j :: i < j < |offers| ==> offers[j].offerName != offers[i].offerName ::
      offers[i].offerName in OfferNameMap(offers, |offers|) && OfferNameMap(offers, |offers|)[offers[i].offerName] == offers[i]
  {
    forall name
      ensures name in OfferNameMap(offers, |offers|) <==> exists i :: 0 <= i < |offers| && offers[i].offerName == name
    {
      OfferNameMapKeys(offers, |offers|, name);
    }
    forall i | 0 <= i < |offers| && forall j :: i < j < |offers| ==> offers[j].offerName != offers[i].offerName
      ensures offers[i].offerName in OfferNameMap(offers, |offers|)
      ensures OfferNameMap(offers, |offers|)[offers[i].offerName] == offers[i]
    {
      OfferNameMapLastWins(offers, |offers|, i);
    }
  }

  /**
   * `getOffersListMap`: each offer stored under its name, in list order, so
   * that of two offers with one name the later is kept.
   */
  method OffersListMap(offers: seq<Offer>) returns (m: map<Option<string>, Offer>)
    ensures forall name :: name in m <==> exists i :: 0 <= i < |offers| && offers[i].offerName == name
    ensures forall i | 0 <= i < |offers| && forall j :: i < j < |offers| ==> offers[j].offerName != offers[i].offerName ::
      offers[i].offerName in m && m[offers[i].offerName] == offers[i]
  {
    m := map[];
    for i := 0 to |offers|
      invariant m == OfferNameMap(offers, i)
    {
      m := m[offers[i].offerName := offers[i]];
    }
    OfferNameMapMeaning(offers);
  }

  // ----- row validation shared by both sheets -----

  /** The parsers a validator calls: `new Date(v)` (`None` is an Invalid Date) and `JSON.parse(v)` (`None` when it throws). */
  datatype SheetEnv = SheetEnv(newDate: Value -> Option<int>, parseJson: Value -> Option<Value>)

  /** A text cell is one of two allowed words, when present. */
  predicate BadChoice(cell: Option<string>, a: string, b: string)
  {
    cell.Some? && cell.value != a && cell.value != b
  }

  /** `[e]` when the check fails, `[]` when it passes. */
  function When(failed: bool, e: FieldError): (es: seq<FieldError>)
    ensures |es| == (if failed then 1 else 0) && (failed ==> es == [e])
  {
    if failed then [e] else []
  }

  /** A numeric column's conversion: a present value that is a number becomes that number. */
  function NumericCell(v: Value): (r: Value)
    ensures IsNullish(v) || IsNaN(v) ==> r == v
    ensures !IsNullish(v) && !IsNaN(v) ==> r.Num? && ToNumber(r) == ToNumber(v)
  {
    if !IsNullish(v) && !IsNaN(v) then NumberValue(v) else v
  }

  /** A flag column's conversion: a present value that is a number becomes `Number(v) != 0`. */
  function FlagCell(v: Value): (r: Value)
    ensures IsNullish(v) || IsNaN(v) ==> r == v
    ensures !IsNullish(v) && !IsNaN(v) ==> r == Bool(ToNumber(v).r != 0.0)
  {
    if !IsNullish(v) && !IsNaN(v) then Bool(ToNumber(v).r != 0.0) else v
  }

  // ----- parseOffers -----

  const DISCOUNT_TYPE_ERROR := FieldError(FIELD_ERROR, "discount_type can only be FLAT or PERCENT", "discount_type")
  const DISCOUNT_VALUE_ERROR := FieldError(FIELD_ERROR, "discount_value format incorrect", "discount_value")
  const OFFER_START_ERROR := FieldError(FIELD_ERROR, "offer_start format incorrect", "offer_start")
  const OFFER_END_ERROR := FieldError(FIELD_ERROR, "offer_end format incorrect", "offer_end")
  const RULES_ERROR := FieldError(FIELD_ERROR, "offer_application_rules format incorrect", "offer_application_rules")
  const OFFER_NAME_ERROR := FieldError(FIELD_ERROR, "offer_name cannot be null", "offer_name")

  const FLAT := "FLAT"
  const PERCENT := "PERCENT"
  const ORDER_ITEM_LEVEL := "ORDERITEM"

  /** The columns of an offer sheet row the validator reads or converts, and its errors. */
  datatype OfferSheetRecord = OfferSheetRecord(
    discountType: Option<string>,
    discountValue: Value,
    offerStart: Value,
    offerEnd: Value,
    applicationRules: Value,
    offerLevel: Option<string>,
    offerName: Option<string>,
    active: Value,
    errors: seq<FieldError>)

  /** A present cell that is not a number. */
  predicate BadNumber(v: Value) { !IsNullish(v) && IsNaN(v) }

  predicate BadDate(env: SheetEnv, v: Value) { !IsNullish(v) && env.newDate(v).None? }

  /** The rules cell does not parse, or parses to `null`. */
  predicate BadRules(env: SheetEnv, v: Value)
  {
    !IsNullish(v) && (env.parseJson(v).None? || IsNullish(env.parseJson(v).value))
  }

  /** A date column's conversion: a present value becomes `new Date(v)`. */
  function DateCell(env: SheetEnv, v: Value): Value
  {
    if IsNullish(v) then v else Date(env.newDate(v))
  }

  /** The rules column's conversion: a present cell that parses to a non-null value becomes that value. */
  function RulesCell(env: SheetEnv, v: Value): Value
  {
    if IsNullish(v) || BadRules(env, v) then v else env.parseJson(v).value
  }

  /** The seven checks of `parseOffers`, in order; the offer level's error reuses the discount type's. */
  function OfferErrors(r: OfferSheetRecord, env: SheetEnv): seq<FieldError>
  {
    var e4 := OfferFormatErrors(r, env);
    var e5 := e4 + When(BadRules(env, r.applicationRules), RULES_ERROR);
    var e6 := e5 + When(BadChoice(r.offerLevel, ORDER_LEVEL, ORDER_ITEM_LEVEL), DISCOUNT_TYPE_ERROR);
    e6 + When(r.offerName.None?, OFFER_NAME_ERROR)
  }

  /** The errors of the first four columns: discount type, discount value and the two dates. */
  function OfferFormatErrors(r: OfferSheetRecord, env: SheetEnv): seq<FieldError>
  {
    var e1 := [] + When(BadChoice(r.discountType, FLAT, PERCENT), DISCOUNT_TYPE_ERROR);
    var e2 := e1 + When(BadNumber(r.discountValue), DISCOUNT_VALUE_ERROR);
    var e3 := e2 + When(BadDate(env, r.offerStart), OFFER_START_ERROR);
    e3 + When(BadDate(env, r.offerEnd), OFFER_END_ERROR)
  }

  /** An offer row after the loop body of `parseOffers`: errors reset and collected, cells converted. */
  function OfferChecked(r: OfferSheetRecord, env: SheetEnv): OfferSheetRecord
  {
    r.(discountValue := NumericCell(r.discountValue),
       offerStart := DateCell(env, r.offerStart),
       offerEnd := DateCell(env, r.offerEnd),
       applicationRules := RulesCell(env, r.applicationRules),
       active := FlagCell(r.active),
       errors := OfferErrors(r, env))
  }

  /** The number of the seven offer checks the row fails. */
  function OfferFailedChecks(r: OfferSheetRecord, env: SheetEnv): nat
  {
    (if BadChoice(r.discountType, FLAT, PERCENT) then 1 else 0) + (if BadNumber(r.discountValue) then 1 else 0) +
    (if BadDate(env, r.offerStart) then 1 else 0) + (if BadDate(env, r.offerEnd) then 1 else 0) +
    (if BadRules(env, r.applicationRules) then 1 else 0) +
    (if BadChoice(r.offerLevel, ORDER_LEVEL, ORDER_ITEM_LEVEL) then 1 else 0) + (if r.offerName.None? then 1 else 0)
  }

  /**
   * The checks are independent: every failing check adds its own error, so
   * the row carries one error per failing check, and it fails exactly when
   * some check does.
   */
  lemma OfferErrorsAccumulate(r: OfferSheetRecord, env: SheetEnv)
    ensures |OfferChecked(r, env).errors| == OfferFailedChecks(r, env)
    ensures BadChoice(r.discountType, FLAT, PERCENT) ==> DISCOUNT_TYPE_ERROR in OfferChecked(r, env).errors
    ensures BadNumber(r.discountValue) ==> DISCOUNT_VALUE_ERROR in OfferChecked(r, env).errors
    ensures BadDate(env, r.offerStart) ==> OFFER_START_ERROR in OfferChecked(r, env).errors
    ensures BadDate(env, r.offerEnd) ==> OFFER_END_ERROR in OfferChecked(r, env).errors
    ensures BadRules(env, r.applicationRules) ==> RULES_ERROR in OfferChecked(r, env).errors
    ensures r.offerName.None? ==> OFFER_NAME_ERROR in OfferChecked(r, env).errors
  {
    var es := OfferChecked(r, env).errors;
    assert r.offerName.None? ==> es[|es| - 1] == OFFER_NAME_ERROR;
  }

  /**
   * A bad offer level is reported under the discount type's message and
   * field: with a valid discount type the row then carries the discount
   * type error, and no error ever names an `offer_level` field.
   */
  lemma OfferLevelReportedAsDiscountType(r: OfferSheetRecord, env: SheetEnv)
    ensures BadChoice(r.offerLevel, ORDER_LEVEL, ORDER_ITEM_LEVEL) ==> DISCOUNT_TYPE_ERROR in OfferChecked(r, env).errors
    ensures forall e :: e in OfferChecked(r, env).errors ==> e.field != "offer_level"
  {
    var es := OfferChecked(r, env).errors;
    assert forall e :: e in es ==> e in {DISCOUNT_TYPE_ERROR, DISCOUNT_VALUE_ERROR, OFFER_START_ERROR, OFFER_END_ERROR,
      RULES_ERROR, OFFER_NAME_ERROR};
  }

  /**
   * The conversions: a numeric discount value becomes its number, a numeric
   * `active` becomes `Number(active) != 0`, present dates become Dates;
   * the text columns are left as read.
   */
  lemma OfferConversions(r: OfferSheetRecord, env: SheetEnv)
    ensures var c := OfferChecked(r, env);
      && c.discountType == r.discountType && c.offerLevel == r.offerLevel && c.offerName == r.offerName
      && (!BadNumber(r.discountValue) && !IsNullish(r.discountValue) ==>
            c.discountValue.Num? && ToNumber(c.discountValue) == ToNumber(r.discountValue))
      && (BadNumber(r.discountValue) ==> c.discountValue == r.discountValue)
      && (!IsNullish(r.active) && !IsNaN(r.active) ==> c.active == Bool(ToNumber(r.active).r != 0.0))
      && (!IsNullish(r.offerStart) ==> c.offerStart.Date? && (c.offerStart.time.None? <==> BadDate(env, r.offerStart)))
      && (!BadRules(env, r.applicationRules) && !IsNullish(r.applicationRules) ==>
          Some(c.applicationRules) == env.parseJson(r.applicationRules))
  {
  }

  /** An uploaded offer row object; the validator resets its errors, collects new ones and converts cells in place. */
  class OfferSheetRow {
    var discountType: Option<string>
    var discountValue: Value
    var offerStart: Value
    var offerEnd: Value
    var applicationRules: Value
    var offerLevel: Option<string>
    var offerName: Option<string>
    var active: Value
    var errors: seq<FieldError>

    function Value(): OfferSheetRecord
      reads this
    {
      OfferSheetRecord(discountType, discountValue, offerStart, offerEnd, applicationRules, offerLevel, offerName,
        active, errors)
    }

    constructor (r: OfferSheetRecord)
      ensures Value() == r
    {
      discountType, discountValue, offerStart, offerEnd := r.discountType, r.discountValue, r.offerStart, r.offerEnd;
      applicationRules, offerLevel, offerName, active := r.applicationRules, r.offerLevel, r.offerName, r.active;
      errors := r.errors;
    }

    /** The loop body of `parseOffers` on this row: the errors reset, then each column's check in turn. */
    method Check(env: SheetEnv)
      modifies this
      ensures Value() == OfferChecked(old(Value()), env)
    {
      errors := [];
      CheckFormats(env);
      CheckApplicationRules(env);
      CheckOfferLevel();
      CheckOfferName();
      ConvertActive();
    }

    /** The first four column checks, starting from the reset error list. */
    method CheckFormats(env: SheetEnv)
      requires errors == []
      modifies this`errors, this`discountValue, this`offerStart, this`offerEnd
      ensures errors == OfferFormatErrors(old(Value()), env)
      ensures discountValue == NumericCell(old(discountValue))
      ensures offerStart == DateCell(env, old(offerStart)) && offerEnd == DateCell(env, old(offerEnd))
    {
      CheckDiscountType();
      CheckDiscountValue();
      CheckOfferStart(env);
      CheckOfferEnd(env);
    }

    method CheckDiscountType()
      modifies this`errors
      ensures errors == old(errors) + When(BadChoice(discountType, FLAT, PERCENT), DISCOUNT_TYPE_ERROR)
    {
      if discountType.Some? && discountType.value != FLAT && discountType.value != PERCENT {
        errors := errors + [DISCOUNT_TYPE_ERROR];
      }
    }

    method CheckDiscountValue()
      modifies this`errors, this`discountValue
      ensures errors == old(errors) + When(BadNumber(old(discountValue)), DISCOUNT_VALUE_ERROR)
      ensures discountValue == NumericCell(old(discountValue))
    {
      if !IsNullish(discountValue) && IsNaN(discountValue) {
        errors := errors + [DISCOUNT_VALUE_ERROR];
      } else if !IsNullish(discountValue) {
        discountValue := NumberValue(discountValue);
      }
    }

    method CheckOfferStart(env: SheetEnv)
      modifies this`errors, this`offerStart
      ensures errors == old(errors) + When(BadDate(env, old(offerStart)), OFFER_START_ERROR)
      ensures offerStart == DateCell(env, old(offerStart))
    {
      if !IsNullish(offerStart) {
        offerStart := Date(env.newDate(offerStart));
        if offerStart.time.None? {
          errors := errors + [OFFER_START_ERROR];
        }
      }
    }

    method CheckOfferEnd(env: SheetEnv)
      modifies this`errors, this`offerEnd
      ensures errors == old(errors) + When(BadDate(env, old(offerEnd)), OFFER_END_ERROR)
      ensures offerEnd == DateCell(env, old(offerEnd))
    {
      if !IsNullish(offerEnd) {
        offerEnd := Date(env.newDate(offerEnd));
        if offerEnd.time.None? {
          errors := errors + [OFFER_END_ERROR];
        }
      }
    }

    method CheckApplicationRules(env: SheetEnv)
      modifies this`errors, this`applicationRules
      ensures errors == old(errors) + When(BadRules(env, old(applicationRules)), RULES_ERROR)
      ensures applicationRules == RulesCell(env, old(applicationRules))
    {
      if !IsNullish(applicationRules) {
        var oar := env.parseJson(applicationRules);
        if oar.None? || IsNullish(oar.value) {
          errors := errors + [RULES_ERROR];
        } else {
          applicationRules := oar.value;
        }
      }
    }

    method CheckOfferLevel()
      modifies this`errors
      ensures errors == old(errors) + When(BadChoice(offerLevel, ORDER_LEVEL, ORDER_ITEM_LEVEL), DISCOUNT_TYPE_ERROR)
    {
      if offerLevel.Some? && offerLevel.value != ORDER_LEVEL && offerLevel.value != ORDER_ITEM_LEVEL {
        errors := errors + [DISCOUNT_TYPE_ERROR];
      }
    }

    method CheckOfferName()
      modifies this`errors
      ensures errors == old(errors) + When(offerName.None?, OFFER_NAME_ERROR)
    {
      if offerName.None? {
        errors := errors + [OFFER_NAME_ERROR];
      }
    }

    method ConvertActive()
      modifies this`active
      ensures active == FlagCell(old(active))
    {
      if !IsNullish(active) && !IsNaN(active) {
        active := Bool(ToNumber(active).r != 0.0);
      }
    }
  }

  function OfferRowValues(rows: seq<OfferSheetRow>): (vs: seq<OfferSheetRecord>)
    reads set r | r in rows
    ensures |vs| == |rows| && forall i :: 0 <= i < |rows| ==> vs[i] == rows[i].Value()
  {
    seq(|rows|, i requires 0 <= i < |rows| reads rows => rows[i].Value())
  }

  /** Whether each row holds an error. */
  function OfferFailures(vs: seq<OfferSheetRecord>): (fs: seq<bool>)
    ensures |fs| == |vs| && forall i :: 0 <= i < |vs| ==> fs[i] == (|vs[i].errors| > 0)
  {
    seq(|vs|, i requires 0 <= i < |vs| => |vs[i].errors| > 0)
  }

  /**
   * `parseOffers`: every row is checked, and goes to the success list when
   * it holds no error and to the failed list otherwise, in input order; each
   * row lands in exactly one of the two.
   */
  method ParseOffers(rows: seq<OfferSheetRow>, env: SheetEnv)
    returns (successRows: seq<OfferSheetRow>, failedRows: seq<OfferSheetRow>)
    requires Distinct(rows)
    modifies set r | r in rows
    ensures forall i :: 0 <= i < |rows| ==> rows[i].Value() == OfferChecked(old(rows[i].Value()), env)
    ensures successRows == Select(rows, OfferFailures(OfferRowValues(rows)), false)
    ensures failedRows == Select(rows, OfferFailures(OfferRowValues(rows)), true)
    ensures multiset(successRows) + multiset(failedRows) == multiset(rows)
  {
    ghost var before := OfferRowValues(rows);
    ghost var outs := seq(|rows|, j requires 0 <= j < |rows| => OfferChecked(before[j], env));
    ghost var flags;
    successRows, failedRows, flags := ParseOfferRows(rows, env, before, outs);
    assert OfferRowValues(rows) == outs;
    assert flags == OfferFailures(outs);
    SelectPartition(rows, flags);
  }

  /** `outs` holds the checked value of each row of `before`. */
  predicate OffersChecked(before: seq<OfferSheetRecord>, outs: seq<OfferSheetRecord>, env: SheetEnv)
  {
    |outs| == |before| &&
    forall j {:trigger OfferChecked(before[j], env)} :: 0 <= j < |before| ==> outs[j] == OfferChecked(before[j], env)
  }

  /** The loop of `parseOffers`, stated against the checked value of every row. */
  method ParseOfferRows(rows: seq<OfferSheetRow>, env: SheetEnv, ghost before: seq<OfferSheetRecord>, ghost outs: seq<OfferSheetRecord>)
    returns (successRows: seq<OfferSheetRow>, failedRows: seq<OfferSheetRow>, ghost flags: seq<bool>)
    requires Distinct(rows) && |before| == |rows| && |outs| == |rows|
    requires forall j :: 0 <= j < |rows| ==> rows[j].Value() == before[j]
    requires OffersChecked(before, outs, env)
    modifies set r | r in rows
    ensures forall j :: 0 <= j < |rows| ==> rows[j].Value() == outs[j]
    ensures |flags| == |rows| && forall j :: 0 <= j < |rows| ==> flags[j] == (|outs[j].errors| > 0)
    ensures successRows == Select(rows, flags, false) && failedRows == Select(rows, flags, true)
  {
    flags := [];
    successRows, failedRows := [], [];
    for i := 0 to |rows|
      invariant forall j :: 0 <= j < i ==> rows[j].Value() == outs[j]
      invariant forall j :: i <= j < |rows| ==> rows[j].Value() == before[j]
      invariant |flags| == i && forall j :: 0 <= j < i ==> flags[j] == (|outs[j].errors| > 0)
      invariant successRows == SelectUpTo(rows, flags, false, i)
      invariant failedRows == SelectUpTo(rows, flags, true, i)
    {
      successRows, failedRows, flags := CheckOfferRow(rows, env, before, outs, i, successRows, failedRows, flags);
    }
  }

  /**
   * The loop body on the `i`-th row, whose checked value is known: the row
   * is checked, the other rows keep their values, and the row joins the
   * failed rows exactly when it has errors.
   */
  method CheckOfferRow(rows: seq<OfferSheetRow>, env: SheetEnv, ghost before: seq<OfferSheetRecord>,
                       ghost outs: seq<OfferSheetRecord>, i: nat,
                       successRows: seq<OfferSheetRow>, failedRows: seq<OfferSheetRow>, ghost flags: seq<bool>)
    returns (successRows': seq<OfferSheetRow>, failedRows': seq<OfferSheetRow>, ghost flags': seq<bool>)
    requires Distinct(rows) && i < |rows| && |before| == |rows| && OffersChecked(before, outs, env)
    requires forall j :: 0 <= j < i ==> rows[j].Value() == outs[j]
    requires forall j :: i <= j < |rows| ==> rows[j].Value() == before[j]
    requires |flags| == i && forall j :: 0 <= j < i ==> flags[j] == (|outs[j].errors| > 0)
    requires successRows == SelectUpTo(rows, flags, false, i)
    requires failedRows == SelectUpTo(rows, flags, true, i)
    modifies rows[i]
    ensures forall j :: 0 <= j < i + 1 ==> rows[j].Value() == outs[j]
    ensures forall j :: i + 1 <= j < |rows| ==> rows[j].Value() == before[j]
    ensures |flags'| == i + 1 && forall j :: 0 <= j < i + 1 ==> flags'[j] == (|outs[j].errors| > 0)
    ensures successRows' == SelectUpTo(rows, flags', false, i + 1)
    ensures failedRows' == SelectUpTo(rows, flags', true, i + 1)
  {
    rows[i].Check(env);
    var failed := |rows[i].errors| > 0;
    successRows', failedRows', flags' := Route(rows, flags, i, failed, successRows, failedRows);
  }


  // ----- parseVouchers -----

  const VOUCHER_TYPE_ERROR := FieldError(FIELD_ERROR, "voucher_type can only be STATIC or DYNAMIC", "voucher_type")
  const APPLICABLE_FOR_ERROR := FieldError(FIELD_ERROR, "applicable_for can only be ALL or ASSIGNED", "applicable_for")
  const VOUCHER_FOR_ERROR := FieldError(FIELD_ERROR, "voucher_for can only be FRANCHISE or CONSUMER", "voucher_for")
  const ASSIGNED_TO_ERROR := FieldError(FIELD_ERROR, "assigned_to cannot be null", "assigned_to")
  const CODE_ERROR := FieldError(FIELD_ERROR, "code cannot be null", "code")

  /** The error for a voucher naming an offer the upload's offers do not include. */
  function UnknownOfferError(name: string): FieldError
  {
    FieldError(FIELD_ERROR, "offer with name " + name + " does not exist", "offer_name")
  }

  /** The columns of a voucher sheet row the validator reads or sets, and its errors. */
  datatype VoucherSheetRecord = VoucherSheetRecord(
    voucherType: Option<string>,
    applicableFor: Option<string>,
    voucherFor: Option<string>,
    assignedTo: Option<string>,
    code: Option<string>,
    offerName: Option<string>,
    offerId: Option<string>,
    active: Value,
    isPublic: Value,
    errors: seq<FieldError>)

  /** The offer-name check: required, and then one of the offers of the upload. */
  function OfferNameErrors(name: Option<string>, offerMap: map<Option<string>, Offer>): seq<FieldError>
  {
    if name.None? then [OFFER_NAME_ERROR]
    else if name !in offerMap then [UnknownOfferError(name.value)]
    else []
  }

  /** The six checks of `parseVouchers`, in order. */
  function VoucherErrors(r: VoucherSheetRecord, offerMap: map<Option<string>, Offer>): seq<FieldError>
  {
    var e1 := [] + When(BadChoice(r.voucherType, STATIC, DYNAMIC), VOUCHER_TYPE_ERROR);
    var e2 := e1 + When(BadChoice(r.applicableFor, APPLICABLE_ALL, APPLICABLE_ASSIGNED), APPLICABLE_FOR_ERROR);
    var e3 := e2 + When(BadChoice(r.voucherFor, FRANCHISE, CONSUMER), VOUCHER_FOR_ERROR);
    var e4 := e3 + When(r.assignedTo.None?, ASSIGNED_TO_ERROR);
    var e5 := e4 + When(r.code.None?, CODE_ERROR);
    e5 + OfferNameErrors(r.offerName, offerMap)
  }

  /** A voucher row after the loop body of `parseVouchers`. */
  function VoucherChecked(r: VoucherSheetRecord, offerMap: map<Option<string>, Offer>): VoucherSheetRecord
  {
    r.(offerId := if r.offerName.Some? && r.offerName in offerMap then offerMap[r.offerName].id else r.offerId,
       active := FlagCell(r.active),
       isPublic := FlagCell(r.isPublic),
       errors := VoucherErrors(r, offerMap))
  }

  /** The number of the six voucher checks the row fails. */
  function VoucherFailedChecks(r: VoucherSheetRecord, offerMap: map<Option<string>, Offer>): nat
  {
    (if BadChoice(r.voucherType, STATIC, DYNAMIC) then 1 else 0) +
    (if BadChoice(r.applicableFor, APPLICABLE_ALL, APPLICABLE_ASSIGNED) then 1 else 0) +
    (if BadChoice(r.voucherFor, FRANCHISE, CONSUMER) then 1 else 0) +
    (if r.assignedTo.None? then 1 else 0) + (if r.code.None? then 1 else 0) +
    (if r.offerName !in offerMap then 1 else 0)
  }

  /**
   * The voucher checks are independent and accumulate; the offer id is set
   * exactly when the offer name is one of the upload's offers, and then it
   * is that offer's id.
   */
  lemma VoucherErrorsAccumulate(r: VoucherSheetRecord, offerMap: map<Option<string>, Offer>)
    requires None !in offerMap
    ensures |VoucherChecked(r, offerMap).errors| == VoucherFailedChecks(r, offerMap)
    ensures BadChoice(r.voucherType, STATIC, DYNAMIC) ==> VOUCHER_TYPE_ERROR in VoucherChecked(r, offerMap).errors
    ensures BadChoice(r.applicableFor, APPLICABLE_ALL, APPLICABLE_ASSIGNED) ==>
      APPLICABLE_FOR_ERROR in VoucherChecked(r, offerMap).errors
    ensures BadChoice(r.voucherFor, FRANCHISE, CONSUMER) ==> VOUCHER_FOR_ERROR in VoucherChecked(r, offerMap).errors
    ensures r.assignedTo.None? ==> ASSIGNED_TO_ERROR in VoucherChecked(r, offerMap).errors
    ensures r.code.None? ==> CODE_ERROR in VoucherChecked(r, offerMap).errors
    ensures r.offerName.Some? && r.offerName !in offerMap ==>
      UnknownOfferError(r.offerName.value) in VoucherChecked(r, offerMap).errors
    ensures r.offerName in offerMap ==> VoucherChecked(r, offerMap).offerId == offerMap[r.offerName].id
    ensures r.offerName !in offerMap ==> VoucherChecked(r, offerMap).offerId == r.offerId
  {
    var es := VoucherChecked(r, offerMap).errors;
    if r.offerName !in offerMap {
      assert es[|es| - 1] == (if r.offerName.None? then OFFER_NAME_ERROR else UnknownOfferError(r.offerName.value));
    }
  }

  /** An uploaded voucher row object; the validator resets its errors, collects new ones and sets cells in place. */
  class VoucherSheetRow {
    var voucherType: Option<string>
    var applicableFor: Option<string>
    var voucherFor: Option<string>
    var assignedTo: Option<string>
    var code: Option<string>
    var offerName: Option<string>
    var offerId: Option<string>
    var active: Value
    var isPublic: Value
    var errors: seq<FieldError>

    function Value(): VoucherSheetRecord
      reads this
    {
      VoucherSheetRecord(voucherType, applicableFor, voucherFor, assignedTo, code, offerName, offerId, active,
        isPublic, errors)
    }

    constructor (r: VoucherSheetRecord)
      ensures Value() == r
    {
      voucherType, applicableFor, voucherFor, assignedTo, code := r.voucherType, r.applicableFor, r.voucherFor,
        r.assignedTo, r.code;
      offerName, offerId, active, isPublic, errors := r.offerName, r.offerId, r.active, r.isPublic, r.errors;
    }

    /** The loop body of `parseVouchers` on this row: the errors reset, then each column's check in turn. */
    method Check(offerMap: map<Option<string>, Offer>)
      modifies this
      ensures Value() == VoucherChecked(old(Value()), offerMap)
    {
      errors := [];
      CheckVoucherType();
      CheckApplicableFor();
      CheckVoucherFor();
      CheckAssignedTo();
      CheckCode();
      CheckOfferName(offerMap);
      ConvertFlags();
    }

    method CheckVoucherType()
      modifies this`errors
      ensures errors == old(errors) + When(BadChoice(voucherType, STATIC, DYNAMIC), VOUCHER_TYPE_ERROR)
    {
      if voucherType.Some? && voucherType.value != STATIC && voucherType.value != DYNAMIC {
        errors := errors + [VOUCHER_TYPE_ERROR];
      }
    }

    method CheckApplicableFor()
      modifies this`errors
      ensures errors == old(errors) +
        When(BadChoice(applicableFor, APPLICABLE_ALL, APPLICABLE_ASSIGNED), APPLICABLE_FOR_ERROR)
    {
      if applicableFor.Some? && applicableFor.value != APPLICABLE_ALL && applicableFor.value != APPLICABLE_ASSIGNED {
        errors := errors + [APPLICABLE_FOR_ERROR];
      }
    }

    method CheckVoucherFor()
      modifies this`errors
      ensures errors == old(errors) + When(BadChoice(voucherFor, FRANCHISE, CONSUMER), VOUCHER_FOR_ERROR)
    {
      if voucherFor.Some? && voucherFor.value != FRANCHISE && voucherFor.value != CONSUMER {
        errors := errors + [VOUCHER_FOR_ERROR];
      }
    }

    method CheckAssignedTo()
      modifies this`errors
      ensures errors == old(errors) + When(assignedTo.None?, ASSIGNED_TO_ERROR)
    {
      if assignedTo.None? {
        errors := errors + [ASSIGNED_TO_ERROR];
      }
    }

    method CheckCode()
      modifies this`errors
      ensures errors == old(errors) + When(code.None?, CODE_ERROR)
    {
      if code.None? {
        errors := errors + [CODE_ERROR];
      }
    }

    method CheckOfferName(offerMap: map<Option<string>, Offer>)
      modifies this`errors, this`offerId
      ensures errors == old(errors) + OfferNameErrors(offerName, offerMap)
      ensures offerId == if offerName.Some? && offerName in offerMap then offerMap[offerName].id else old(offerId)
    {
      if offerName.None? {
        errors := errors + [OFFER_NAME_ERROR];
      } else if offerName !in offerMap {
        errors := errors + [UnknownOfferError(offerName.value)];
      } else {
        offerId := offerMap[offerName].id;
      }
    }

    method ConvertFlags()
      modifies this`active, this`isPublic
      ensures active == FlagCell(old(active)) && isPublic == FlagCell(old(isPublic))
    {
      if !IsNullish(active) && !IsNaN(active) {
        active := Bool(ToNumber(active).r != 0.0);
      }
      if !IsNullish(isPublic) && !IsNaN(isPublic) {
        isPublic := Bool(ToNumber(isPublic).r != 0.0);
      }
    }
  }

  function VoucherRowValues(rows: seq<VoucherSheetRow>): (vs: seq<VoucherSheetRecord>)
    reads set r | r in rows
    ensures |vs| == |rows| && forall i :: 0 <= i < |rows| ==> vs[i] == rows[i].Value()
  {
    seq(|rows|, i requires 0 <= i < |rows| reads rows => rows[i].Value())
  }

  function VoucherFailures(vs: seq<VoucherSheetRecord>): (fs: seq<bool>)
    ensures |fs| == |vs| && forall i :: 0 <= i < |vs| ==> fs[i] == (|vs[i].errors| > 0)
  {
    seq(|vs|, i requires 0 <= i < |vs| => |vs[i].errors| > 0)
  }

  /**
   * `parseVouchers`: every row is checked against the upload's offers, and
   * goes to the success or the failed list by whether it holds an error, in
   * input order; each row lands in exactly one of the two.
   */
  method ParseVouchers(rows: seq<VoucherSheetRow>, offerMap: map<Option<string>, Offer>)
    returns (successRows: seq<VoucherSheetRow>, failedRows: seq<VoucherSheetRow>)
    requires Distinct(rows)
    modifies set r | r in rows
    ensures forall i :: 0 <= i < |rows| ==> rows[i].Value() == VoucherChecked(old(rows[i].Value()), offerMap)
    ensures successRows == Select(rows, VoucherFailures(VoucherRowValues(rows)), false)
    ensures failedRows == Select(rows, VoucherFailures(VoucherRowValues(rows)), true)
    ensures multiset(successRows) + multiset(failedRows) == multiset(rows)
  {
    ghost var before := VoucherRowValues(rows);
    ghost var outs := seq(|rows|, j requires 0 <= j < |rows| => VoucherChecked(before[j], offerMap));
    ghost var flags;
    successRows, failedRows, flags := ParseVoucherRows(rows, offerMap, before, outs);
    assert VoucherRowValues(rows) == outs;
    assert flags == VoucherFailures(outs);
    SelectPartition(rows, flags);
  }

  /** `outs` holds the checked value of each row of `before`. */
  predicate VouchersChecked(before: seq<VoucherSheetRecord>, outs: seq<VoucherSheetRecord>, offerMap: map<Option<string>, Offer>)
  {
    |outs| == |before| &&
    forall j {:trigger VoucherChecked(before[j], offerMap)} :: 0 <= j < |before| ==> outs[j] == VoucherChecked(before[j], offerMap)
  }

  /** The loop of `parseVouchers`, stated against the checked value of every row. */
  method ParseVoucherRows(rows: seq<VoucherSheetRow>, offerMap: map<Option<string>, Offer>, ghost before: seq<VoucherSheetRecord>, ghost outs: seq<VoucherSheetRecord>)
    returns (successRows: seq<VoucherSheetRow>, failedRows: seq<VoucherSheetRow>, ghost flags: seq<bool>)
    requires Distinct(rows) && |before| == |rows| && |outs| == |rows|
    requires forall j :: 0 <= j < |rows| ==> rows[j].Value() == before[j]
    requires VouchersChecked(before, outs, offerMap)
    modifies set r | r in rows
    ensures forall j :: 0 <= j < |rows| ==> rows[j].Value() == outs[j]
    ensures |flags| == |rows| && forall j :: 0 <= j < |rows| ==> flags[j] == (|outs[j].errors| > 0)
    ensures successRows == Select(rows, flags, false) && failedRows == Select(rows, flags, true)
  {
    flags := [];
    successRows, failedRows := [], [];
    for i := 0 to |rows|
      invariant forall j :: 0 <= j < i ==> rows[j].Value() == outs[j]
      invariant forall j :: i <= j < |rows| ==> rows[j].Value() == before[j]
      invariant |flags| == i && forall j :: 0 <= j < i ==> flags[j] == (|outs[j].errors| > 0)
      invariant successRows == SelectUpTo(rows, flags, false, i)
      invariant failedRows == SelectUpTo(rows, flags, true, i)
    {
      successRows, failedRows, flags := CheckVoucherRow(rows, offerMap, before, outs, i, successRows, failedRows, flags);
    }
  }

  /**
   * The loop body on the `i`-th row, whose checked value is known: the row
   * is checked, the other rows keep their values, and the row joins the
   * failed rows exactly when it has errors.
   */
  method CheckVoucherRow(rows: seq<VoucherSheetRow>, offerMap: map<Option<string>, Offer>, ghost before: seq<VoucherSheetRecord>,
                         ghost outs: seq<VoucherSheetRecord>, i: nat,
                         successRows: seq<VoucherSheetRow>, failedRows: seq<VoucherSheetRow>, ghost flags: seq<bool>)
    returns (successRows': seq<VoucherSheetRow>, failedRows': seq<VoucherSheetRow>, ghost flags': seq<bool>)
    requires Distinct(rows) && i < |rows| && |before| == |rows| && VouchersChecked(before, outs, offerMap)
    requires forall j :: 0 <= j < i ==> rows[j].Value() == outs[j]
    requires forall j :: i <= j < |rows| ==> rows[j].Value() == before[j]
    requires |flags| == i && forall j :: 0 <= j < i ==> flags[j] == (|outs[j].errors| > 0)
    requires successRows == SelectUpTo(rows, flags, false, i)
    requires failedRows == SelectUpTo(rows, flags, true, i)
    modifies rows[i]
    ensures forall j :: 0 <= j < i + 1 ==> rows[j].Value() == outs[j]
    ensures forall j :: i + 1 <= j < |rows| ==> rows[j].Value() == before[j]
    ensures |flags'| == i + 1 && forall j :: 0 <= j < i + 1 ==> flags'[j] == (|outs[j].errors| > 0)
    ensures successRows' == SelectUpTo(rows, flags', false, i + 1)
    ensures failedRows' == SelectUpTo(rows, flags', true, i + 1)
  {
    rows[i].Check(offerMap);
    var failed := |rows[i].errors| > 0;
    successRows', failedRows', flags' := Route(rows, flags, i, failed, successRows, failedRows);
  }


  // ----- getVouchersList -----

  /** An entry of the list shown to a cart: the voucher and whether its offer applies to the cart. */
  datatype VoucherListItem = VoucherListItem(voucher: VoucherRow, isOfferApplicable: bool)

  /**
   * `checkOfferApplicable(cart, voucher.offer)` for a listed voucher; a
   * missing offer or application rule is a property read on `null`, which
   * fails the request.
   */
  function ItemApplicable(run: Runner, cart: Order, v: VoucherRow): Result<bool, HttpError>
  {
    if v.offer.None? || v.offer.value.applicationRules.None? then Failure(ENGINE_FAILURE)
    else OfferApplicable(run, cart, v.offer.value)
  }

  /** Whether the view rule hides each voucher from the cart. */
  function HiddenFlags(run: Runner, cart: Order, vouchers: seq<VoucherRow>): (fs: seq<bool>)
    ensures |fs| == |vouchers|
    ensures forall i :: 0 <= i < |vouchers| ==>
      (fs[i] <==> !CheckViewOfferApplicable(run, OrderRecord(cart), Some(vouchers[i])))
  {
    seq(|vouchers|, i requires 0 <= i < |vouchers| =>
      !CheckViewOfferApplicable(run, OrderRecord(cart), Some(vouchers[i])))
  }

  /** The list built from the first `n` vouchers, or the first failure. */
  function VouchersListUpTo(run: Runner, cart: Order, vouchers: seq<VoucherRow>, n: nat)
    : Result<seq<VoucherListItem>, HttpError>
    requires n <= |vouchers|
  {
    if n == 0 then Success([])
    else
      var prev := VouchersListUpTo(run, cart, vouchers, n - 1);
      var v := vouchers[n - 1];
      if prev.Failure? || !CheckViewOfferApplicable(run, OrderRecord(cart), Some(v)) then prev
      else
        match ItemApplicable(run, cart, v)
        case Failure(e) => Failure(e)
        case Success(b) => Success(prev.value + [VoucherListItem(v, b)])
  }

  /** Once the list fails, later vouchers do not change the outcome. */
  lemma {:induction false} VouchersListStops(run: Runner, cart: Order, vouchers: seq<VoucherRow>, n: nat, m: nat)
    requires n <= m <= |vouchers|
    requires VouchersListUpTo(run, cart, vouchers, n).Failure?
    ensures VouchersListUpTo(run, cart, vouchers, m) == VouchersListUpTo(run, cart, vouchers, n)
  {
    if n < m {
      VouchersListStops(run, cart, vouchers, n, m - 1);
    }
  }

  /** The vouchers of a list, in order. */
  function ListedVouchers(items: seq<VoucherListItem>): (vs: seq<VoucherRow>)
    ensures |vs| == |items| && forall i :: 0 <= i < |items| ==> vs[i] == items[i].voucher
  {
    seq(|items|, i requires 0 <= i < |items| => items[i].voucher)
  }

  /**
   * The list keeps input order and drops exactly the vouchers the view rule
   * hides; every entry's flag is whether its offer applies to the cart; the
   * list fails exactly when some shown voucher's applicability check does.
   */
  lemma {:induction false} VouchersListMeaning(run: Runner, cart: Order, vouchers: seq<VoucherRow>, n: nat)
    requires n <= |vouchers|
    ensures var r := VouchersListUpTo(run, cart, vouchers, n);
      r.Failure? <==> exists i :: (
        && 0 <= i < n && CheckViewOfferApplicable(run, OrderRecord(cart), Some(vouchers[i]))
        && ItemApplicable(run, cart, vouchers[i]).Failure?)
    ensures var r := VouchersListUpTo(run, cart, vouchers, n);
      r.Success? ==>
        && ListedVouchers(r.value) == SelectUpTo(vouchers, HiddenFlags(run, cart, vouchers), false, n)
        && forall k :: 0 <= k < |r.value| ==>
             ItemApplicable(run, cart, r.value[k].voucher) == Success(r.value[k].isOfferApplicable)
  {
    if n > 0 {
      VouchersListMeaning(run, cart, vouchers, n - 1);
      var prev := VouchersListUpTo(run, cart, vouchers, n - 1);
      if prev.Success? {
        var v := vouchers[n - 1];
        var r := VouchersListUpTo(run, cart, vouchers, n);
        if r.Success? && CheckViewOfferApplicable(run, OrderRecord(cart), Some(v)) {
          assert ListedVouchers(r.value) == ListedVouchers(prev.value) + [v];
        }
      }
    }
  }

  /**
   * `getVouchersList`: the vouchers the view rule shows the cart, in order,
   * each with whether its offer applies to the cart.
   */
  method VouchersList(run: Runner, cart: Order, vouchers: seq<VoucherRow>)
    returns (r: Result<seq<VoucherListItem>, HttpError>)
    ensures r == VouchersListUpTo(run, cart, vouchers, |vouchers|)
  {
    var response: seq<VoucherListItem> := [];
    var record := OrderRecord(cart);
    for i := 0 to |vouchers|
      invariant VouchersListUpTo(run, cart, vouchers, i) == Success(response)
    {
      var voucher := vouchers[i];
      if !CheckViewOfferApplicable(run, record, Some(voucher)) {
        continue;
      }
      if voucher.offer.None? || voucher.offer.value.applicationRules.None? {
        VouchersListStops(run, cart, vouchers, i + 1, |vouchers|);
        return Failure(ENGINE_FAILURE);
      }
      var applicable := CheckOfferApplicable(run, cart, voucher.offer.value);
      if applicable.Failure? {
        VouchersListStops(run, cart, vouchers, i + 1, |vouchers|);
        return Failure(applicable.error);
      }
      response := response + [VoucherListItem(voucher, applicable.value)];
    }
    r := Success(response);
  }

  // ----- fetchAutoApplyOffers -----

  // ----- fetchOffersForStore -----

  const NO_CART := HttpError(400, "Cart does not exist")

  /**
   * The old-voucher code `fetchOffersForStore` passes to the voucher query:
   * none for a request from the point-of-sale app, otherwise the code of
   * the voucher the cart has applied, when it is a string.
   */
  function OldVoucherArgument(appId: Option<string>, cart: Option<Order>): (code: Option<string>)
    ensures IsPosRequest(appId) ==> code.None?
    ensures !IsPosRequest(appId) ==>
      (code.Some? <==> OldVoucherFromCart(cart).Str?) &&
      (code.Some? ==> code.value == OldVoucherFromCart(cart).s)
  {
    if IsPosRequest(appId) then None
    else
      var carried := OldVoucherFromCart(cart);
      if carried.Str? then Some(carried.s) else None
  }

  /**
   * What the choice means for the list: a point-of-sale request lists only
   * public vouchers, whatever the cart carries; any other request also
   * lists the cart's applied voucher, public or not, when it is active, for
   * consumers and its offer is live.
   */
  lemma OldVoucherArgumentMeaning(v: VoucherRow, appId: Option<string>, cart: Option<Order>,
                                  storeId: Option<string>, customerId: Option<string>, now: int)
    ensures IsPosRequest(appId) && IsCandidate(v, storeId, customerId, OldVoucherArgument(appId, cart), Some(CONSUMER), None, now) ==>
      v.isPublic == Some(true)
    ensures !IsPosRequest(appId) && OldVoucherFromCart(cart).Str? && v.code == Some(OldVoucherFromCart(cart).s)
            && v.active == Some(true) && FieldMatches(Some(CONSUMER), v.voucherFor)
            && OfferFilterMatches(OfferFilter(false), v.offer, now) ==>
      IsCandidate(v, storeId, customerId, OldVoucherArgument(appId, cart), Some(CONSUMER), None, now)
  {
  }

  /**
   * `fetchOffersForStore`: a 400 without a cart; otherwise the consumer
   * vouchers that are candidates for the store, the customer and the old
   * code, filtered and flagged for the cart as `getVouchersList` does.
   */
  method FetchOffersForStore(run: Runner, table: seq<VoucherRow>, storeId: Option<string>, customerId: Option<string>,
                             appId: Option<string>, cart: Option<Order>, now: int)
    returns (r: Result<seq<VoucherListItem>, HttpError>)
    ensures cart.None? ==> r == Failure(NO_CART)
    ensures cart.Some? ==>
      var offers := Select(table, NotCandidates(table, storeId, customerId, OldVoucherArgument(appId, cart), Some(CONSUMER), None, now), false);
      r == VouchersListUpTo(run, cart.value, offers, |offers|)
  {
    if cart.None? {
      return Failure(NO_CART);
    }
    var oldVoucher := OldVoucherArgument(appId, cart);
    var offers := GetVouchersFromUserAndStoreId(table, storeId, customerId, oldVoucher, Some(CONSUMER), None, now);
    r := VouchersList(run, cart.value, offers);
  }

  /**
   * The code `fetchAutoApplyOffers` answers for a franchise store: that of
   * the first stored voucher (in table order) that is a FRANCHISE candidate
   * with an auto-applicable offer, or `null` when there is none.
   */
  method FetchAutoApplyCode(table: seq<VoucherRow>, storeId: Option<string>, now: int) returns (code: Option<string>)
    ensures code.Some? ==> exists i :: (
      && 0 <= i < |table| && table[i].code == code
      && IsCandidate(table[i], storeId, None, None, Some(FRANCHISE), Some(true), now)
      && forall j :: 0 <= j < i ==> !IsCandidate(table[j], storeId, None, None, Some(FRANCHISE), Some(true), now))
    ensures (forall v :: v in table ==> !IsCandidate(v, storeId, None, None, Some(FRANCHISE), Some(true), now)) ==>
      code.None?
    ensures forall i | 0 <= i < |table| && IsCandidate(table[i], storeId, None, None, Some(FRANCHISE), Some(true), now)
                       && (forall j :: 0 <= j < i ==> !IsCandidate(table[j], storeId, None, None, Some(FRANCHISE), Some(true), now)) ::
      code == table[i].code
  {
    var offers := GetVouchersFromUserAndStoreId(table, storeId, None, None, Some(FRANCHISE), Some(true), now);
    ghost var flags := NotCandidates(table, storeId, None, None, Some(FRANCHISE), Some(true), now);
    ghost var first := SelectUpToFirst(table, flags, false, |table|);
    code := if |offers| > 0 then offers[0].code else None;
  }
}

=== FILE: offer_entities.dfy ===
/**
 * Offers and vouchers (src/offer/entity/offers.entity.ts,
 * src/offer/entity/vouchers.entity.ts) and the enumeration values the offer
 * code compares against.
 */
module OfferEntities {
  import opened Wrappers
  import opened Json
  import opened RulesEngine

  // Event types of an offer's application rule.
  const ORDER_LEVEL_EVENT := "ORDERLEVEL"
  const ORDER_ITEM_EVENT := "ORDERITEM"
  const ITEM_LEVEL_EVENT := "ITEMLEVEL"
  // Offer levels.
  const CASHBACK_LEVEL := "CASHBACK"
  const ORDER_LEVEL := "ORDER"
  // Voucher types, applicability and audience.
  const STATIC := "STATIC"
  const DYNAMIC := "DYNAMIC"
  const APPLICABLE_ALL := "ALL"
  const APPLICABLE_ASSIGNED := "ASSIGNED"
  const FRANCHISE := "FRANCHISE"
  const CONSUMER := "CONSUMER"

  /** FLAT or PERCENT; an offer whose discount type is anything else has `None`. */
  datatype DiscountType = Flat | Percent

  /** Whether an offer's conditions must all hold or any may. */
  datatype ConditionType = AllOf | AnyOf

  /** The `rules` column: condition list, how it combines, the event and the offer level. */
  datatype OfferRules = OfferRules(
    conditionType: Option<ConditionType>,
    conditions: seq<Condition>,
    event: Event,
    offerLevel: Option<string>)

  /**
   * An offer row. Fields the factories may leave unassigned are optional;
   * `offerStart`/`offerEnd` are instants in minutes.
   */
  datatype Offer = Offer(
    id: Option<string>,
    offerName: Option<string>,
    offerLevel: Option<string>,
    applicationRules: Option<Rule>,
    viewRules: Option<Condition>,
    discountType: Option<DiscountType>,
    discountValue: real,
    maxLimit: Option<real>,
    title: Option<string>,
    sidebarNote: Option<string>,
    offerStart: Option<int>,
    offerEnd: Option<int>,
    terms: Option<string>,
    rules: Option<OfferRules>,
    isAutoApplicable: Option<bool>,
    active: Option<bool>,
    updatedBy: Option<string>)

  /** A new offer object before any assignment: every field unset except `active`, which defaults to true. */
  const BLANK_OFFER := Offer(None, None, None, None, None, None, 0.0, None, None, None, None, None, None, None, None, Some(true), None)

  /** The request body for creating an offer. */
  datatype CreateOfferDto = CreateOfferDto(
    discountType: Option<DiscountType>,
    discountValue: real,
    title: string,
    sidebarNote: string,
    offerStart: int,
    offerEnd: int,
    terms: string,
    conditions: seq<Condition>,
    eventType: string,
    offerCondition: Option<ConditionType>,
    offerLevel: Option<string>,
    maxLimit: Option<real>,
    active: Option<bool>)

  /**
   * `createNewOfferFromDto`: the display and discount fields come from the
   * request; `active` is the request's value, replacing the default; the
   * rules record takes the request's condition type (the ALL written first is
   * overwritten), its conditions and level, and an event of the request's
   * type with empty params. Name, application rules, view rules and the
   * auto-apply flag stay unset.
   */
  function NewOfferFromDto(dto: CreateOfferDto, userId: string): (offer: Offer)
    ensures offer.rules == Some(OfferRules(dto.offerCondition, dto.conditions, Event(dto.eventType, map[]), dto.offerLevel))
    ensures offer.active == dto.active
    ensures offer.offerName.None? && offer.applicationRules.None? && offer.viewRules.None?
    ensures offer.id.None? && offer.isAutoApplicable.None? && offer.offerLevel.None?
    ensures offer.sidebarNote == Some(dto.sidebarNote) && offer.terms == Some(dto.terms) && offer.title == Some(dto.title)
    ensures offer.offerStart == Some(dto.offerStart) && offer.offerEnd == Some(dto.offerEnd)
    ensures offer.maxLimit == dto.maxLimit && offer.discountType == dto.discountType
    ensures offer.discountValue == dto.discountValue && offer.updatedBy == Some(userId)
  {
    var ruleType := Some(AllOf);
    var initial := OfferRules(ruleType, dto.conditions, Event(dto.eventType, map[]), dto.offerLevel);
    var rulesRecord := initial.(conditionType := dto.offerCondition);
    BLANK_OFFER.(
      sidebarNote := Some(dto.sidebarNote), terms := Some(dto.terms), title := Some(dto.title),
      offerStart := Some(dto.offerStart), offerEnd := Some(dto.offerEnd), updatedBy := Some(userId),
      maxLimit := dto.maxLimit, discountType := dto.discountType, discountValue := dto.discountValue,
      active := dto.active, rules := Some(rulesRecord))
  }

  /**
   * `createNewOfferEntity`: the twelve arguments land in their fields and
   * `active` keeps its default true; id, view rules and the rules record stay unset.
   */
  function NewOfferEntity(
    terms: string, title: string, offerStart: int, offerEnd: int, maxLimit: Option<real>,
    discountType: Option<DiscountType>, discountValue: real, applicationRules: Rule,
    offerName: string, offerLevel: string, isAutoApplicable: bool, userId: string): (offer: Offer)
    ensures offer.active == Some(true)
    ensures offer.terms == Some(terms) && offer.title == Some(title)
    ensures offer.offerStart == Some(offerStart) && offer.offerEnd == Some(offerEnd)
    ensures offer.maxLimit == maxLimit && offer.discountType == discountType && offer.discountValue == discountValue
    ensures offer.applicationRules == Some(applicationRules) && offer.offerName == Some(offerName)
    ensures offer.offerLevel == Some(offerLevel) && offer.isAutoApplicable == Some(isAutoApplicable)
    ensures offer.updatedBy == Some(userId)
    ensures offer.id.None? && offer.viewRules.None? && offer.rules.None? && offer.sidebarNote.None?
  {
    BLANK_OFFER.(
      terms := Some(terms), title := Some(title), offerStart := Some(offerStart), offerEnd := Some(offerEnd),
      maxLimit := maxLimit, discountType := discountType, discountValue := discountValue,
      applicationRules := Some(applicationRules), offerName := Some(offerName), offerLevel := Some(offerLevel),
      isAutoApplicable := Some(isAutoApplicable), updatedBy := Some(userId))
  }

  /** The request body for creating vouchers. */
  datatype CreateVoucherDto = CreateVoucherDto(
    code: string,
    offerId: string,
    voucherType: Option<string>,
    assignedTo: seq<string>,
    applicableFor: string,
    isPublic: Option<bool>,
    voucherFor: Option<string>)

  /** The value of a voucher row, with its joined offer when loaded. */
  datatype VoucherRow = VoucherRow(
    id: Option<string>,
    code: Option<string>,
    offerId: Option<string>,
    voucherType: Option<string>,
    assignedTo: Option<string>,
    applicableFor: Option<string>,
    isRedeemed: Option<bool>,
    isPublic: Option<bool>,
    voucherFor: Option<string>,
    active: Option<bool>,
    campaignId: Option<int>,
    updatedBy: Option<string>,
    offer: Option<Offer>)

  /** A voucher row; the rows are updated in place when a campaign changes. */
  class Voucher {
    var id: Option<string>
    var code: Option<string>
    var offerId: Option<string>
    var voucherType: Option<string>
    var assignedTo: Option<string>
    var applicableFor: Option<string>
    var isRedeemed: Option<bool>
    var isPublic: Option<bool>
    var voucherFor: Option<string>
    var active: Option<bool>
    var campaignId: Option<int>
    var updatedBy: Option<string>
    /** The joined offer, when loaded with its relation. */
    var offer: Option<Offer>

    function Value(): VoucherRow
      reads this
    {
      VoucherRow(id, code, offerId, voucherType, assignedTo, applicableFor, isRedeemed, isPublic, voucherFor,
        active, campaignId, updatedBy, offer)
    }

    /**
     * `createNewVoucherFromDto(dto, entityId, userId)`: assigned to
     * `entityId`; voucher_for, voucher_type and is_public default to
     * FRANCHISE, STATIC and true when the request leaves them null; neither
     * code nor active is assigned.
     */
    constructor FromDto(dto: CreateVoucherDto, entityId: string, userId: string)
      ensures offerId == Some(dto.offerId) && assignedTo == Some(entityId)
      ensures voucherFor == Some(if dto.voucherFor.Some? then dto.voucherFor.value else FRANCHISE)
      ensures voucherType == Some(if dto.voucherType.Some? then dto.voucherType.value else STATIC)
      ensures isPublic == Some(if dto.isPublic.Some? then dto.isPublic.value else true)
      ensures applicableFor == Some(dto.applicableFor) && updatedBy == Some(userId)
      ensures code.None? && active.None? && id.None? && campaignId.None? && isRedeemed.None? && offer.None?
    {
      id, code, active, campaignId, isRedeemed, offer := None, None, None, None, None, None;
      offerId := Some(dto.offerId);
      voucherFor := Some(if dto.voucherFor.Some? then dto.voucherFor.value else FRANCHISE);
      voucherType := Some(if dto.voucherType.Some? then dto.voucherType.value else STATIC);
      applicableFor := Some(dto.applicableFor);
      assignedTo := Some(entityId);
      isPublic := Some(if dto.isPublic.Some? then dto.isPublic.value else true);
      updatedBy := Some(userId);
    }

    /**
     * `createNewVoucherEntity`: the eight data arguments, campaign id
     * included, and the user; active is not assigned.
     */
    constructor Entity(
      offerId': string, code': string, entityId: string, voucherFor': string, voucherType': string,
      applicableFor': string, isPublic': bool, campaignId': int, userId: string)
      ensures code == Some(code') && offerId == Some(offerId') && voucherFor == Some(voucherFor')
      ensures voucherType == Some(voucherType') && applicableFor == Some(applicableFor')
      ensures assignedTo == Some(entityId) && isPublic == Some(isPublic') && campaignId == Some(campaignId')
      ensures updatedBy == Some(userId)
      ensures active.None? && id.None? && isRedeemed.None? && offer.None?
    {
      id, active, isRedeemed, offer := None, None, None, None;
      code := Some(code');
      offerId := Some(offerId');
      voucherFor := Some(voucherFor');
      voucherType := Some(voucherType');
      applicableFor := Some(applicableFor');
      assignedTo := Some(entityId);
      isPublic := Some(isPublic');
      campaignId := Some(campaignId');
      updatedBy := Some(userId);
    }
  }
}

=== FILE: offer_service.dfy ===
/**
 * The offer service (src/offer/offer.service.ts): whether a voucher's offer
 * applies to an order, at order level or item by item, and the discount it
 * then gives; the cashback details of a cashback offer; the voucher and
 * offer lookups as filter predicates over the stored rows.
 *
 * The rules engine is a parameter: `run(conditions, facts)` is whether the
 * conditions hold of the facts, or `None` when the engine throws. Item facts
 * are the merged records of OrderFacts.
 */
module OfferService {
  import opened Wrappers
  import opened Json
  import opened RulesEngine
  import opened OrderFacts
  import opened OfferEntities
  import opened Partition

  /** One run of the engine on one rule: whether it fires, or `None` when the engine throws. */
  type Runner = (Condition, Facts) -> Option<bool>

  const CONFLICT := HttpError(409, "Voucher Level and Type are conflicting.")
  const NOT_APPLICABLE := HttpError(420, "Voucher Cannot be Applied")
  /** An error thrown by the engine leaves the handler as a plain server error. */
  const ENGINE_FAILURE := HttpError(500, "Internal server error")

  // ----- getRulesFromOffer -----

  /** `getRulesFromOffer`: the offer's conditions under `any` when its rule type is ANY, otherwise under `all`. */
  function RulesFromOffer(offer: Offer): (r: Rule)
    requires offer.rules.Some?
    ensures r.event == offer.rules.value.event
    ensures r.conditions.Any? <==> offer.rules.value.conditionType == Some(AnyOf)
    ensures (r.conditions.All? || r.conditions.Any?) && r.conditions.children == offer.rules.value.conditions
  {
    var rules := offer.rules.value;
    Rule(if rules.conditionType == Some(AnyOf) then Any(rules.conditions) else All(rules.conditions), rules.event)
  }

  /** So the rule holds when some condition does (ANY), or when every condition does (anything else, unset included). */
  lemma RulesFromOfferMeaning(offer: Offer, facts: Facts)
    requires offer.rules.Some?
    ensures var cs := offer.rules.value.conditions;
      Evaluate(RulesFromOffer(offer).conditions, facts) <==>
        if offer.rules.value.conditionType == Some(AnyOf) then exists i :: 0 <= i < |cs| && Evaluate(cs[i], facts)
        else forall i :: 0 <= i < |cs| ==> Evaluate(cs[i], facts)
  {
    EvaluateAllIff(offer.rules.value.conditions, facts);
    EvaluateAnyIff(offer.rules.value.conditions, facts);
  }

  // ----- discount arithmetic -----

  /** The discount before the cap: FLAT gives the value, PERCENT that percentage of `base`, any other type 0. */
  function UncappedDiscount(offer: Offer, base: Number): (d: Number)
    ensures d.NaN? <==> offer.discountType == Some(Percent) && base.NaN?
  {
    match offer.discountType
    case Some(Flat) => Finite(offer.discountValue)
    case Some(Percent) => if base.Finite? then Finite(offer.discountValue * base.r / 100.0) else NaN
    case None => Finite(0.0)
  }

  /**
   * The discount of `calculateOrderDiscount` and `calculateItemDiscount`:
   * `Math.min` of the uncapped discount and `max_limit` when there is one.
   * It never exceeds the cap, never exceeds the uncapped amount, and is one
   * of the two; it is undefined (NaN) exactly when the uncapped one is.
   */
  function Discount(offer: Offer, base: Number): (d: Number)
    ensures d.NaN? <==> UncappedDiscount(offer, base).NaN?
    ensures offer.maxLimit.None? ==> d == UncappedDiscount(offer, base)
    ensures d.Finite? && offer.maxLimit.Some? ==>
      && d.r <= offer.maxLimit.value
      && d.r <= UncappedDiscount(offer, base).r
      && (d.r == offer.maxLimit.value || d.r == UncappedDiscount(offer, base).r)
  {
    var d := UncappedDiscount(offer, base);
    if offer.maxLimit.Some? && d.Finite? then
      Finite(if d.r < offer.maxLimit.value then d.r else offer.maxLimit.value)
    else d
  }

  /** A cap at or above the uncapped discount changes nothing. */
  lemma LooseCapKeepsDiscount(offer: Offer, base: Number)
    requires offer.maxLimit.Some? && UncappedDiscount(offer, base).Finite?
    requires UncappedDiscount(offer, base).r <= offer.maxLimit.value
    ensures Discount(offer, base) == UncappedDiscount(offer, base)
  {
  }

  /** A non-negative percentage of a larger base is never a smaller discount. */
  lemma PercentDiscountMonotone(offer: Offer, a: real, b: real)
    requires offer.discountType == Some(Percent) && offer.discountValue >= 0.0 && a <= b
    ensures Discount(offer, Finite(a)).r <= Discount(offer, Finite(b)).r
  {
    var v := offer.discountValue;
    assert v * (b - a) >= 0.0;
    assert v * b == v * a + v * (b - a);
    assert v * a / 100.0 <= v * b / 100.0;
  }

  /** `calculateOrderDiscount`: the capped discount on the order's total selling-price gross amount. */
  function CalculateOrderDiscount(offer: Offer, order: Order): (d: Number)
    ensures d.Finite? && offer.maxLimit.Some? ==> d.r <= offer.maxLimit.value
    ensures offer.discountType == Some(Flat) && offer.maxLimit.None? ==> d == Finite(offer.discountValue)
    ensures var total := ToNumber(Get(order.fields, "totalSpGrossAmount"));
      offer.discountType == Some(Percent) && offer.maxLimit.None? && total.Finite? ==>
        d == Finite(offer.discountValue * total.r / 100.0)
    ensures offer.discountType.None? && offer.maxLimit.None? ==> d == Finite(0.0)
  {
    Discount(offer, ToNumber(Get(order.fields, "totalSpGrossAmount")))
  }

  /** `calculateItemDiscount`: the capped discount on the item's selling-price gross amount. */
  function CalculateItemDiscount(offer: Offer, item: Facts): (d: Number)
    ensures d.Finite? && offer.maxLimit.Some? ==> d.r <= offer.maxLimit.value
    ensures offer.discountType == Some(Flat) && offer.maxLimit.None? ==> d == Finite(offer.discountValue)
    ensures var gross := ToNumber(Get(item, "spGrossAmount"));
      offer.discountType == Some(Percent) && offer.maxLimit.None? && gross.Finite? ==>
        d == Finite(offer.discountValue * gross.r / 100.0)
    ensures offer.discountType.None? && offer.maxLimit.None? ==> d == Finite(0.0)
  {
    Discount(offer, ToNumber(Get(item, "spGrossAmount")))
  }

  /** The cashback a cashback offer pays: a percent or an amount. */
  datatype CashbackDetails = CashbackDetails(cashbackPercent: Option<real>, cashbackAmount: Option<real>)

  /** `getOfferCashbackDetails`: a PERCENT offer pays its value as a percent, a FLAT one as an amount, any other nothing. */
  function OfferCashbackDetails(offer: Offer): (d: CashbackDetails)
    ensures d.cashbackPercent.Some? <==> offer.discountType == Some(Percent)
    ensures d.cashbackAmount.Some? <==> offer.discountType == Some(Flat)
    ensures d.cashbackPercent.Some? ==> d.cashbackPercent.value == offer.discountValue
    ensures d.cashbackAmount.Some? ==> d.cashbackAmount.value == offer.discountValue
  {
    match offer.discountType
    case Some(Percent) => CashbackDetails(Some(offer.discountValue), None)
    case Some(Flat) => CashbackDetails(None, Some(offer.discountValue))
    case None => CashbackDetails(None, None)
  }

  // ----- the consumer order-level discount -----

  /** The order-level part of a consumer response: a discount type and value. */
  datatype OrderLevelDiscount = OrderLevelDiscount(discountType: Option<DiscountType>, discountValue: real)

  /** What an order-level discount takes off a bill. */
  function GrantedAmount(o: OrderLevelDiscount, bill: real): real
  {
    match o.discountType
    case Some(Flat) => o.discountValue
    case Some(Percent) => o.discountValue * bill / 100.0
    case None => 0.0
  }

  /**
   * The order-level discount as `validateCoupon` writes it: the offer's type
   * and value, replaced by FLAT `max_limit` when the bill times the value
   * over 100 exceeds the cap, whatever the discount type.
   */
  function ConsumerOrderLevelAsWritten(offer: Offer, bill: Number): (o: OrderLevelDiscount)
    ensures offer.maxLimit.Some? && bill.Finite? && bill.r * offer.discountValue / 100.0 > offer.maxLimit.value ==>
      o == OrderLevelDiscount(Some(Flat), offer.maxLimit.value)
    ensures !(offer.maxLimit.Some? && bill.Finite? && bill.r * offer.discountValue / 100.0 > offer.maxLimit.value) ==>
      o == OrderLevelDiscount(offer.discountType, offer.discountValue)
  {
    var o := OrderLevelDiscount(offer.discountType, offer.discountValue);
    if offer.maxLimit.Some? && bill.Finite? && bill.r * offer.discountValue / 100.0 > offer.maxLimit.value then
      OrderLevelDiscount(Some(Flat), offer.maxLimit.value)
    else o
  }

  /**
   * On a FLAT offer the percent test misfires both ways: FLAT 60 capped at
   * 100 on a bill of 200 is raised to FLAT 100, and FLAT 60 capped at 50 on
   * a bill of 50 keeps its 60, above the cap.
   */
  lemma FlatOfferCapMisfires(offer: Offer)
    requires offer.discountType == Some(Flat) && offer.discountValue == 60.0
    ensures offer.maxLimit == Some(100.0) ==>
      GrantedAmount(ConsumerOrderLevelAsWritten(offer, Finite(200.0)), 200.0) == 100.0 > offer.discountValue
    ensures offer.maxLimit == Some(50.0) ==>
      GrantedAmount(ConsumerOrderLevelAsWritten(offer, Finite(50.0)), 50.0) == 60.0 > offer.maxLimit.value
  {
  }

  /**
   * The order-level discount with the cap tested on the discount the offer
   * actually gives (as `calculateOrderDiscount` does): FLAT `max_limit` when
   * that exceeds the cap, the offer's own type and value otherwise.
   */
  function ConsumerOrderLevel(offer: Offer, bill: Number): (o: OrderLevelDiscount)
    ensures var d := UncappedDiscount(offer, bill);
      offer.maxLimit.Some? && d.Finite? && d.r > offer.maxLimit.value ==>
        o == OrderLevelDiscount(Some(Flat), offer.maxLimit.value)
    ensures var d := UncappedDiscount(offer, bill);
      !(offer.maxLimit.Some? && d.Finite? && d.r > offer.maxLimit.value) ==>
        o == OrderLevelDiscount(offer.discountType, offer.discountValue)
  {
    var d := UncappedDiscount(offer, bill);
    if offer.maxLimit.Some? && d.Finite? && d.r > offer.maxLimit.value then
      OrderLevelDiscount(Some(Flat), offer.maxLimit.value)
    else OrderLevelDiscount(offer.discountType, offer.discountValue)
  }

  /** With the cap tested on the real discount, the granted amount never exceeds the cap nor what the offer gives uncapped. */
  lemma ConsumerOrderLevelWithinCap(offer: Offer, bill: real)
    ensures var granted := GrantedAmount(ConsumerOrderLevel(offer, Finite(bill)), bill);
      && granted <= GrantedAmount(OrderLevelDiscount(offer.discountType, offer.discountValue), bill)
      && (offer.maxLimit.Some? ==> granted <= offer.maxLimit.value)
  {
    var own := OrderLevelDiscount(offer.discountType, offer.discountValue);
    assert UncappedDiscount(offer, Finite(bill)) == Finite(GrantedAmount(own, bill));
  }

  // ----- item facts and their discounts -----

  /** The consumer path's item fact records: each item merged with its order. */
  function ConsumerFacts(order: Order): (facts: seq<Facts>)
    ensures |facts| == |order.items|
    ensures forall i :: 0 <= i < |order.items| ==> facts[i] == ModifiedOrderItem(order.items[i], order)
  {
    seq(|order.items|, i requires 0 <= i < |order.items| => ModifiedOrderItem(order.items[i], order))
  }

  /** The engine run on the `i`-th item's facts on the franchise path, given the count of matches so far. */
  function FranchiseRun(run: Runner, c: Condition, order: Order, i: nat, appliedCount: nat): Option<bool>
    requires i < |order.items|
  {
    run(c, ModifiedFranchiseOrderItem(order.items[i], order, appliedCount))
  }

  /** A consumer SKU discount: the offer's type and value, uncapped. */
  datatype SkuDiscount = SkuDiscount(skuCode: Value, discountType: Option<DiscountType>, discountAmount: real)

  /** A franchise SKU discount: the capped item discount. */
  datatype FranchiseSkuDiscount = FranchiseSkuDiscount(skuCode: Value, discountValue: Number)

  function SkuDiscountOf(offer: Offer, item: Facts): SkuDiscount
  {
    SkuDiscount(Get(item, "skuCode"), offer.discountType, offer.discountValue)
  }

  function FranchiseSkuDiscountOf(offer: Offer, item: Facts): FranchiseSkuDiscount
  {
    FranchiseSkuDiscount(Get(item, "skuCode"), CalculateItemDiscount(offer, item))
  }

  /** The number of the first `n` consumer items the rule fires on. */
  function ConsumerHits(run: Runner, c: Condition, facts: seq<Facts>, n: nat): nat
    requires n <= |facts|
  {
    if n == 0 then 0 else ConsumerHits(run, c, facts, n - 1) + (if run(c, facts[n - 1]) == Some(true) then 1 else 0)
  }

  /**
   * The consumer item loop over the first `n` items: a SKU discount for each
   * item the rule fires on, in item order; `None` once the engine throws.
   */
  function ConsumerSkuLevel(run: Runner, c: Condition, offer: Offer, order: Order, facts: seq<Facts>, n: nat)
    : Option<seq<SkuDiscount>>
    requires |facts| == |order.items| && n <= |facts|
  {
    if n == 0 then Some([])
    else
      var prev := ConsumerSkuLevel(run, c, offer, order, facts, n - 1);
      if prev.None? then None
      else
        var hit := run(c, facts[n - 1]);
        if hit.None? then None
        else if hit.value then Some(prev.value + [SkuDiscountOf(offer, order.items[n - 1])])
        else prev
  }

  /** The loop gets through exactly when no run throws. */
  lemma {:induction false} ConsumerSkuLevelDefined(run: Runner, c: Condition, offer: Offer, order: Order,
                                                  facts: seq<Facts>, n: nat)
    requires |facts| == |order.items| && n <= |facts|
    ensures ConsumerSkuLevel(run, c, offer, order, facts, n).Some? <==>
      forall i :: 0 <= i < n ==> run(c, facts[i]).Some?
  {
    if n > 0 {
      ConsumerSkuLevelDefined(run, c, offer, order, facts, n - 1);
    }
  }

  /**
   * When it gets through, it holds one discount per item the rule fires on,
   * so it is empty exactly when the rule fires on none.
   */
  lemma {:induction false} ConsumerSkuLevelCount(run: Runner, c: Condition, offer: Offer, order: Order,
                                                facts: seq<Facts>, n: nat)
    requires |facts| == |order.items| && n <= |facts| && ConsumerSkuLevel(run, c, offer, order, facts, n).Some?
    ensures |ConsumerSkuLevel(run, c, offer, order, facts, n).value| == ConsumerHits(run, c, facts, n)
    ensures ConsumerSkuLevel(run, c, offer, order, facts, n).value == [] <==>
      forall i :: 0 <= i < n ==> run(c, facts[i]) == Some(false)
  {
    if n > 0 {
      ConsumerSkuLevelCount(run, c, offer, order, facts, n - 1);
    }
  }

  /** Each discount is for an item the rule fires on, and each such item has its discount. */
  lemma {:induction false} ConsumerSkuLevelMembers(run: Runner, c: Condition, offer: Offer, order: Order,
                                                   facts: seq<Facts>, n: nat, d: SkuDiscount)
    requires |facts| == |order.items| && n <= |facts| && ConsumerSkuLevel(run, c, offer, order, facts, n).Some?
    ensures d in ConsumerSkuLevel(run, c, offer, order, facts, n).value <==>
      exists i :: 0 <= i < n && run(c, facts[i]) == Some(true) && d == SkuDiscountOf(offer, order.items[i])
  {
    if n > 0 {
      ConsumerSkuLevelMembers(run, c, offer, order, facts, n - 1, d);
    }
  }

  /** Once the loop has stopped on a throw, it stays stopped. */
  lemma {:induction false} ConsumerSkuLevelStops(run: Runner, c: Condition, offer: Offer, order: Order,
                                                facts: seq<Facts>, n: nat, m: nat)
    requires |facts| == |order.items| && n <= m <= |facts| && ConsumerSkuLevel(run, c, offer, order, facts, n).None?
    ensures ConsumerSkuLevel(run, c, offer, order, facts, m).None?
  {
    if n < m {
      ConsumerSkuLevelStops(run, c, offer, order, facts, n, m - 1);
    }
  }

  /**
   * The franchise item loop over the first `n` items: each item's facts
   * carry the number of discounts already given as `offerAppliedSkuCount`;
   * a capped SKU discount for each item the rule fires on; `None` once the
   * engine throws.
   */
  function FranchiseSkuLevel(run: Runner, c: Condition, offer: Offer, order: Order, n: nat)
    : (r: Option<seq<FranchiseSkuDiscount>>)
    requires n <= |order.items|
    ensures r.Some? ==> |r.value| <= n
  {
    if n == 0 then Some([])
    else
      var prev := FranchiseSkuLevel(run, c, offer, order, n - 1);
      if prev.None? then None
      else
        var hit := FranchiseRun(run, c, order, n - 1, |prev.value|);
        if hit.None? then None
        else if hit.value then Some(prev.value + [FranchiseSkuDiscountOf(offer, order.items[n - 1])])
        else prev
  }

  /** Every franchise SKU discount respects the cap. */
  lemma {:induction false} FranchiseSkuLevelCapped(run: Runner, c: Condition, offer: Offer, order: Order, n: nat)
    requires n <= |order.items|
    ensures FranchiseSkuLevel(run, c, offer, order, n).Some? ==>
      forall d :: d in FranchiseSkuLevel(run, c, offer, order, n).value && d.discountValue.Finite? && offer.maxLimit.Some?
        ==> d.discountValue.r <= offer.maxLimit.value
  {
    if n > 0 {
      FranchiseSkuLevelCapped(run, c, offer, order, n - 1);
    }
  }

  /** The franchise list is empty exactly when the rule fires on no item, each item then seeing a count of 0. */
  lemma {:induction false} FranchiseSkuLevelEmpty(run: Runner, c: Condition, offer: Offer, order: Order, n: nat)
    requires n <= |order.items|
    ensures FranchiseSkuLevel(run, c, offer, order, n).Some? ==>
      (FranchiseSkuLevel(run, c, offer, order, n).value == [] <==>
       forall i :: 0 <= i < n ==> FranchiseRun(run, c, order, i, 0) == Some(false))
  {
    if n > 0 {
      FranchiseSkuLevelEmpty(run, c, offer, order, n - 1);
      var prev := FranchiseSkuLevel(run, c, offer, order, n - 1);
      if prev.Some? && prev.value == [] {
        var hit := FranchiseRun(run, c, order, n - 1, 0);
        if hit.Some? && !hit.value {
          assert FranchiseSkuLevel(run, c, offer, order, n) == prev;
        }
      }
    }
  }

  /** Once the franchise loop has stopped on a throw, it stays stopped. */
  lemma {:induction false} FranchiseSkuLevelStops(run: Runner, c: Condition, offer: Offer, order: Order, n: nat, m: nat)
    requires n <= m <= |order.items| && FranchiseSkuLevel(run, c, offer, order, n).None?
    ensures FranchiseSkuLevel(run, c, offer, order, m).None?
  {
    if n < m {
      FranchiseSkuLevelStops(run, c, offer, order, n, m - 1);
    }
  }

  // ----- validateCoupon -----

  /** The consumer response: the offer and voucher, and the order-level or the item-level discounts. */
  datatype OfferResponse = OfferResponse(
    offer: Offer,
    voucher: VoucherRow,
    orderLevel: Option<OrderLevelDiscount>,
    skuLevel: Option<seq<SkuDiscount>>)

  /** The order's final bill amount, as arithmetic reads it. */
  function FinalBill(order: Order): Number
  {
    ToNumber(Get(order.fields, "finalBillAmount"))
  }

  /**
   * `validateCoupon`. An ORDERLEVEL offer runs its rule on the order and, on
   * a match, gives the order-level discount (capped on the discount it
   * gives); an ORDERITEM offer runs it on each item's merged facts and gives
   * an uncapped SKU discount per match; any other event type is a 409
   * conflict, and no match at all a 420.
   */
  method ValidateCoupon(run: Runner, voucher: VoucherRow, offer: Offer, order: Order)
    returns (r: Result<OfferResponse, HttpError>)
    requires offer.applicationRules.Some?
    ensures var t := offer.applicationRules.value.event.eventType;
      t != ORDER_LEVEL_EVENT && t != ORDER_ITEM_EVENT ==> r == Failure(CONFLICT)
    ensures var rule := offer.applicationRules.value;
      var hit := run(rule.conditions, OrderRecord(order));
      rule.event.eventType == ORDER_LEVEL_EVENT ==>
        r == (if hit.None? then Failure(ENGINE_FAILURE)
              else if !hit.value then Failure(NOT_APPLICABLE)
              else Success(OfferResponse(offer, voucher, Some(ConsumerOrderLevel(offer, FinalBill(order))), None)))
    ensures var rule := offer.applicationRules.value;
      var ds := ConsumerSkuLevel(run, rule.conditions, offer, order, ConsumerFacts(order), |order.items|);
      rule.event.eventType == ORDER_ITEM_EVENT ==>
        r == (if ds.None? then Failure(ENGINE_FAILURE)
              else if ds.value == [] then Failure(NOT_APPLICABLE)
              else Success(OfferResponse(offer, voucher, None, ds)))
  {
    var rule := offer.applicationRules.value;
    var c := rule.conditions;
    var orderLevel: Option<OrderLevelDiscount> := None;
    var skuLevel: Option<seq<SkuDiscount>> := None;
    var applied := false;
    if rule.event.eventType == ORDER_LEVEL_EVENT {
      var hit := run(c, OrderRecord(order));
      if hit.None? {
        return Failure(ENGINE_FAILURE);
      }
      if hit.value {
        orderLevel := Some(ConsumerOrderLevel(offer, FinalBill(order)));
        applied := true;
      }
    } else if rule.event.eventType == ORDER_ITEM_EVENT {
      var ds: seq<SkuDiscount> := [];
      ghost var facts := ConsumerFacts(order);
      for i := 0 to |order.items|
        invariant ConsumerSkuLevel(run, c, offer, order, facts, i) == Some(ds)
        invariant applied <==> ds != []
      {
        var hit := run(c, ModifiedOrderItem(order.items[i], order));
        if hit.None? {
          ConsumerSkuLevelStops(run, c, offer, order, facts, i + 1, |order.items|);
          return Failure(ENGINE_FAILURE);
        }
        if hit.value {
          ds := ds + [SkuDiscountOf(offer, order.items[i])];
          applied := true;
        }
      }
      skuLevel := Some(ds);
    } else {
      return Failure(CONFLICT);
    }
    if !applied {
      return Failure(NOT_APPLICABLE);
    }
    r := Success(OfferResponse(offer, voucher, orderLevel, skuLevel));
  }

  // ----- validateOfferFranchise -----

  /** The franchise response. */
  datatype FranchiseOfferResponse = FranchiseOfferResponse(
    offerId: Option<string>,
    offerTitle: Option<string>,
    voucher: Option<string>,
    offerType: Option<string>,
    orderLevel: Option<Number>,
    skuLevel: Option<seq<FranchiseSkuDiscount>>,
    cashbackDetails: Option<CashbackDetails>)

  /** `createOfferResponse`: the voucher code and the offer's id, level and title, nothing applied yet. */
  function NewFranchiseOfferResponse(voucher: VoucherRow, offer: Offer): (r: FranchiseOfferResponse)
    ensures r.voucher == voucher.code && r.offerId == offer.id && r.offerType == offer.offerLevel
    ensures r.offerTitle == offer.title
    ensures r.orderLevel.None? && r.skuLevel.None? && r.cashbackDetails.None?
  {
    FranchiseOfferResponse(offer.id, offer.title, voucher.code, offer.offerLevel, None, None, None)
  }

  /**
   * An order-level franchise match: a CASHBACK offer gets its cashback
   * details, an ORDER offer its capped order discount, any other level
   * neither.
   */
  function FranchiseOrderLevelMatch(offer: Offer, order: Order, base: FranchiseOfferResponse): (r: FranchiseOfferResponse)
    ensures r.cashbackDetails.Some? <==> offer.offerLevel == Some(CASHBACK_LEVEL) || base.cashbackDetails.Some?
    ensures offer.offerLevel == Some(CASHBACK_LEVEL) ==>
      r == base.(cashbackDetails := Some(OfferCashbackDetails(offer)))
    ensures offer.offerLevel == Some(ORDER_LEVEL) ==> r == base.(orderLevel := Some(CalculateOrderDiscount(offer, order)))
    ensures offer.offerLevel != Some(CASHBACK_LEVEL) && offer.offerLevel != Some(ORDER_LEVEL) ==> r == base
  {
    if offer.offerLevel == Some(CASHBACK_LEVEL) then base.(cashbackDetails := Some(OfferCashbackDetails(offer)))
    else if offer.offerLevel == Some(ORDER_LEVEL) then base.(orderLevel := Some(CalculateOrderDiscount(offer, order)))
    else base
  }

  /**
   * `validateOfferFranchise`. An ORDERLEVEL offer that matches the order
   * counts as applied whatever its level; an ITEMLEVEL offer runs on each
   * item with the count of earlier matches and gives a capped SKU discount
   * per match; any other event type is a 409 conflict, and no match a 420.
   */
  method ValidateOfferFranchise(run: Runner, voucher: VoucherRow, offer: Offer, order: Order)
    returns (r: Result<FranchiseOfferResponse, HttpError>)
    requires offer.applicationRules.Some?
    ensures var t := offer.applicationRules.value.event.eventType;
      t != ORDER_LEVEL_EVENT && t != ITEM_LEVEL_EVENT ==> r == Failure(CONFLICT)
    ensures var rule := offer.applicationRules.value;
      var hit := run(rule.conditions, OrderRecord(order));
      rule.event.eventType == ORDER_LEVEL_EVENT ==>
        r == (if hit.None? then Failure(ENGINE_FAILURE)
              else if !hit.value then Failure(NOT_APPLICABLE)
              else Success(FranchiseOrderLevelMatch(offer, order, NewFranchiseOfferResponse(voucher, offer))))
    ensures var rule := offer.applicationRules.value;
      var ds := FranchiseSkuLevel(run, rule.conditions, offer, order, |order.items|);
      rule.event.eventType == ITEM_LEVEL_EVENT ==>
        r == (if ds.None? then Failure(ENGINE_FAILURE)
              else if ds.value == [] then Failure(NOT_APPLICABLE)
              else Success(NewFranchiseOfferResponse(voucher, offer).(skuLevel := ds)))
  {
    var rule := offer.applicationRules.value;
    var c := rule.conditions;
    var response := NewFranchiseOfferResponse(voucher, offer);
    var applied := false;
    if rule.event.eventType == ORDER_LEVEL_EVENT {
      var hit := run(c, OrderRecord(order));
      if hit.None? {
        return Failure(ENGINE_FAILURE);
      }
      if hit.value {
        if offer.offerLevel == Some(CASHBACK_LEVEL) {
          response := response.(cashbackDetails := Some(OfferCashbackDetails(offer)));
        } else if offer.offerLevel == Some(ORDER_LEVEL) {
          response := response.(orderLevel := Some(CalculateOrderDiscount(offer, order)));
        }
        applied := true;
      }
    } else if rule.event.eventType == ITEM_LEVEL_EVENT {
      var ds: seq<FranchiseSkuDiscount> := [];
      var appliedCount: nat := 0;
      for i := 0 to |order.items|
        invariant FranchiseSkuLevel(run, c, offer, order, i) == Some(ds)
        invariant appliedCount == |ds|
        invariant applied <==> ds != []
      {
        var hit := run(c, ModifiedFranchiseOrderItem(order.items[i], order, appliedCount));
        if hit.None? {
          FranchiseSkuLevelStops(run, c, offer, order, i + 1, |order.items|);
          return Failure(ENGINE_FAILURE);
        }
        if hit.value {
          appliedCount := appliedCount + 1;
          ds := ds + [FranchiseSkuDiscountOf(offer, order.items[i])];
          applied := true;
        }
      }
      response := response.(skuLevel := Some(ds));
    } else {
      return Failure(CONFLICT);
    }
    if !applied {
      return Failure(NOT_APPLICABLE);
    }
    r := Success(response);
  }

  // ----- checkOfferApplicable -----

  /**
   * The item search of `checkOfferApplicable` over the first `n` items:
   * true at the first item the rule fires on, false when it fires on none,
   * `None` when the engine throws first. Each item is run with a count of
   * 0, the search stopping at its first match.
   */
  function AnyItemApplies(run: Runner, c: Condition, order: Order, n: nat): Option<bool>
    requires n <= |order.items|
  {
    if n == 0 then Some(false)
    else
      var prev := AnyItemApplies(run, c, order, n - 1);
      if prev != Some(false) then prev else FranchiseRun(run, c, order, n - 1, 0)
  }

  /** The search answers false exactly when the rule fires on no item and the engine never throws. */
  lemma {:induction false} AnyItemAppliesNone(run: Runner, c: Condition, order: Order, n: nat)
    requires n <= |order.items|
    ensures AnyItemApplies(run, c, order, n) == Some(false) <==>
      forall i :: 0 <= i < n ==> FranchiseRun(run, c, order, i, 0) == Some(false)
  {
    if n > 0 {
      AnyItemAppliesNone(run, c, order, n - 1);
    }
  }

  /** The search answers true exactly when the rule fires on some item and on none before it. */
  lemma {:induction false} AnyItemAppliesSome(run: Runner, c: Condition, order: Order, n: nat)
    requires n <= |order.items|
    ensures AnyItemApplies(run, c, order, n) == Some(true) <==>
      exists i :: 0 <= i < n && FranchiseRun(run, c, order, i, 0) == Some(true) && FirstFiring(run, c, order, i)
  {
    if n > 0 {
      AnyItemAppliesSome(run, c, order, n - 1);
      AnyItemAppliesNone(run, c, order, n - 1);
      if FranchiseRun(run, c, order, n - 1, 0) == Some(true) && FirstFiring(run, c, order, n - 1) {
        assert AnyItemApplies(run, c, order, n - 1) == Some(false);
      }
    }
  }

  /** No item before the `i`-th fires, and the engine does not throw on any of them. */
  predicate FirstFiring(run: Runner, c: Condition, order: Order, i: nat)
    requires i <= |order.items|
  {
    forall j :: 0 <= j < i ==> FranchiseRun(run, c, order, j, 0) == Some(false)
  }

  /** Once the search has an answer or a throw, later items do not change it. */
  lemma {:induction false} AnyItemAppliesStops(run: Runner, c: Condition, order: Order, n: nat, m: nat)
    requires n <= m <= |order.items| && AnyItemApplies(run, c, order, n) != Some(false)
    ensures AnyItemApplies(run, c, order, m) == AnyItemApplies(run, c, order, n)
  {
    if n < m {
      AnyItemAppliesStops(run, c, order, n, m - 1);
    }
  }

  /**
   * Whether an offer applies to an order: an ORDERLEVEL offer when its rule
   * fires on the order, an offer of any other event type when it fires on
   * some item's facts; an engine throw fails the request.
   */
  function OfferApplicable(run: Runner, order: Order, offer: Offer): Result<bool, HttpError>
    requires offer.applicationRules.Some?
  {
    var rule := offer.applicationRules.value;
    if rule.event.eventType == ORDER_LEVEL_EVENT then
      var hit := run(rule.conditions, OrderRecord(order));
      if hit.None? then Failure(ENGINE_FAILURE) else Success(hit.value)
    else
      var found := AnyItemApplies(run, rule.conditions, order, |order.items|);
      if found.None? then Failure(ENGINE_FAILURE) else Success(found.value)
  }

  /** `checkOfferApplicable`: its loop over the items computes `OfferApplicable`. */
  method CheckOfferApplicable(run: Runner, order: Order, offer: Offer) returns (r: Result<bool, HttpError>)
    requires offer.applicationRules.Some?
    ensures r == OfferApplicable(run, order, offer)
    ensures var rule := offer.applicationRules.value;
      var hit := run(rule.conditions, OrderRecord(order));
      rule.event.eventType == ORDER_LEVEL_EVENT ==>
        r == (if hit.None? then Failure(ENGINE_FAILURE) else Success(hit.value))
    ensures var rule := offer.applicationRules.value;
      var found := AnyItemApplies(run, rule.conditions, order, |order.items|);
      rule.event.eventType != ORDER_LEVEL_EVENT ==>
        r == (if found.None? then Failure(ENGINE_FAILURE) else Success(found.value))
  {
    var rule := offer.applicationRules.value;
    if rule.event.eventType == ORDER_LEVEL_EVENT {
      var hit := run(rule.conditions, OrderRecord(order));
      if hit.None? {
        return Failure(ENGINE_FAILURE);
      }
      return Success(hit.value);
    }
    var found := ItemsApply(run, rule.conditions, order);
    if found.None? {
      return Failure(ENGINE_FAILURE);
    }
    r := Success(found.value);
  }

  /**
   * The item loop of `checkOfferApplicable`: each item's facts are run with
   * the applied count still 0, returning at the first item the rule fires on
   * or the first throw.
   */
  method ItemsApply(run: Runner, c: Condition, order: Order) returns (found: Option<bool>)
    ensures found == AnyItemApplies(run, c, order, |order.items|)
  {
    var appliedCount := 0;
    for i := 0 to |order.items|
      invariant AnyItemApplies(run, c, order, i) == Some(false)
      invariant appliedCount == 0
    {
      var hit := run(c, ModifiedFranchiseOrderItem(order.items[i], order, appliedCount));
      assert AnyItemApplies(run, c, order, i + 1) == hit;
      if hit.None? || hit.value {
        AnyItemAppliesStops(run, c, order, i + 1, |order.items|);
        if hit.None? {
          return None;
        }
        appliedCount := appliedCount + 1;
        return Some(true);
      }
    }
    found := Some(false);
  }

  // ----- checkViewOfferApplicable -----

  /**
   * `checkViewOfferApplicable`: with no voucher, no offer or no view rules
   * the offer is shown; otherwise it is shown exactly when the view rule
   * fires on the cart, an engine error counting as not shown.
   */
  function CheckViewOfferApplicable(run: Runner, cart: Facts, voucher: Option<VoucherRow>): (shown: bool)
    ensures shown <==>
      || voucher.None? || voucher.value.offer.None? || voucher.value.offer.value.viewRules.None?
      || run(voucher.value.offer.value.viewRules.value, cart) == Some(true)
  {
    if voucher.None? || voucher.value.offer.None? || voucher.value.offer.value.viewRules.None? then true
    else
      match run(voucher.value.offer.value.viewRules.value, cart)
      case Some(fired) => fired
      case None => false
  }

  /** An engine error on a voucher with view rules hides it. */
  lemma ViewRuleErrorHides(run: Runner, cart: Facts, voucher: VoucherRow)
    requires voucher.offer.Some? && voucher.offer.value.viewRules.Some?
    requires run(voucher.offer.value.viewRules.value, cart).None?
    ensures !CheckViewOfferApplicable(run, cart, Some(voucher))
  {
  }

  // ----- repository filters -----

  /** The offer side of a voucher query: an active offer live at `now`, auto-applicable when asked. */
  datatype OfferFilter = OfferFilter(autoApplicableOnly: bool)

  /**
   * One branch of a voucher query. Every branch asks for an active voucher;
   * a `None` field does not constrain, as a null condition is dropped.
   */
  datatype VoucherFilter = VoucherFilter(
    applicableFor: Option<string>,
    isPublic: Option<bool>,
    voucherFor: Option<string>,
    assignedTo: Option<string>,
    voucherType: Option<string>,
    isRedeemed: Option<bool>,
    code: Option<string>,
    offer: Option<OfferFilter>)

  predicate FieldMatches<T(==)>(want: Option<T>, have: Option<T>)
  {
    want.None? || have == want
  }

  /** An active offer whose window is open at `now` (start < now < end). */
  predicate OfferLive(offer: Offer, now: int)
  {
    offer.active == Some(true) && offer.offerStart.Some? && offer.offerStart.value < now &&
    offer.offerEnd.Some? && now < offer.offerEnd.value
  }

  predicate OfferFilterMatches(f: OfferFilter, offer: Option<Offer>, now: int)
  {
    offer.Some? && OfferLive(offer.value, now) && (f.autoApplicableOnly ==> offer.value.isAutoApplicable == Some(true))
  }

  predicate Satisfies(v: VoucherRow, f: VoucherFilter, now: int)
  {
    && v.active == Some(true)
    && FieldMatches(f.applicableFor, v.applicableFor)
    && FieldMatches(f.isPublic, v.isPublic)
    && FieldMatches(f.voucherFor, v.voucherFor)
    && FieldMatches(f.assignedTo, v.assignedTo)
    && FieldMatches(f.voucherType, v.voucherType)
    && FieldMatches(f.isRedeemed, v.isRedeemed)
    && FieldMatches(f.code, v.code)
    && (f.offer.Some? ==> OfferFilterMatches(f.offer.value, v.offer, now))
  }

  /** A voucher matches a query when it satisfies one of its branches. */
  predicate MatchesAny(v: VoucherRow, filters: seq<VoucherFilter>, now: int)
  {
    exists i :: 0 <= i < |filters| && Satisfies(v, filters[i], now)
  }

  /**
   * The vouchers a store or customer may be offered, stated directly: an
   * active voucher for the audience asked for, whose offer is live (and
   * auto-applicable when that is asked, even as false), that is public and
   * for everyone, or public and assigned to the store, or a public,
   * unredeemed DYNAMIC voucher assigned to the customer, or carries the old
   * code (public or not).
   */
  predicate IsCandidate(v: VoucherRow, storeId: Option<string>, customerId: Option<string>, oldVoucher: Option<string>,
                        voucherFor: Option<string>, isAutoApplicable: Option<bool>, now: int)
  {
    && v.active == Some(true)
    && FieldMatches(voucherFor, v.voucherFor)
    && OfferFilterMatches(OfferFilter(isAutoApplicable.Some?), v.offer, now)
    && (|| (v.applicableFor == Some(APPLICABLE_ALL) && v.isPublic == Some(true))
        || (storeId.Some? && v.assignedTo == storeId && v.isPublic == Some(true))
        || (customerId.Some? && v.assignedTo == customerId && v.voucherType == Some(DYNAMIC) &&
            v.isRedeemed == Some(false) && v.isPublic == Some(true))
        || (oldVoucher.Some? && v.code == oldVoucher))
  }

  /**
   * `BuildOfferFiltersArray`: the public branch for everyone, then a branch
   * for the store, the customer and the old code, each only when given.
   * A voucher matches the branches exactly when it is a candidate.
   */
  method BuildOfferFilters(storeId: Option<string>, customerId: Option<string>, oldVoucher: Option<string>,
                           voucherFor: Option<string>, isAutoApplicable: Option<bool>)
    returns (filters: seq<VoucherFilter>)
    ensures |filters| == 1 + (if storeId.Some? then 1 else 0) + (if customerId.Some? then 1 else 0)
                           + (if oldVoucher.Some? then 1 else 0)
    ensures filters[0].applicableFor == Some(APPLICABLE_ALL) && filters[0].isPublic == Some(true)
    ensures forall v, now :: MatchesAny(v, filters, now) <==>
      IsCandidate(v, storeId, customerId, oldVoucher, voucherFor, isAutoApplicable, now)
  {
    var offerFilter := Some(OfferFilter(isAutoApplicable.Some?));
    var global := VoucherFilter(Some(APPLICABLE_ALL), Some(true), voucherFor, None, None, None, None, offerFilter);
    filters := [global];
    ghost var branches: seq<VoucherFilter> := [global];
    if storeId.Some? {
      filters := filters + [VoucherFilter(None, Some(true), voucherFor, storeId, None, None, None, offerFilter)];
    }
    if customerId.Some? {
      filters := filters +
        [VoucherFilter(None, Some(true), voucherFor, customerId, Some(DYNAMIC), Some(false), None, offerFilter)];
    }
    if oldVoucher.Some? {
      filters := filters + [VoucherFilter(None, None, voucherFor, None, None, None, oldVoucher, offerFilter)];
    }
    forall v, now
      ensures MatchesAny(v, filters, now) <==>
        IsCandidate(v, storeId, customerId, oldVoucher, voucherFor, isAutoApplicable, now)
    {
      if IsCandidate(v, storeId, customerId, oldVoucher, voucherFor, isAutoApplicable, now) {
        FilterForCandidate(v, filters, storeId, customerId, oldVoucher, voucherFor, isAutoApplicable, now);
      }
    }
  }

  /** The branch a candidate satisfies, found by which of the four clauses holds. */
  lemma FilterForCandidate(v: VoucherRow, filters: seq<VoucherFilter>, storeId: Option<string>,
                           customerId: Option<string>, oldVoucher: Option<string>, voucherFor: Option<string>,
                           isAutoApplicable: Option<bool>, now: int)
    requires IsCandidate(v, storeId, customerId, oldVoucher, voucherFor, isAutoApplicable, now)
    requires var o := Some(OfferFilter(isAutoApplicable.Some?));
      var s := if storeId.Some? then [VoucherFilter(None, Some(true), voucherFor, storeId, None, None, None, o)] else [];
      var cu := if customerId.Some?
        then [VoucherFilter(None, Some(true), voucherFor, customerId, Some(DYNAMIC), Some(false), None, o)] else [];
      var oc := if oldVoucher.Some? then [VoucherFilter(None, None, voucherFor, None, None, None, oldVoucher, o)] else [];
      filters == [VoucherFilter(Some(APPLICABLE_ALL), Some(true), voucherFor, None, None, None, None, o)] + s + cu + oc
    ensures MatchesAny(v, filters, now)
  {
    var o := Some(OfferFilter(isAutoApplicable.Some?));
    var sn := if storeId.Some? then 1 else 0;
    var cn := if customerId.Some? then 1 else 0;
    if v.applicableFor == Some(APPLICABLE_ALL) && v.isPublic == Some(true) {
      assert Satisfies(v, filters[0], now);
    } else if storeId.Some? && v.assignedTo == storeId && v.isPublic == Some(true) {
      assert Satisfies(v, filters[1], now);
    } else if customerId.Some? && v.assignedTo == customerId && v.voucherType == Some(DYNAMIC) &&
              v.isRedeemed == Some(false) && v.isPublic == Some(true) {
      assert Satisfies(v, filters[1 + sn], now);
    } else {
      assert Satisfies(v, filters[1 + sn + cn], now);
    }
  }

  /** Whatever the arguments, every match is active, for the audience asked for, with a live offer. */
  lemma CandidatesAreLive(v: VoucherRow, storeId: Option<string>, customerId: Option<string>, oldVoucher: Option<string>,
                          voucherFor: Option<string>, isAutoApplicable: Option<bool>, now: int)
    requires IsCandidate(v, storeId, customerId, oldVoucher, voucherFor, isAutoApplicable, now)
    ensures v.active == Some(true) && v.offer.Some? && OfferLive(v.offer.value, now)
    ensures voucherFor.Some? ==> v.voucherFor == voucherFor
    ensures isAutoApplicable.Some? ==> v.offer.value.isAutoApplicable == Some(true)
    ensures v.isPublic != Some(true) ==> oldVoucher.Some? && v.code == oldVoucher
  {
  }

  /** For each stored voucher, whether the candidate query leaves it out. */
  function NotCandidates(table: seq<VoucherRow>, storeId: Option<string>, customerId: Option<string>,
                         oldVoucher: Option<string>, voucherFor: Option<string>, isAutoApplicable: Option<bool>,
                         now: int): (flags: seq<bool>)
    ensures |flags| == |table|
    ensures forall i :: 0 <= i < |table| ==>
      (flags[i] <==> !IsCandidate(table[i], storeId, customerId, oldVoucher, voucherFor, isAutoApplicable, now))
  {
    seq(|table|, i requires 0 <= i < |table| =>
      !IsCandidate(table[i], storeId, customerId, oldVoucher, voucherFor, isAutoApplicable, now))
  }

  /**
   * `getVouchersFromUserAndStoreId`: the stored vouchers matching one of the
   * branches, in table order; these are exactly the stored candidates.
   */
  method GetVouchersFromUserAndStoreId(table: seq<VoucherRow>, storeId: Option<string>, customerId: Option<string>,
                                       oldVoucher: Option<string>, voucherFor: Option<string>,
                                       isAutoApplicable: Option<bool>, now: int)
    returns (vouchers: seq<VoucherRow>)
    ensures vouchers ==
      Select(table, NotCandidates(table, storeId, customerId, oldVoucher, voucherFor, isAutoApplicable, now), false)
    ensures forall v :: v in vouchers <==>
      v in table && IsCandidate(v, storeId, customerId, oldVoucher, voucherFor, isAutoApplicable, now)
  {
    var filters := BuildOfferFilters(storeId, customerId, oldVoucher, voucherFor, isAutoApplicable);
    ghost var flags := NotCandidates(table, storeId, customerId, oldVoucher, voucherFor, isAutoApplicable, now);
    vouchers := [];
    for i := 0 to |table|
      invariant vouchers == SelectUpTo(table, flags, false, i)
    {
      if MatchesAny(table[i], filters, now) {
        vouchers := vouchers + [table[i]];
      }
    }
    forall v
      ensures v in vouchers <==>
        v in table && IsCandidate(v, storeId, customerId, oldVoucher, voucherFor, isAutoApplicable, now)
    {
      SelectMembers(table, flags, false, v);
    }
  }

  // ----- getVoucherFromCode and getOfferFromId -----

  /**
   * The two branches of `getVoucherFromCode`: the code assigned to the store
   * as an ASSIGNED voucher, or the code as an ALL voucher; both active and
   * for the audience asked for.
   */
  function VoucherCodeFilters(code: string, storeId: Option<string>, voucherFor: Option<string>): seq<VoucherFilter>
  {
    [VoucherFilter(Some(APPLICABLE_ASSIGNED), None, voucherFor, storeId, None, None, Some(code), None),
     VoucherFilter(Some(APPLICABLE_ALL), None, voucherFor, None, None, None, Some(code), None)]
  }

  /** The voucher a code names for a store, stated directly. */
  predicate CodeNamesVoucher(v: VoucherRow, code: string, storeId: Option<string>, voucherFor: Option<string>)
  {
    && v.code == Some(code) && v.active == Some(true) && FieldMatches(voucherFor, v.voucherFor)
    && (v.applicableFor == Some(APPLICABLE_ALL) ||
        (v.applicableFor == Some(APPLICABLE_ASSIGNED) && FieldMatches(storeId, v.assignedTo)))
  }

  /** The first stored voucher (in table order) that satisfies one of `filters`. */
  function FirstMatching(vouchers: seq<VoucherRow>, filters: seq<VoucherFilter>, now: int): (r: Option<VoucherRow>)
    ensures r.Some? ==> r.value in vouchers && MatchesAny(r.value, filters, now)
    ensures r.None? ==> forall v :: v in vouchers ==> !MatchesAny(v, filters, now)
    ensures r.Some? ==> exists i :: (
      && 0 <= i < |vouchers| && vouchers[i] == r.value
      && forall j :: 0 <= j < i ==> !MatchesAny(vouchers[j], filters, now))
  {
    if |vouchers| == 0 then None
    else if MatchesAny(vouchers[0], filters, now) then Some(vouchers[0])
    else
      var r := FirstMatching(vouchers[1..], filters, now);
      if r.Some? then
        var i :| 0 <= i < |vouchers[1..]| && vouchers[1..][i] == r.value &&
          forall j :: 0 <= j < i ==> !MatchesAny(vouchers[1..][j], filters, now);
        assert vouchers[i + 1] == r.value;
        assert forall j :: 0 <= j < i + 1 ==> !MatchesAny(vouchers[j], filters, now) by {
          forall j | 0 < j < i + 1 ensures !MatchesAny(vouchers[j], filters, now) {
            assert vouchers[j] == vouchers[1..][j - 1];
          }
        }
        r
      else r
  }

  /**
   * `getVoucherFromCode`: the stored voucher the code names for the store,
   * if any; the query's branches match exactly the vouchers the code names.
   */
  function VoucherFromCode(vouchers: seq<VoucherRow>, code: string, storeId: Option<string>, voucherFor: Option<string>)
    : (r: Option<VoucherRow>)
    ensures r.Some? ==> r.value in vouchers && CodeNamesVoucher(r.value, code, storeId, voucherFor)
    ensures r.None? <==> forall v :: v in vouchers ==> !CodeNamesVoucher(v, code, storeId, voucherFor)
    ensures r.Some? ==> exists i :: (
      && 0 <= i < |vouchers| && vouchers[i] == r.value
      && forall j :: 0 <= j < i ==> !CodeNamesVoucher(vouchers[j], code, storeId, voucherFor))
  {
    var filters := VoucherCodeFilters(code, storeId, voucherFor);
    assert forall v :: MatchesAny(v, filters, 0) <==> CodeNamesVoucher(v, code, storeId, voucherFor) by {
      forall v | CodeNamesVoucher(v, code, storeId, voucherFor)
        ensures MatchesAny(v, filters, 0)
      {
        if v.applicableFor == Some(APPLICABLE_ALL) {
          assert Satisfies(v, filters[1], 0);
        } else {
          assert Satisfies(v, filters[0], 0);
        }
      }
    }
    FirstMatching(vouchers, filters, 0)
  }

  /** `getOfferFromId`'s condition: the id, an active offer, its window open at `now`. */
  predicate OfferIdMatches(offer: Offer, offerId: string, now: int)
  {
    offer.id == Some(offerId) && OfferLive(offer, now)
  }

  /** `getOfferFromId`: the first stored offer with the id that is active and live at `now`, if any. */
  function OfferFromId(offers: seq<Offer>, offerId: string, now: int): (r: Option<Offer>)
    ensures r.Some? ==> r.value in offers && r.value.id == Some(offerId) && OfferLive(r.value, now)
    ensures r.None? <==> forall o :: o in offers ==> !OfferIdMatches(o, offerId, now)
    ensures r.Some? ==> exists i :: (
      && 0 <= i < |offers| && offers[i] == r.value
      && forall j :: 0 <= j < i ==> !OfferIdMatches(offers[j], offerId, now))
  {
    if |offers| == 0 then None
    else if OfferIdMatches(offers[0], offerId, now) then Some(offers[0])
    else
      var r := OfferFromId(offers[1..], offerId, now);
      if r.Some? then
        var i :| 0 <= i < |offers[1..]| && offers[1..][i] == r.value &&
          forall j :: 0 <= j < i ==> !OfferIdMatches(offers[1..][j], offerId, now);
        assert offers[i + 1] == r.value;
        assert forall j :: 0 <= j < i + 1 ==> !OfferIdMatches(offers[j], offerId, now) by {
          forall j | 0 < j < i + 1 ensures !OfferIdMatches(offers[j], offerId, now) {
            assert offers[j] == offers[1..][j - 1];
          }
        }
        r
      else r
  }
}

=== FILE: order_facts.dfy ===
/**
 * The fact records the rules run on, one per order item
 * (src/offer/classes/modified-order-item.class.ts and
 * src/offer/classes/modified-franchise-order-item.class.ts): an item's fields
 * merged with its whole order, the order's fields written last.
 */
module OrderFacts {
  import opened Json

  /** The fields the order-item copy constructor copies, in declaration order. */
  const ORDER_ITEM_FIELDS: seq<string> := [
    "additionalDiscount", "categoryId", "categoryName", "discountAmount", "finalAmount",
    "finalQuantity", "id", "imageUrl", "isRefundable", "isReturnable",
    "markedPrice", "mrpGrossAmount", "orderId", "orderedQty", "productName",
    "refundAmount", "salePrice", "skuCode", "spGrossAmount", "status",
    "subcategoryId", "subcategoryName", "taxAmount", "taxDetails", "uom"
  ]

  /** An order: its own fields, and its items (the `orderItems` array). */
  datatype Order = Order(fields: Facts, items: seq<Facts>)

  /** The order as a fact record: its fields with `orderItems` holding the items. */
  function OrderRecord(order: Order): (r: Facts)
    ensures "orderItems" in r && r["orderItems"].Arr? && |r["orderItems"].items| == |order.items|
    ensures forall k :: k in order.fields && k != "orderItems" ==> k in r && r[k] == order.fields[k]
  {
    order.fields["orderItems" := Arr(seq(|order.items|, i requires 0 <= i < |order.items| => Obj(order.items[i])))]
  }

  /** `new OrderItem(item)`: exactly the 25 listed fields, each read from the item (absent ones as `undefined`). */
  function CopyOrderItem(item: Facts): (r: Facts)
    ensures r.Keys == set f | f in ORDER_ITEM_FIELDS
    ensures forall f :: f in ORDER_ITEM_FIELDS ==> r[f] == Get(item, f)
  {
    map f | f in ORDER_ITEM_FIELDS :: Get(item, f)
  }

  /**
   * `new ModifiedOrderItem(item, order)`: the item copy, then every field of
   * the order assigned over it. Every order field wins, so on the shared
   * names (id, status, refundAmount, taxDetails) the order's value is seen;
   * copied item fields the order lacks survive.
   */
  function ModifiedOrderItem(item: Facts, order: Order): (r: Facts)
    ensures r.Keys == (set f | f in ORDER_ITEM_FIELDS) + OrderRecord(order).Keys
    ensures forall k :: k in OrderRecord(order) ==> r[k] == OrderRecord(order)[k]
    ensures forall f :: f in ORDER_ITEM_FIELDS && f !in OrderRecord(order) ==> r[f] == Get(item, f)
  {
    CopyOrderItem(item) + OrderRecord(order)
  }

  /**
   * `new ModifiedFranchiseOrderItem(item, order, n)`: all of the item's
   * fields, then the order's fields over them, then `offerAppliedSkuCount`
   * set last, so the order cannot override it.
   */
  function ModifiedFranchiseOrderItem(item: Facts, order: Order, appliedCount: nat): (r: Facts)
    ensures r.Keys == item.Keys + OrderRecord(order).Keys + {"offerAppliedSkuCount"}
    ensures r["offerAppliedSkuCount"] == Num(appliedCount as real)
    ensures forall k :: k in OrderRecord(order) && k != "offerAppliedSkuCount" ==> r[k] == OrderRecord(order)[k]
    ensures forall k :: k in item && k !in OrderRecord(order) && k != "offerAppliedSkuCount" ==> r[k] == item[k]
  {
    (item + OrderRecord(order))["offerAppliedSkuCount" := Num(appliedCount as real)]
  }

  /** The four names an order item shares with its order; on each, the order's value is the one the rules see. */
  lemma {:induction false} SharedNamesTakeOrderValue(item: Facts, order: Order, appliedCount: nat)
    ensures forall k :: k in {"id", "status", "refundAmount", "taxDetails"} ==> k in ORDER_ITEM_FIELDS
    ensures forall k :: k in {"id", "status", "refundAmount", "taxDetails"} && k in order.fields ==>
      ModifiedOrderItem(item, order)[k] == order.fields[k] &&
      ModifiedFranchiseOrderItem(item, order, appliedCount)[k] == order.fields[k]
  {
    assert ORDER_ITEM_FIELDS[6] == "id" && ORDER_ITEM_FIELDS[19] == "status";
    assert ORDER_ITEM_FIELDS[15] == "refundAmount" && ORDER_ITEM_FIELDS[23] == "taxDetails";
  }
}

=== FILE: partition.dfy ===
/**
 * The success/failed split every CSV validator ends with: each row goes to
 * exactly one of the two lists, according to whether it collected errors,
 * and both lists keep input order.
 */
module Partition {

  /** The elements among the first `n` of `xs` whose flag equals `want`, in order. */
  function SelectUpTo<T>(xs: seq<T>, fails: seq<bool>, want: bool, n: nat): (ys: seq<T>)
    requires n <= |xs| && n <= |fails|
    ensures |ys| <= n
  {
    if n == 0 then []
    else SelectUpTo(xs, fails, want, n - 1) + (if fails[n - 1] == want then [xs[n - 1]] else [])
  }

  /** The elements of `xs` whose flag equals `want`, in order. */
  function Select<T>(xs: seq<T>, fails: seq<bool>, want: bool): (ys: seq<T>)
    requires |xs| == |fails|
    ensures |ys| <= |xs|
  {
    SelectUpTo(xs, fails, want, |xs|)
  }

  /** A prefix selection reads only the flags of that prefix. */
  lemma {:induction false} SelectUpToFlags<T>(xs: seq<T>, fails: seq<bool>, fails': seq<bool>, want: bool, n: nat)
    requires n <= |xs| && n <= |fails| && n <= |fails'|
    requires forall i :: 0 <= i < n ==> fails[i] == fails'[i]
    ensures SelectUpTo(xs, fails, want, n) == SelectUpTo(xs, fails', want, n)
  {
    if n > 0 {
      SelectUpToFlags(xs, fails, fails', want, n - 1);
    }
  }

  /** The two prefix selections split the prefix: together they hold each of its elements exactly once. */
  lemma {:induction false} SelectUpToPartition<T>(xs: seq<T>, fails: seq<bool>, n: nat)
    requires n <= |xs| && n <= |fails|
    ensures multiset(SelectUpTo(xs, fails, false, n)) + multiset(SelectUpTo(xs, fails, true, n)) == multiset(xs[..n])
  {
    if n > 0 {
      var a, b := SelectUpTo(xs, fails, false, n - 1), SelectUpTo(xs, fails, true, n - 1);
      SelectUpToPartition(xs, fails, n - 1);
      assert multiset(a) + multiset(b) == multiset(xs[..n - 1]);
      SelectUpToStep(xs, fails, n);
      PrefixStep(xs, n);
      var m := multiset(xs[..n - 1]);
      assert multiset(a) + multiset(b) + multiset{xs[n - 1]} == m + multiset{xs[n - 1]};
    }
  }

  /** One more element adds itself to exactly one of the two selections. */
  lemma SelectUpToStep<T>(xs: seq<T>, fails: seq<bool>, n: nat)
    requires 0 < n <= |xs| && n <= |fails|
    ensures multiset(SelectUpTo(xs, fails, false, n)) + multiset(SelectUpTo(xs, fails, true, n)) ==
      multiset(SelectUpTo(xs, fails, false, n - 1)) + multiset(SelectUpTo(xs, fails, true, n - 1)) + multiset{xs[n - 1]}
  {
  }

  lemma PrefixStep<T>(xs: seq<T>, n: nat)
    requires 0 < n <= |xs|
    ensures multiset(xs[..n]) == multiset(xs[..n - 1]) + multiset{xs[n - 1]}
  {
    assert xs[..n] == xs[..n - 1] + [xs[n - 1]];
  }

  /** The two selections split the input: together they hold every element exactly once. */
  lemma SelectPartition<T>(xs: seq<T>, fails: seq<bool>)
    requires |xs| == |fails|
    ensures multiset(Select(xs, fails, false)) + multiset(Select(xs, fails, true)) == multiset(xs)
  {
    SelectUpToPartition(xs, fails, |xs|);
    assert xs[..|xs|] == xs;
  }

  /** So the two lists' lengths add up to the input's. */
  lemma SelectLengths<T>(xs: seq<T>, fails: seq<bool>)
    requires |xs| == |fails|
    ensures |Select(xs, fails, false)| + |Select(xs, fails, true)| == |xs|
  {
    SelectPartition(xs, fails);
    assert |multiset(Select(xs, fails, false))| + |multiset(Select(xs, fails, true))| == |multiset(xs)|;
  }

  /** An element is in a prefix selection exactly when some position of the prefix holds it with the wanted flag. */
  lemma {:induction false} SelectUpToMembers<T>(xs: seq<T>, fails: seq<bool>, want: bool, n: nat, x: T)
    requires n <= |xs| && n <= |fails|
    ensures x in SelectUpTo(xs, fails, want, n) <==> exists i :: 0 <= i < n && xs[i] == x && fails[i] == want
  {
    if n > 0 {
      SelectUpToMembers(xs, fails, want, n - 1, x);
    }
  }

  /** An element is selected exactly when some position holds it with the wanted flag. */
  lemma SelectMembers<T>(xs: seq<T>, fails: seq<bool>, want: bool, x: T)
    requires |xs| == |fails|
    ensures x in Select(xs, fails, want) <==> exists i :: 0 <= i < |xs| && xs[i] == x && fails[i] == want
  {
    SelectUpToMembers(xs, fails, want, |xs|, x);
  }

  /**
   * The first selected element is the element at the first position with the
   * wanted flag; nothing is selected exactly when no position has it.
   * Returns that position, or -1 when there is none.
   */
  lemma {:induction false} SelectUpToFirst<T>(xs: seq<T>, fails: seq<bool>, want: bool, n: nat) returns (i: int)
    requires n <= |xs| && n <= |fails|
    ensures |SelectUpTo(xs, fails, want, n)| == 0 ==> i == -1 && forall j :: 0 <= j < n ==> fails[j] != want
    ensures |SelectUpTo(xs, fails, want, n)| > 0 ==>
      && 0 <= i < n && fails[i] == want && SelectUpTo(xs, fails, want, n)[0] == xs[i]
      && forall j :: 0 <= j < i ==> fails[j] != want
  {
    if n == 0 {
      i := -1;
    } else {
      i := SelectUpToFirst(xs, fails, want, n - 1);
      if i == -1 && fails[n - 1] == want {
        i := n - 1;
      }
    }
  }

  /**
   * The end of a validator's loop body: element `i` joins the failed list
   * when it holds an error and the success list otherwise.
   */
  method Route<T>(xs: seq<T>, ghost flags: seq<bool>, i: nat, failed: bool, successes: seq<T>, failures: seq<T>)
    returns (successes': seq<T>, failures': seq<T>, ghost flags': seq<bool>)
    requires i < |xs| && |flags| == i
    requires successes == SelectUpTo(xs, flags, false, i) && failures == SelectUpTo(xs, flags, true, i)
    ensures flags' == flags + [failed]
    ensures successes' == SelectUpTo(xs, flags', false, i + 1) && failures' == SelectUpTo(xs, flags', true, i + 1)
  {
    SelectUpToFlags(xs, flags, flags + [failed], false, i);
    SelectUpToFlags(xs, flags, flags + [failed], true, i);
    flags' := flags + [failed];
    if !failed {
      successes', failures' := successes + [xs[i]], failures;
    } else {
      successes', failures' := successes, failures + [xs[i]];
    }
  }
}

=== FILE: rules.dfy ===
/**
 * The rules-engine service (src/core/common/rules-engine.service.ts): the
 * custom `containsAndGreaterThan` operator, and evaluation of one rule on a
 * fresh engine per call. The rules library itself is represented by a
 * small evaluator of all/any condition trees over a fact record; it stands
 * in for the library and is used only to state what the service's own rules
 * mean.
 */
module RulesEngine {
  import opened Wrappers
  import opened Json
  import opened Strings

  // ----- containsAndGreaterThan -----

  /** One entry of the fact array: its SKU code and its final amount. */
  datatype SkuLine = SkuLine(skuCode: string, finalAmount: real)

  /** The rule's value: a SKU code and the amount it must exceed. */
  datatype SkuThreshold = SkuThreshold(skuCode: string, minValue: real)

  predicate Exceeds(line: SkuLine, rule: SkuThreshold)
  {
    line.skuCode == rule.skuCode && line.finalAmount > rule.minValue
  }

  /** The operator's loop: return true at the first entry that exceeds the rule, false after the last. */
  function ContainsAndGreaterThan(lines: seq<SkuLine>, rule: SkuThreshold): bool
  {
    if |lines| == 0 then false
    else if Exceeds(lines[0], rule) then true
    else ContainsAndGreaterThan(lines[1..], rule)
  }

  /** The operator holds iff some entry has the rule's SKU code and an amount strictly above the minimum. */
  lemma {:induction false} ContainsAndGreaterThanIff(lines: seq<SkuLine>, rule: SkuThreshold)
    ensures ContainsAndGreaterThan(lines, rule) <==> exists i :: 0 <= i < |lines| && Exceeds(lines[i], rule)
  {
    if |lines| > 0 {
      ContainsAndGreaterThanIff(lines[1..], rule);
      if !Exceeds(lines[0], rule) {
        forall i | 0 < i < |lines| && Exceeds(lines[i], rule)
          ensures Exceeds(lines[1..][i - 1], rule)
        {
        }
      }
    }
  }

  /** No entries, no match; and an amount equal to the minimum does not match, the comparison being strict. */
  lemma {:induction false} ContainsAndGreaterThanEdges(sku: string, amount: real)
    ensures !ContainsAndGreaterThan([], SkuThreshold(sku, amount))
    ensures !ContainsAndGreaterThan([SkuLine(sku, amount)], SkuThreshold(sku, amount))
  {
    ContainsAndGreaterThanIff([SkuLine(sku, amount)], SkuThreshold(sku, amount));
  }

  /** The order of the entries does not matter. */
  lemma {:induction false} ContainsAndGreaterThanOrderFree(a: seq<SkuLine>, b: seq<SkuLine>, rule: SkuThreshold)
    requires multiset(a) == multiset(b)
    ensures ContainsAndGreaterThan(a, rule) == ContainsAndGreaterThan(b, rule)
  {
    ContainsAndGreaterThanIff(a, rule);
    ContainsAndGreaterThanIff(b, rule);
    if ContainsAndGreaterThan(a, rule) {
      var i :| 0 <= i < |a| && Exceeds(a[i], rule);
      assert a[i] in multiset(b);
      var j :| 0 <= j < |b| && b[j] == a[i];
    }
    if ContainsAndGreaterThan(b, rule) {
      var j :| 0 <= j < |b| && Exceeds(b[j], rule);
      assert b[j] in multiset(a);
      var i :| 0 <= i < |a| && a[i] == b[j];
    }
  }

  /** Appending entries never turns a match into a non-match. */
  lemma {:induction false} ContainsAndGreaterThanAppend(a: seq<SkuLine>, b: seq<SkuLine>, rule: SkuThreshold)
    ensures ContainsAndGreaterThan(a, rule) ==> ContainsAndGreaterThan(a + b, rule)
  {
    ContainsAndGreaterThanIff(a, rule);
    ContainsAndGreaterThanIff(a + b, rule);
    if ContainsAndGreaterThan(a, rule) {
      var i :| 0 <= i < |a| && Exceeds(a[i], rule);
      assert (a + b)[i] == a[i];
    }
  }

  // ----- the operator on JavaScript values -----

  /**
   * One pass of the loop on element `ab`: `ab['skuCode'] == ruleValue['skuCode']
   * && ab['finalAmount'] > ruleValue['minValue']`, or `None` when a property
   * read throws a TypeError (`ab` or `ruleValue` is `null` or `undefined`).
   * The right operand of `&&` is reached only after the left one succeeds,
   * and it reads nothing that can throw by then.
   */
  function ElementMatch(ab: Value, ruleValue: Value): Option<bool>
  {
    if IsNullish(ab) || IsNullish(ruleValue) then None
    else Some(LooseEquals(Member(ab, "skuCode"), Member(ruleValue, "skuCode"))
              && Greater(Member(ab, "finalAmount"), Member(ruleValue, "minValue")))
  }

  /** The loop over the elements: true at the first match, false after the last, `None` at the first throw. */
  function ContainsAndGreaterThanItems(items: seq<Value>, ruleValue: Value): Option<bool>
  {
    if |items| == 0 then Some(false)
    else
      match ElementMatch(items[0], ruleValue)
      case None => None
      case Some(true) => Some(true)
      case Some(false) => ContainsAndGreaterThanItems(items[1..], ruleValue)
  }

  /** The characters a `for...of` loop over a string yields, each a one-character string. */
  function Characters(s: string): (cs: seq<Value>)
    ensures |cs| == |s| && forall i :: 0 <= i < |s| ==> cs[i] == Str([s[i]])
  {
    seq(|s|, i requires 0 <= i < |s| => Str([s[i]]))
  }

  /**
   * The operator as registered: `for (const ab of reqValue)` runs over an
   * array's elements or a string's characters, and throws for any other
   * fact value, which is not iterable. A string fact never satisfies it.
   */
  function ContainsAndGreaterThanOperator(factValue: Value, ruleValue: Value): (r: Option<bool>)
    ensures factValue.Str? ==> r != Some(true)
    ensures r.None? <==>
      if factValue.Arr? then ContainsAndGreaterThanItems(factValue.items, ruleValue).None?
      else !factValue.Str? || (|factValue.s| > 0 && IsNullish(ruleValue))
  {
    match factValue
    case Arr(items) => ContainsAndGreaterThanItems(items, ruleValue)
    case Str(s) =>
      CharactersNeverMatch(Characters(s), ruleValue);
      ContainsAndGreaterThanItems(Characters(s), ruleValue)
    case _ => None
  }

  /** A string's characters have no `skuCode` or `finalAmount`, so they never match; the loop throws only on a nullish rule value. */
  lemma {:induction false} CharactersNeverMatch(cs: seq<Value>, ruleValue: Value)
    requires forall i :: 0 <= i < |cs| ==> cs[i].Str?
    ensures ContainsAndGreaterThanItems(cs, ruleValue) == if |cs| > 0 && IsNullish(ruleValue) then None else Some(false)
  {
    if |cs| > 0 {
      assert !Greater(Undefined, Member(ruleValue, "minValue"));
      CharactersNeverMatch(cs[1..], ruleValue);
    }
  }

  /**
   * The loop's result is decided by the first element that does not simply
   * fail to match: true if it matches, a throw if it throws; with no such
   * element the result is false.
   */
  lemma {:induction false} ContainsAndGreaterThanItemsFirst(items: seq<Value>, ruleValue: Value)
    ensures ContainsAndGreaterThanItems(items, ruleValue) == Some(false) <==>
      forall i :: 0 <= i < |items| ==> ElementMatch(items[i], ruleValue) == Some(false)
    ensures forall i | 0 <= i < |items| && ElementMatch(items[i], ruleValue) != Some(false)
                       && (forall j :: 0 <= j < i ==> ElementMatch(items[j], ruleValue) == Some(false)) ::
      ContainsAndGreaterThanItems(items, ruleValue) == ElementMatch(items[i], ruleValue)
  {
    if |items| > 0 {
      var rest := items[1..];
      ContainsAndGreaterThanItemsFirst(rest, ruleValue);
      assert forall i :: 0 < i < |items| ==> items[i] == rest[i - 1];
      if ElementMatch(items[0], ruleValue) == Some(false) {
        forall i | 0 < i < |items| && ElementMatch(items[i], ruleValue) != Some(false)
                   && (forall j :: 0 <= j < i ==> ElementMatch(items[j], ruleValue) == Some(false))
          ensures ContainsAndGreaterThanItems(items, ruleValue) == ElementMatch(items[i], ruleValue)
        {
          assert forall j :: 0 <= j < i - 1 ==> ElementMatch(rest[j], ruleValue) == Some(false) by {
            forall j | 0 <= j < i - 1
              ensures ElementMatch(rest[j], ruleValue) == Some(false)
            {
              assert rest[j] == items[j + 1];
            }
          }
        }
      }
    }
  }

  /** A match, once reached, stands whatever elements follow it. */
  lemma {:induction false} ContainsAndGreaterThanItemsAppend(a: seq<Value>, b: seq<Value>, ruleValue: Value)
    ensures ContainsAndGreaterThanItems(a, ruleValue) == Some(true) ==> ContainsAndGreaterThanItems(a + b, ruleValue) == Some(true)
  {
    if |a| > 0 && ElementMatch(a[0], ruleValue) == Some(false) {
      assert (a + b)[1..] == a[1..] + b;
      ContainsAndGreaterThanItemsAppend(a[1..], b, ruleValue);
    }
  }

  /** The rule value of the examples below: SKU "123" above the string "10". */
  function ExampleRule(): Value
  {
    Obj(map["skuCode" := Str("123"), "minValue" := Str("10")])
  }

  function ExampleLine(skuCode: Value, finalAmount: Value): Value
  {
    Obj(map["skuCode" := skuCode, "finalAmount" := finalAmount])
  }

  lemma ExampleLiterals()
    ensures ToNumber(Str("123")) == Finite(123.0) && ToNumber(Str("10")) == Finite(10.0)
  {
    assert "123"[..2] == "12" && "12"[..1] == "1" && "1"[..0] == "";
    assert AllDigits("123") && DigitsValue("123") == 123;
    assert "10"[..1] == "1";
    assert AllDigits("10") && DigitsValue("10") == 10;
  }

  /** One element against the example rule, by its skuCode and finalAmount as the loop reads them. */
  lemma ExampleElement(skuCode: Value, finalAmount: Value)
    ensures ElementMatch(ExampleLine(skuCode, finalAmount), ExampleRule()) ==
      Some(LooseEquals(skuCode, Str("123")) && Greater(finalAmount, Str("10")))
  {
    assert Member(ExampleLine(skuCode, finalAmount), "skuCode") == skuCode;
    assert Member(ExampleLine(skuCode, finalAmount), "finalAmount") == finalAmount;
    assert Member(ExampleRule(), "skuCode") == Str("123") && Member(ExampleRule(), "minValue") == Str("10");
  }

  /** Loose equality: a numeric skuCode 123 matches the rule's "123", and the string minValue "10" is compared as a number against 12. */
  lemma ContainsAndGreaterThanLooseEquality()
    ensures ContainsAndGreaterThanItems([ExampleLine(Num(123.0), Num(12.0))], ExampleRule()) == Some(true)
  {
    ExampleElement(Num(123.0), Num(12.0));
    ExampleLiterals();
  }

  /** Two strings compare as text: an amount "9" exceeds the minValue "10", while the number 9 does not. */
  lemma ContainsAndGreaterThanTextOrder()
    ensures ContainsAndGreaterThanItems([ExampleLine(Str("123"), Str("9"))], ExampleRule()) == Some(true)
    ensures ContainsAndGreaterThanItems([ExampleLine(Str("123"), Num(9.0))], ExampleRule()) == Some(false)
  {
    ExampleElement(Str("123"), Str("9"));
    ExampleElement(Str("123"), Num(9.0));
    ExampleLiterals();
    assert StringGreater("9", "10");
    assert [ExampleLine(Str("123"), Num(9.0))][1..] == [];
  }

  /** The SKU line "123" at 12 matches the example rule. */
  lemma ExampleMatch()
    ensures ElementMatch(ExampleLine(Str("123"), Num(12.0)), ExampleRule()) == Some(true)
  {
    ExampleElement(Str("123"), Num(12.0));
    ExampleLiterals();
    assert LooseEquals(Str("123"), Str("123"));
    assert Greater(Num(12.0), Str("10"));
  }

  /** A `null` element throws when it is reached, so the order of the elements matters once one is `null`. */
  lemma ContainsAndGreaterThanNullElement()
    ensures ContainsAndGreaterThanItems([Null, ExampleLine(Str("123"), Num(12.0))], ExampleRule()).None?
    ensures ContainsAndGreaterThanItems([ExampleLine(Str("123"), Num(12.0)), Null], ExampleRule()) == Some(true)
  {
    ExampleMatch();
    assert ElementMatch(Null, ExampleRule()).None?;
  }

  /** An array element read as a SKU line: an object with a string `skuCode` and a numeric `finalAmount`. */
  function SkuLineOf(v: Value): Option<SkuLine>
  {
    if v.Obj? && Get(v.props, "skuCode").Str? && ToNumber(Get(v.props, "finalAmount")).Finite? then
      Some(SkuLine(Get(v.props, "skuCode").s, ToNumber(Get(v.props, "finalAmount")).r))
    else None
  }

  /** A fact array every element of which is a SKU line, read as those lines. */
  function SkuLinesOf(items: seq<Value>): (lines: seq<SkuLine>)
    requires forall i :: 0 <= i < |items| ==> SkuLineOf(items[i]).Some?
    ensures |lines| == |items| && forall i :: 0 <= i < |items| ==> lines[i] == SkuLineOf(items[i]).value
  {
    seq(|items|, i requires 0 <= i < |items| && SkuLineOf(items[i]).Some? => SkuLineOf(items[i]).value)
  }

  /** The rule value read as a threshold: an object with a string `skuCode` and a numeric `minValue`. */
  function ThresholdOf(v: Value): Option<SkuThreshold>
  {
    if v.Obj? && Get(v.props, "skuCode").Str? && Get(v.props, "minValue").Num? then
      Some(SkuThreshold(Get(v.props, "skuCode").s, Get(v.props, "minValue").n))
    else None
  }

  /**
   * On well-formed values (every element a SKU line, the rule a threshold)
   * nothing throws and the loop is the one over SKU lines above, so the
   * lemmas about `ContainsAndGreaterThan` describe it.
   */
  lemma {:induction false} ContainsAndGreaterThanOnSkuLines(items: seq<Value>, ruleValue: Value)
    requires forall i :: 0 <= i < |items| ==> SkuLineOf(items[i]).Some?
    requires ThresholdOf(ruleValue).Some?
    ensures ContainsAndGreaterThanItems(items, ruleValue) == Some(ContainsAndGreaterThan(SkuLinesOf(items), ThresholdOf(ruleValue).value))
  {
    if |items| > 0 {
      var line, rule := SkuLineOf(items[0]).value, ThresholdOf(ruleValue).value;
      assert ElementMatch(items[0], ruleValue) == Some(Exceeds(line, rule)) by {
        assert LooseEquals(Member(items[0], "skuCode"), Member(ruleValue, "skuCode")) <==> line.skuCode == rule.skuCode;
        assert ToNumber(Member(ruleValue, "minValue")) == Finite(rule.minValue);
      }
      assert SkuLinesOf(items)[1..] == SkuLinesOf(items[1..]);
      ContainsAndGreaterThanOnSkuLines(items[1..], ruleValue);
    }
  }

  // ----- condition trees -----

  datatype Operator =
    | Equal | NotEqual | LessThan | LessThanInclusive | GreaterThan | GreaterThanInclusive
    | ContainsAndGreaterThanOp

  /** `{all: [...]}`, `{any: [...]}` or `{fact, operator, value}`. */
  datatype Condition =
    | All(children: seq<Condition>)
    | Any(children: seq<Condition>)
    | Leaf(fact: string, op: Operator, value: Value)

  /** A numeric comparison holds only between two numbers. */
  predicate Compare(op: Operator, a: Value, b: Value)
    requires op in {LessThan, LessThanInclusive, GreaterThan, GreaterThanInclusive}
  {
    var x, y := ToNumber(a), ToNumber(b);
    x.Finite? && y.Finite? &&
    match op
    case LessThan => x.r < y.r
    case LessThanInclusive => x.r <= y.r
    case GreaterThan => x.r > y.r
    case GreaterThanInclusive => x.r >= y.r
  }

  predicate ApplyOperator(op: Operator, factValue: Value, ruleValue: Value)
  {
    match op
    case Equal => factValue == ruleValue
    case NotEqual => factValue != ruleValue
    case ContainsAndGreaterThanOp => ContainsAndGreaterThanOperator(factValue, ruleValue) == Some(true)
    case _ => Compare(op, factValue, ruleValue)
  }

  /** Whether a condition tree holds of a fact record; a leaf on a missing fact does not hold. */
  predicate Evaluate(c: Condition, facts: Facts)
    decreases c, 1
  {
    match c
    case All(cs) => EvaluateAll(cs, facts)
    case Any(cs) => EvaluateAny(cs, facts)
    case Leaf(fact, op, value) => fact in facts && ApplyOperator(op, facts[fact], value)
  }

  predicate EvaluateAll(cs: seq<Condition>, facts: Facts)
    decreases cs, 0
  {
    |cs| == 0 || (Evaluate(cs[0], facts) && EvaluateAll(cs[1..], facts))
  }

  predicate EvaluateAny(cs: seq<Condition>, facts: Facts)
    decreases cs, 0
  {
    |cs| > 0 && (Evaluate(cs[0], facts) || EvaluateAny(cs[1..], facts))
  }

  /** `all` holds iff every child holds (so an empty `all` holds). */
  lemma {:induction false} EvaluateAllIff(cs: seq<Condition>, facts: Facts)
    ensures EvaluateAll(cs, facts) <==> forall i :: 0 <= i < |cs| ==> Evaluate(cs[i], facts)
  {
    if |cs| > 0 {
      EvaluateAllIff(cs[1..], facts);
      assert forall i :: 0 < i < |cs| ==> cs[i] == cs[1..][i - 1];
    }
  }

  /** `any` holds iff some child holds (so an empty `any` fails). */
  lemma {:induction false} EvaluateAnyIff(cs: seq<Condition>, facts: Facts)
    ensures EvaluateAny(cs, facts) <==> exists i :: 0 <= i < |cs| && Evaluate(cs[i], facts)
  {
    if |cs| > 0 {
      EvaluateAnyIff(cs[1..], facts);
      assert forall i :: 0 < i < |cs| ==> cs[i] == cs[1..][i - 1];
    }
  }

  /** Whether a condition tree uses an operator that must be registered with the engine. */
  predicate UsesCustomOperator(c: Condition)
    decreases c, 1
  {
    match c
    case All(cs) => UsesCustomOperatorIn(cs)
    case Any(cs) => UsesCustomOperatorIn(cs)
    case Leaf(_, op, _) => op == ContainsAndGreaterThanOp
  }

  predicate UsesCustomOperatorIn(cs: seq<Condition>)
    decreases cs, 0
  {
    |cs| > 0 && (UsesCustomOperator(cs[0]) || UsesCustomOperatorIn(cs[1..]))
  }

  // ----- the engine -----

  datatype Event = Event(eventType: string, params: Facts)

  datatype Rule = Rule(conditions: Condition, event: Event)

  /** The events of the rules in `rules` whose conditions hold, in rule order. */
  function FiredEvents(rules: seq<Rule>, facts: Facts): (events: seq<Event>)
    ensures |events| <= |rules|
  {
    if |rules| == 0 then []
    else
      var rest := FiredEvents(rules[..|rules| - 1], facts);
      var last := rules[|rules| - 1];
      if Evaluate(last.conditions, facts) then rest + [last.event] else rest
  }

  /** A rules engine instance: its rules and the custom operators registered on it. */
  class Engine {
    var rules: seq<Rule>
    var customOperatorRegistered: bool

    constructor ()
      ensures rules == [] && !customOperatorRegistered
    {
      rules := [];
      customOperatorRegistered := false;
    }

    method AddOperator()
      modifies this
      ensures customOperatorRegistered && rules == old(rules)
    {
      customOperatorRegistered := true;
    }

    method AddRule(rule: Rule)
      modifies this
      ensures rules == old(rules) + [rule]
      ensures customOperatorRegistered == old(customOperatorRegistered)
    {
      rules := rules + [rule];
    }

    /**
     * Runs every rule on the facts: the events of the rules that hold, or a
     * failure when a rule uses an operator that was never registered.
     */
    method Run(facts: Facts) returns (r: Result<seq<Event>, string>)
      ensures r.Failure? <==> !customOperatorRegistered && exists i :: 0 <= i < |rules| && UsesCustomOperator(rules[i].conditions)
      ensures r.Success? ==> r.value == FiredEvents(rules, facts)
    {
      var events := [];
      var i := 0;
      while i < |rules|
        invariant 0 <= i <= |rules|
        invariant customOperatorRegistered || forall j :: 0 <= j < i ==> !UsesCustomOperator(rules[j].conditions)
        invariant events == FiredEvents(rules[..i], facts)
      {
        if !customOperatorRegistered && UsesCustomOperator(rules[i].conditions) {
          return Failure("Unknown operator: containsAndGreaterThan");
        }
        assert rules[..i + 1][..i] == rules[..i];
        if Evaluate(rules[i].conditions, facts) {
          events := events + [rules[i].event];
        }
        i := i + 1;
      }
      assert rules[..i] == rules;
      return Success(events);
    }
  }

  /**
   * `checkRulesWithFacts(rule, facts)`: a new engine, the custom operator
   * registered, the one rule added, then run. Nothing is shared between
   * calls, so the result depends only on the rule and the facts: the
   * rule's event when its conditions hold, and nothing otherwise.
   */
  method CheckRulesWithFacts(rule: Rule, facts: Facts) returns (r: Result<seq<Event>, string>)
    ensures r == Success(if Evaluate(rule.conditions, facts) then [rule.event] else [])
  {
    var engine := new Engine();
    engine.AddOperator();
    engine.AddRule(rule);
    assert engine.rules == [rule] && [rule][..0] == [];
    r := engine.Run(facts);
    assert FiredEvents([rule][..0], facts) == [];
    assert [] + [rule.event] == [rule.event];
  }
}

=== FILE: strings.dfy ===
/**
 * String helpers shared by the model: decimal digits, the decimal rendering
 * of a natural number, and JavaScript's `String.prototype.split` on a single
 * separator character together with its inverse `Array.prototype.join`.
 */
module Strings {

  predicate IsDigit(c: char) { '0' <= c <= '9' }

  predicate AllDigits(s: string) { forall i :: 0 <= i < |s| ==> IsDigit(s[i]) }

  function DigitValue(c: char): (d: nat)
    requires IsDigit(c)
    ensures d < 10
  {
    (c as int) - ('0' as int)
  }

  function DigitChar(d: nat): (c: char)
    requires d < 10
    ensures IsDigit(c) && DigitValue(c) == d
  {
    (('0' as int) + d) as char
  }

  /** The value of a string of decimal digits, most significant first; "" is 0. */
  function DigitsValue(s: string): nat
    requires AllDigits(s)
  {
    if |s| == 0 then 0 else DigitsValue(s[..|s| - 1]) * 10 + DigitValue(s[|s| - 1])
  }

  function Pow10(n: nat): (p: nat)
    ensures p >= 1
  {
    if n == 0 then 1 else 10 * Pow10(n - 1)
  }

  /** The decimal rendering of `n`, as JavaScript's template strings print a non-negative integer. */
  function NatToString(n: nat): (s: string)
    ensures |s| >= 1 && AllDigits(s)
  {
    if n < 10 then [DigitChar(n)] else NatToString(n / 10) + [DigitChar(n % 10)]
  }

  /** Reading back the rendering gives the number again, so the rendering is injective. */
  lemma {:induction false} NatToStringRoundTrip(n: nat)
    ensures DigitsValue(NatToString(n)) == n
  {
    if n >= 10 {
      var s := NatToString(n);
      var p := NatToString(n / 10);
      assert s[..|s| - 1] == p;
      NatToStringRoundTrip(n / 10);
    }
  }

  lemma NatToStringInjective(m: nat, n: nat)
    requires NatToString(m) == NatToString(n)
    ensures m == n
  {
    NatToStringRoundTrip(m);
    NatToStringRoundTrip(n);
  }

  /**
   * The characters JavaScript's `trim` and `Number` strip from the ends of a
   * string (ECMAScript WhiteSpace and LineTerminator): tab, vertical tab,
   * form feed, the zero-width no-break space, every space separator (Zs),
   * line feed, carriage return, and the line and paragraph separators.
   */
  predicate IsSpace(c: char)
  {
    c == '\t' || c == '\U{000B}' || c == '\U{000C}' || c == ' ' || c == '\U{00A0}' || c == '\U{FEFF}'
    || c == '\U{1680}' || ('\U{2000}' <= c <= '\U{200A}') || c == '\U{202F}' || c == '\U{205F}' || c == '\U{3000}'
    || c == '\n' || c == '\r' || c == '\U{2028}' || c == '\U{2029}'
  }

  function TrimStart(s: string): (t: string)
    ensures |t| <= |s|
    ensures |t| > 0 ==> !IsSpace(t[0])
  {
    if |s| > 0 && IsSpace(s[0]) then TrimStart(s[1..]) else s
  }

  function TrimEnd(s: string): (t: string)
    ensures |t| <= |s|
    ensures |t| > 0 ==> !IsSpace(t[|t| - 1])
  {
    if |s| > 0 && IsSpace(s[|s| - 1]) then TrimEnd(s[..|s| - 1]) else s
  }

  function Trim(s: string): string { TrimEnd(TrimStart(s)) }

  /** A string that neither starts nor ends with white space trims to itself. */
  lemma TrimUnpadded(s: string)
    requires |s| > 0 ==> !IsSpace(s[0]) && !IsSpace(s[|s| - 1])
    ensures Trim(s) == s
  {
  }

  /**
   * `s.split(sep)`: the pieces between occurrences of `sep`, in order.
   * There is always at least one piece; "" splits into [""].
   */
  function Split(s: string, sep: char): (parts: seq<string>)
    ensures |parts| >= 1
  {
    if |s| == 0 then [""]
    else
      var rest := Split(s[1..], sep);
      if s[0] == sep then [""] + rest else [[s[0]] + rest[0]] + rest[1..]
  }

  /** `parts.join(sep)`. */
  function Join(parts: seq<string>, sep: char): string
  {
    if |parts| == 0 then ""
    else if |parts| == 1 then parts[0]
    else parts[0] + [sep] + Join(parts[1..], sep)
  }

  /** A piece free of the separator glues onto the first piece of what follows it. */
  lemma {:induction false} SplitPrefix(a: string, t: string, sep: char)
    requires sep !in a
    ensures Split(a + t, sep) == [a + Split(t, sep)[0]] + Split(t, sep)[1..]
  {
    if |a| > 0 {
      assert (a + t)[1..] == a[1..] + t;
      assert a[0] != sep by { assert a[0] in a; }
      SplitPrefix(a[1..], t, sep);
      assert [a[0]] + (a[1..] + Split(t, sep)[0]) == a + Split(t, sep)[0];
    } else {
      var st := Split(t, sep);
      assert a + t == t;
      assert a + st[0] == st[0];
      assert st == [st[0]] + st[1..];
    }
  }

  /** A string without the separator splits into itself alone. */
  lemma SplitAbsent(s: string, sep: char)
    requires sep !in s
    ensures Split(s, sep) == [s]
  {
    SplitPrefix(s, "", sep);
    assert s + "" == s;
  }

  /** Splitting what was joined gives the pieces back, when no piece holds the separator. */
  lemma {:induction false} SplitJoin(parts: seq<string>, sep: char)
    requires |parts| >= 1
    requires forall i :: 0 <= i < |parts| ==> sep !in parts[i]
    ensures Split(Join(parts, sep), sep) == parts
  {
    if |parts| == 1 {
      SplitPrefix(parts[0], "", sep);
      assert parts[0] + "" == parts[0];
    } else {
      var tail := Join(parts[1..], sep);
      SplitJoin(parts[1..], sep);
      assert Join(parts, sep) == parts[0] + ([sep] + tail);
      SplitPrefix(parts[0], [sep] + tail, sep);
      assert ([sep] + tail)[1..] == tail;
      assert Split([sep] + tail, sep) == [""] + Split(tail, sep);
      assert parts[0] + "" == parts[0];
      assert parts == [parts[0]] + parts[1..];
    }
  }

  /** The number of occurrences of `c` in `s`. */
  function Count(s: string, c: char): nat
  {
    if |s| == 0 then 0 else (if s[0] == c then 1 else 0) + Count(s[1..], c)
  }

  lemma {:induction false} CountAppend(a: string, b: string, c: char)
    ensures Count(a + b, c) == Count(a, c) + Count(b, c)
  {
    if |a| > 0 {
      assert (a + b)[1..] == a[1..] + b;
      CountAppend(a[1..], b, c);
    } else {
      assert a + b == b;
    }
  }

  lemma {:induction false} CountAbsent(s: string, c: char)
    requires c !in s
    ensures Count(s, c) == 0
  {
    if |s| > 0 {
      assert s[0] in s;
      assert forall x :: x in s[1..] ==> x in s;
      CountAbsent(s[1..], c);
    }
  }

  /** Joining n separator-free pieces puts exactly n - 1 separators in the result. */
  lemma {:induction false} JoinCount(parts: seq<string>, sep: char)
    requires |parts| >= 1
    requires forall i :: 0 <= i < |parts| ==> sep !in parts[i]
    ensures Count(Join(parts, sep), sep) == |parts| - 1
  {
    CountAbsent(parts[0], sep);
    if |parts| > 1 {
      JoinCount(parts[1..], sep);
      var tail := Join(parts[1..], sep);
      CountAppend(parts[0], [sep] + tail, sep);
      CountAppend([sep], tail, sep);
      assert [sep][1..] == "";
      assert Count([sep], sep) == 1;
      assert Join(parts, sep) == parts[0] + ([sep] + tail);
    }
  }
}

=== FILE: target_controller.dfy ===
/**
 * The target-campaign endpoints' own logic (src/offer/target.controller.ts):
 * reading an uploaded sheet through its header mapping, the upload-save
 * argument and cancel handling, editing a campaign (the edit window, the
 * disabling of pending rows, the voucher recheck and the regeneration of
 * rows), grouping daily rows by campaign, and the store's progress view
 * (daily status, remaining targets). Dates are day numbers; `today` is a
 * parameter.
 */
module TargetController {
  import opened Wrappers
  import opened Json
  import opened Strings
  import opened Common
  import opened TargetEntities
  import opened OfferEntities
  import opened TargetRows
  import opened TargetSettlement
  import opened TargetUpload

  // ----- parseTargetCampaignByHeaderMapping -----

  /** The bean fields of `TargetCampaignUploadBean.getHeaderMapping()`, in its order. */
  const TARGET_FIELDS: seq<string> :=
    ["storeId", "targetAmount", "startDate", "endDate", "weeklyCashbackPercent", "dailyCashbackPercent"]

  /** The sheet header each of those fields is read from. */
  const TARGET_SHEET_HEADERS: seq<string> :=
    ["Store Id", "Target Amount", "Start Date", "End Date", "Weekly Cashback Percent", "Daily Cashback Percent"]

  /** The "field:Sheet header" pairs of the mapping. */
  const TARGET_HEADER_PAIRS: seq<string> :=
    seq(6, i requires 0 <= i < 6 => TARGET_FIELDS[i] + ":" + TARGET_SHEET_HEADERS[i])

  /** The mapping string itself: the pairs joined by commas. */
  const TARGET_HEADER_MAPPING: string := Join(TARGET_HEADER_PAIRS, ',')

  /** The sheet header each bean field is read from. */
  const TARGET_HEADERS: map<Option<string>, string> := map[
    Some("Store Id") := "storeId",
    Some("Target Amount") := "targetAmount",
    Some("Start Date") := "startDate",
    Some("End Date") := "endDate",
    Some("Weekly Cashback Percent") := "weeklyCashbackPercent",
    Some("Daily Cashback Percent") := "dailyCashbackPercent"]

  /** No field or header name contains the pair separator ':'. */
  lemma TargetNamesColonFree(i: nat)
    requires i < 6
    ensures ':' !in TARGET_FIELDS[i] && ':' !in TARGET_SHEET_HEADERS[i]
  {
  }

  /** No field or header name contains the list separator ','. */
  lemma TargetNamesCommaFree(i: nat)
    requires i < 6
    ensures ',' !in TARGET_FIELDS[i] && ',' !in TARGET_SHEET_HEADERS[i]
  {
  }

  /** The mapping string splits back into its six pairs. */
  lemma TargetHeaderPairs()
    ensures Split(TARGET_HEADER_MAPPING, ',') == TARGET_HEADER_PAIRS
  {
    var pairs := TARGET_HEADER_PAIRS;
    forall i | 0 <= i < |pairs|
      ensures ',' !in pairs[i]
    {
      TargetNamesCommaFree(i);
    }
    SplitJoin(pairs, ',');
  }

  /** The map the first `n` fields and headers describe. */
  function TargetHeadersUpTo(n: nat): map<Option<string>, string>
    requires n <= 6
  {
    if n == 0 then map[] else TargetHeadersUpTo(n - 1)[Some(TARGET_SHEET_HEADERS[n - 1]) := TARGET_FIELDS[n - 1]]
  }

  /** Reading the first `n` pairs stores each field under its header. */
  lemma {:induction false} TargetPairsMapUpTo(n: nat)
    requires n <= 6
    ensures HeaderMapOf(TARGET_HEADER_PAIRS[..n]) == TargetHeadersUpTo(n)
  {
    var pairs := TARGET_HEADER_PAIRS;
    if n == 0 {
      assert pairs[..0] == [];
    } else {
      TargetPairsMapUpTo(n - 1);
      TargetNamesColonFree(n - 1);
      PairParts(TARGET_FIELDS[n - 1], TARGET_SHEET_HEADERS[n - 1]);
      assert pairs[..n][..n - 1] == pairs[..n - 1];
    }
  }

  /** The header mapping reads as: each sheet header names its bean field. */
  lemma TargetHeaderMap()
    ensures HeaderMapOf(Split(TARGET_HEADER_MAPPING, ',')) == TARGET_HEADERS
  {
    TargetHeaderPairs();
    TargetPairsMapUpTo(6);
    assert TARGET_HEADER_PAIRS[..6] == TARGET_HEADER_PAIRS;
  }

  /** A sheet row: (header, cell) pairs in column order. */
  type CsvRow = seq<(string, string)>

  /**
   * The bean properties written by the first `n` cells: a cell whose header
   * is mapped writes its text into the mapped field; a later cell
   * overwrites an earlier one.
   */
  function BeanProps(cells: CsvRow, headers: map<Option<string>, string>, n: nat): map<string, string>
    requires n <= |cells|
  {
    if n == 0 then map[]
    else
      var (key, cell) := cells[n - 1];
      var props := BeanProps(cells, headers, n - 1);
      if Some(key) in headers then props[headers[Some(key)] := cell] else props
  }

  /**
   * A field is set exactly when some cell's header maps to it, and it holds
   * the text of the last such cell; cells under unmapped headers are ignored.
   */
  lemma {:induction false} BeanPropsLastWins(cells: CsvRow, headers: map<Option<string>, string>, n: nat, f: string)
    requires n <= |cells|
    ensures f in BeanProps(cells, headers, n) <==>
      exists i :: 0 <= i < n && Some(cells[i].0) in headers && headers[Some(cells[i].0)] == f
    ensures forall i ::
      (&& 0 <= i < n && Some(cells[i].0) in headers && headers[Some(cells[i].0)] == f
       && forall j :: i < j < n ==> !(Some(cells[j].0) in headers && headers[Some(cells[j].0)] == f))
      ==> BeanProps(cells, headers, n)[f] == cells[i].1
  {
    if n > 0 {
      BeanPropsLastWins(cells, headers, n - 1, f);
    }
  }

  /** The text of a bean field, `undefined` when no cell set it. */
  function Prop(props: map<string, string>, f: string): Option<string>
  {
    if f in props then Some(props[f]) else None
  }

  /** The same, as a JavaScript value for the numeric fields. */
  function PropValue(props: map<string, string>, f: string): (v: Value)
    ensures v.Undefined? <==> f !in props
  {
    if f in props then Str(props[f]) else Undefined
  }

  /** The upload row a bean with these properties is, with no errors yet. */
  function BeanRow(props: map<string, string>): (row: UploadRow)
    ensures row.errors == [] && row.storeId == Prop(props, "storeId")
    ensures row.startDate == Prop(props, "startDate") && row.endDate == Prop(props, "endDate")
    ensures row.targetAmount == PropValue(props, "targetAmount")
  {
    UploadRow(Prop(props, "storeId"), Prop(props, "startDate"), Prop(props, "endDate"),
      PropValue(props, "weeklyCashbackPercent"), PropValue(props, "dailyCashbackPercent"),
      PropValue(props, "targetAmount"), [])
  }

  /** The bean one sheet row yields. */
  function ParsedRow(cells: CsvRow): UploadRow
  {
    BeanRow(BeanProps(cells, TARGET_HEADERS, |cells|))
  }

  /** The bean's store id is the text of the last "Store Id" cell, and no other column can set it. */
  lemma ParsedStoreId(cells: CsvRow, i: nat)
    requires i < |cells| && cells[i].0 == "Store Id"
    requires forall j :: i < j < |cells| ==> cells[j].0 != "Store Id"
    ensures ParsedRow(cells).storeId == Some(cells[i].1)
  {
    BeanPropsLastWins(cells, TARGET_HEADERS, |cells|, "storeId");
    forall j | i < j < |cells| && Some(cells[j].0) in TARGET_HEADERS
      ensures TARGET_HEADERS[Some(cells[j].0)] != "storeId"
    {
    }
  }

  /** The inner loop: each cell under a mapped header is written into its field. */
  method ReadCells(cells: CsvRow, headerMap: map<Option<string>, string>) returns (props: map<string, string>)
    ensures props == BeanProps(cells, headerMap, |cells|)
  {
    props := map[];
    for c := 0 to |cells|
      invariant props == BeanProps(cells, headerMap, c)
    {
      var (key, cell) := cells[c];
      if Some(key) in headerMap {
        props := props[headerMap[Some(key)] := cell];
      }
    }
  }

  /**
   * `parseTargetCampaignByHeaderMapping`: one fresh bean per sheet row, in
   * order, each holding the cells whose headers the mapping names.
   */
  method ParseTargetCampaignByHeaderMapping(csvRows: seq<CsvRow>) returns (beans: seq<CampaignUploadRow>)
    ensures |beans| == |csvRows|
    ensures forall i :: 0 <= i < |beans| ==> fresh(beans[i]) && beans[i].Value() == ParsedRow(csvRows[i])
  {
    var headerMap := GetHeaderMap(TARGET_HEADER_MAPPING);
    TargetHeaderMap();
    assert headerMap == TARGET_HEADERS;
    beans := [];
    for r := 0 to |csvRows|
      invariant |beans| == r
      invariant forall i :: 0 <= i < r ==> fresh(beans[i]) && beans[i].Value() == ParsedRow(csvRows[i])
    {
      var props := ReadCells(csvRows[r], headerMap);
      var bean := new CampaignUploadRow(Prop(props, "storeId"), Prop(props, "startDate"), Prop(props, "endDate"),
        PropValue(props, "weeklyCashbackPercent"), PropValue(props, "dailyCashbackPercent"),
        PropValue(props, "targetAmount"));
      beans := beans + [bean];
    }
  }

  // ----- targetCampaignUploadSave -----

  /** What a confirmed upload does: create its campaigns with these types, or cancel it. */
  datatype SaveAction = InitiateCampaigns(targetType: string, campaignType: string) | CancelUpload

  const MOV := "MOV"

  /**
   * The argument checks of `targetCampaignUploadSave`, in order: the target
   * type (default WEEKLY), the campaign type (default MOV), the stored
   * upload, then `cancel`: absent confirms, loosely equal to 1 cancels,
   * anything else is rejected. Every rejection is a 404.
   */
  function UploadSaveDecision(targetType: Option<string>, campaignType: Option<string>, found: bool,
                              cancel: Option<string>): (r: Result<SaveAction, HttpError>)
    ensures r.Success? <==>
      && (targetType.None? || targetType.value == WEEKLY || targetType.value == DAILY)
      && (campaignType.None? || campaignType.value == MOV)
      && found
      && (cancel.None? || LooseEqualsNumber(Str(cancel.value), 1.0))
    ensures r.Failure? ==> r.error.status == 404
    ensures r.Success? && r.value.InitiateCampaigns? ==>
      && cancel.None?
      && r.value.targetType == (if targetType.Some? then targetType.value else WEEKLY)
      && r.value.campaignType == MOV
    ensures r.Success? && r.value.CancelUpload? ==> cancel.Some?
  {
    if targetType.Some? && targetType.value != WEEKLY && targetType.value != DAILY then
      Failure(HttpError(404, "Invalid Value for Target Type"))
    else if campaignType.Some? && campaignType.value != MOV then
      Failure(HttpError(404, "Invalid Value for Campaign Type "))
    else if !found then
      Failure(HttpError(404, "No Bulk Upload data found for given key and module."))
    else if cancel.None? then
      Success(InitiateCampaigns(if targetType.Some? then targetType.value else WEEKLY,
                                if campaignType.Some? then campaignType.value else MOV))
    else if LooseEqualsNumber(Str(cancel.value), 1.0) then
      Success(CancelUpload)
    else
      Failure(HttpError(404, "Invalid input for cancel"))
  }

  /** Loose equality: " 1" and "\u00A01" cancel like "1". */
  lemma CancelWithSpaces()
    ensures UploadSaveDecision(None, None, true, Some(" 1")) == Success(CancelUpload)
    ensures UploadSaveDecision(None, None, true, Some("\U{00A0}1")) == Success(CancelUpload)
  {
    assert Trim(" 1") == "1" by {
      assert TrimStart(" 1") == TrimStart("1");
    }
    assert Trim("\U{00A0}1") == "1" by {
      assert TrimStart("\U{00A0}1") == TrimStart("1");
    }
    assert DigitsValue("1") == 1;
  }

  /** A cancel value that is not the number 1, such as "0" or "yes", is rejected. */
  lemma CancelRejected()
    ensures UploadSaveDecision(None, None, true, Some("0")) == Failure(HttpError(404, "Invalid input for cancel"))
    ensures UploadSaveDecision(None, None, true, Some("yes")) == Failure(HttpError(404, "Invalid input for cancel"))
  {
    TrimUnpadded("0");
    TrimUnpadded("yes");
    assert DigitsValue("0") == 0;
    assert !AllDigits("yes") by { assert !IsDigit("yes"[0]); }
    assert Split("yes", '.') == ["yes"] by { SplitAbsent("yes", '.'); }
  }

  /** The stored upload record; saving it records the status the decision set. */
  class BulkUpload {
    var status: int

    constructor (status': int)
      ensures status == status'
    {
      status := status';
    }
  }

  /**
   * `targetCampaignUploadSave`: the decision above; a confirmed upload is
   * marked 1 and a cancelled one 0, a rejected call leaves it untouched.
   * Creating the campaigns is the returned action.
   */
  method TargetCampaignUploadSave(bulk: BulkUpload?, cancel: Option<string>, targetType: Option<string>,
                                  campaignType: Option<string>) returns (r: Result<SaveAction, HttpError>)
    modifies bulk
    ensures r == UploadSaveDecision(targetType, campaignType, bulk != null, cancel)
    ensures bulk != null && r.Success? ==> bulk.status == (if r.value.InitiateCampaigns? then 1 else 0)
    ensures bulk != null && r.Failure? ==> bulk.status == old(bulk.status)
  {
    r := UploadSaveDecision(targetType, campaignType, bulk != null, cancel);
    if r.Success? {
      bulk.status := if r.value.InitiateCampaigns? then 1 else 0;
    }
  }

  // ----- getStartAndEndDates -----

  /** The DAILY rows, in order. */
  function Dailies(rows: seq<CashbackRow>): (ds: seq<CashbackRow>)
    ensures |ds| <= |rows|
  {
    if |rows| == 0 then []
    else (if rows[0].targetType == DAILY then [rows[0]] else []) + Dailies(rows[1..])
  }

  /** A DAILY row not yet settled. */
  predicate PendingDaily(r: CashbackRow)
  {
    r.targetType == DAILY && r.cashback.None?
  }

  /** The date of the first pending DAILY row, if any: the search loop with its `break`. */
  function FirstPendingDailyDate(rows: seq<CashbackRow>): Option<int>
  {
    if |rows| == 0 then None
    else if PendingDaily(rows[0]) then Some(rows[0].cashbackDate)
    else FirstPendingDailyDate(rows[1..])
  }

  /**
   * `getStartAndEndDates`: the window to regenerate DAILY rows for when a
   * campaign is edited. No DAILY rows, or an unsettled first one: the whole
   * campaign. A settled last one: nothing. Otherwise from the first
   * unsettled DAILY row to the campaign's end.
   */
  function StartAndEndDates(campaign: Campaign, rows: seq<CashbackRow>): (Option<int>, Option<int>)
  {
    var ds := Dailies(rows);
    if |ds| == 0 || ds[0].cashback.None? then (Some(campaign.startDate), Some(campaign.endDate))
    else if ds[|ds| - 1].cashback.Some? then (None, None)
    else (FirstPendingDailyDate(rows), Some(campaign.endDate))
  }

  /** Row `k` is the first DAILY row. */
  predicate FirstDaily(rows: seq<CashbackRow>, k: int)
  {
    0 <= k < |rows| && rows[k].targetType == DAILY && forall j :: 0 <= j < k ==> rows[j].targetType != DAILY
  }

  /** Row `k` is the last DAILY row. */
  predicate LastDaily(rows: seq<CashbackRow>, k: int)
  {
    0 <= k < |rows| && rows[k].targetType == DAILY && forall j :: k < j < |rows| ==> rows[j].targetType != DAILY
  }

  /** Row `k` is the first pending DAILY row. */
  predicate FirstPending(rows: seq<CashbackRow>, k: int)
  {
    0 <= k < |rows| && PendingDaily(rows[k]) && forall j :: 0 <= j < k ==> !PendingDaily(rows[j])
  }

  lemma {:induction false} DailiesEmpty(rows: seq<CashbackRow>)
    ensures |Dailies(rows)| == 0 <==> forall i :: 0 <= i < |rows| ==> rows[i].targetType != DAILY
  {
    if |rows| > 0 {
      DailiesEmpty(rows[1..]);
      if rows[0].targetType != DAILY && forall i :: 0 <= i < |rows| - 1 ==> rows[1..][i].targetType != DAILY {
        forall i | 0 <= i < |rows|
          ensures rows[i].targetType != DAILY
        {
          if i > 0 { assert rows[i] == rows[1..][i - 1]; }
        }
      }
    }
  }

  lemma {:induction false} DailiesFirst(rows: seq<CashbackRow>) returns (k: nat)
    requires |Dailies(rows)| > 0
    ensures FirstDaily(rows, k) && Dailies(rows)[0] == rows[k]
  {
    if rows[0].targetType == DAILY {
      k := 0;
    } else {
      var k' := DailiesFirst(rows[1..]);
      k := k' + 1;
      assert rows[k] == rows[1..][k'];
      forall j | 0 < j < k
        ensures rows[j].targetType != DAILY
      {
        assert rows[j] == rows[1..][j - 1];
      }
    }
  }

  lemma {:induction false} DailiesLast(rows: seq<CashbackRow>) returns (k: nat)
    requires |Dailies(rows)| > 0
    ensures LastDaily(rows, k) && Dailies(rows)[|Dailies(rows)| - 1] == rows[k]
  {
    var rest := Dailies(rows[1..]);
    if |rest| > 0 {
      var k' := DailiesLast(rows[1..]);
      k := k' + 1;
      assert rows[k] == rows[1..][k'];
      forall j | k < j < |rows|
        ensures rows[j].targetType != DAILY
      {
        assert rows[j] == rows[1..][j - 1];
      }
    } else {
      k := 0;
      DailiesEmpty(rows[1..]);
      forall j | 0 < j < |rows|
        ensures rows[j].targetType != DAILY
      {
        assert rows[j] == rows[1..][j - 1];
      }
    }
  }

  lemma {:induction false} FirstPendingDate(rows: seq<CashbackRow>, p: nat)
    requires FirstPending(rows, p)
    ensures FirstPendingDailyDate(rows) == Some(rows[p].cashbackDate)
  {
    if p > 0 {
      FirstPendingDate(rows[1..], p - 1);
    }
  }

  /** No DAILY row at all, or a pending first one: the whole campaign window. */
  lemma WindowWhenFirstPending(campaign: Campaign, rows: seq<CashbackRow>)
    requires (forall i :: 0 <= i < |rows| ==> rows[i].targetType != DAILY) ||
             (exists k :: FirstDaily(rows, k) && rows[k].cashback.None?)
    ensures StartAndEndDates(campaign, rows) == (Some(campaign.startDate), Some(campaign.endDate))
  {
    DailiesEmpty(rows);
    if |Dailies(rows)| > 0 {
      var k0 := DailiesFirst(rows);
      var k :| FirstDaily(rows, k) && rows[k].cashback.None?;
      assert k == k0;
    }
  }

  /** First and last DAILY rows both settled: no window. */
  lemma WindowWhenAllSettled(campaign: Campaign, rows: seq<CashbackRow>, k: nat, l: nat)
    requires FirstDaily(rows, k) && rows[k].cashback.Some?
    requires LastDaily(rows, l) && rows[l].cashback.Some?
    ensures StartAndEndDates(campaign, rows) == (None, None)
  {
    assert Dailies(rows) != [] by { DailiesEmpty(rows); }
    var k0 := DailiesFirst(rows);
    var l0 := DailiesLast(rows);
    assert k == k0 && l == l0;
  }

  /**
   * First DAILY row settled, last one pending: from the date of the first
   * pending DAILY row (which exists) to the campaign's end.
   */
  lemma WindowWhenPartlySettled(campaign: Campaign, rows: seq<CashbackRow>, k: nat, l: nat, p: nat)
    requires FirstDaily(rows, k) && rows[k].cashback.Some?
    requires LastDaily(rows, l) && rows[l].cashback.None?
    requires FirstPending(rows, p)
    ensures k < p <= l
    ensures StartAndEndDates(campaign, rows) == (Some(rows[p].cashbackDate), Some(campaign.endDate))
  {
    assert Dailies(rows) != [] by { DailiesEmpty(rows); }
    var k0 := DailiesFirst(rows);
    var l0 := DailiesLast(rows);
    assert k == k0 && l == l0;
    FirstPendingDate(rows, p);
  }

  /** Two row lists that agree on every row's type, date and cashback. */
  predicate SameWindowKeys(rows: seq<CashbackRow>, rows': seq<CashbackRow>)
  {
    |rows| == |rows'| &&
    forall i :: 0 <= i < |rows| ==>
      rows[i].targetType == rows'[i].targetType && rows[i].cashback == rows'[i].cashback &&
      rows[i].cashbackDate == rows'[i].cashbackDate
  }

  lemma {:induction false} SameWindowKeysDailies(rows: seq<CashbackRow>, rows': seq<CashbackRow>)
    requires SameWindowKeys(rows, rows')
    ensures |Dailies(rows)| == |Dailies(rows')|
    ensures forall i :: 0 <= i < |Dailies(rows)| ==> Dailies(rows)[i].cashback == Dailies(rows')[i].cashback
    ensures FirstPendingDailyDate(rows) == FirstPendingDailyDate(rows')
  {
    if |rows| > 0 {
      assert SameWindowKeys(rows[1..], rows'[1..]) by {
        forall i | 0 <= i < |rows| - 1
          ensures rows[1..][i].targetType == rows'[1..][i].targetType && rows[1..][i].cashback == rows'[1..][i].cashback
          ensures rows[1..][i].cashbackDate == rows'[1..][i].cashbackDate
        {
          assert rows[1..][i] == rows[i + 1] && rows'[1..][i] == rows'[i + 1];
        }
      }
      SameWindowKeysDailies(rows[1..], rows'[1..]);
      assert rows[0].targetType == rows'[0].targetType && rows[0].cashback == rows'[0].cashback;
    }
  }

  /** The window reads only each row's type, date and cashback. */
  lemma StartAndEndDatesReadsKeys(campaign: Campaign, rows: seq<CashbackRow>, rows': seq<CashbackRow>)
    requires SameWindowKeys(rows, rows')
    ensures StartAndEndDates(campaign, rows) == StartAndEndDates(campaign, rows')
  {
    SameWindowKeysDailies(rows, rows');
  }

  /** `getStartAndEndDates` on the row objects: the filter, the two tests, then the search loop. */
  method GetStartAndEndDates(campaign: TargetCampaign, rows: seq<TargetCashback>)
    returns (startDate: Option<int>, endDate: Option<int>)
    ensures (startDate, endDate) == StartAndEndDates(campaign.Value(), Values(rows))
  {
    var vs := Values(rows);
    var ds := Dailies(vs);
    if |ds| == 0 || ds[0].cashback.None? {
      return Some(campaign.startDate), Some(campaign.endDate);
    }
    if ds[|ds| - 1].cashback.Some? {
      return None, None;
    }
    var dailyStartDate: Option<int> := None;
    var i := 0;
    while i < |rows|
      invariant 0 <= i <= |rows|
      invariant FirstPendingDailyDate(vs[i..]) == FirstPendingDailyDate(vs)
    {
      if rows[i].targetType == DAILY && rows[i].cashback.None? {
        dailyStartDate := Some(rows[i].cashbackDate);
        break;
      }
      assert vs[i..][1..] == vs[i + 1..];
      i := i + 1;
    }
    return dailyStartDate, Some(campaign.endDate);
  }

  // ----- disableLoyaltyCashbacks -----

  /** A pending row (cashback null) is switched off by the user; a settled one is kept. */
  function Disabled(r: CashbackRow, userId: string): CashbackRow
  {
    if r.cashback.None? then r.(active := 0, modifiedBy := userId) else r
  }

  /**
   * Disabling keeps the cashback, so a pending row stays unsettled, but it
   * drops out of every pending-row query; a settled row is left as it is.
   */
  lemma DisabledRow(r: CashbackRow, userId: string, fromDay: int, toDay: int, types: seq<string>,
                    storeIds: Option<seq<string>>)
    ensures Disabled(r, userId).cashback == r.cashback
    ensures r.cashback.None? ==>
      && Disabled(r, userId).active == 0 && Disabled(r, userId).modifiedBy == userId
      && Disabled(r, userId) == r.(active := 0, modifiedBy := userId)
      && !IsPendingBetween(Disabled(r, userId), fromDay, toDay, types, storeIds)
    ensures r.cashback.Some? ==> Disabled(r, userId) == r
  {
  }

  /** `disableLoyaltyCashbacks`: every row with a null cashback is switched off; the others are unchanged. */
  method DisableLoyaltyCashbacks(rows: seq<TargetCashback>, userId: string)
    requires Distinct(rows)
    modifies set r | r in rows
    ensures forall i :: 0 <= i < |rows| ==> rows[i].Value() == Disabled(old(rows[i].Value()), userId)
  {
    for i := 0 to |rows|
      invariant forall j :: 0 <= j < i ==> rows[j].Value() == Disabled(old(rows[j].Value()), userId)
      invariant forall j :: i <= j < |rows| ==> rows[j].Value() == old(rows[j].Value())
    {
      var row := rows[i];
      if row.cashback.None? {
        row.active := 0;
        row.modifiedBy := userId;
      }
    }
  }

  /** Disabling changes no row's type, date or cashback, so it leaves the edit window as it was. */
  lemma DisablingKeepsWindow(campaign: Campaign, rows: seq<CashbackRow>, rows': seq<CashbackRow>, userId: string)
    requires |rows'| == |rows| && forall i :: 0 <= i < |rows| ==> rows'[i] == Disabled(rows[i], userId)
    ensures StartAndEndDates(campaign, rows') == StartAndEndDates(campaign, rows)
  {
    StartAndEndDatesReadsKeys(campaign, rows', rows);
  }

  // ----- isSameTargetCampaignUpdateRequest -----

  /** The body of a campaign edit. */
  datatype UpdateCampaignDto = UpdateCampaignDto(
    weeklyCashbackPercent: real, dailyCashbackPercent: real, targetAmount: real, status: int)

  /** `isSameTargetCampaignUpdateRequest`: target, status and both percents equal the stored ones. */
  predicate IsSameUpdateRequest(campaign: Campaign, request: UpdateCampaignDto)
  {
    && campaign.targetAmount == request.targetAmount
    && request.status == campaign.status
    && Some(request.dailyCashbackPercent) == campaign.metadata.dailyCashbackPercent
    && Some(request.weeklyCashbackPercent) == campaign.metadata.weeklyCashbackPercent
  }

  /** The campaign with the request's status, target and percents, as the edit assigns them. */
  function Edited(campaign: Campaign, request: UpdateCampaignDto): Campaign
  {
    campaign.(status := request.status, targetAmount := request.targetAmount,
      metadata := CampaignMetadata(Some(request.weeklyCashbackPercent), Some(request.dailyCashbackPercent)))
  }

  /** A request counts as "the same" exactly when applying it would change nothing. */
  lemma SameRequestIffNoEdit(campaign: Campaign, request: UpdateCampaignDto)
    ensures IsSameUpdateRequest(campaign, request) <==> Edited(campaign, request) == campaign
  {
    if Edited(campaign, request) == campaign {
      assert Edited(campaign, request).metadata == campaign.metadata;
    }
  }

  // ----- recheckCampaignVouchers -----

  /** An offer as saved under `offerId`. */
  function SavedOffer(offer: Option<Offer>, offerId: string): (saved: Option<Offer>)
    ensures saved.Some? <==> offer.Some?
    ensures saved.Some? ==> saved.value == offer.value.(id := Some(offerId))
  {
    if offer.Some? then Some(offer.value.(id := Some(offerId))) else None
  }

  /**
   * The loop body of `recheckCampaignVouchers` on one voucher: switched off
   * when there is no offer or the campaign is off, otherwise pointed at the
   * offer and switched on; stamped with the user either way.
   */
  function Rechecked(v: VoucherRow, offer: Option<Offer>, status: int, userId: string): VoucherRow
  {
    if offer.None? || status == 0 then v.(active := Some(false), updatedBy := Some(userId))
    else v.(offerId := offer.value.id, active := Some(true), updatedBy := Some(userId))
  }

  /**
   * A rechecked voucher is active exactly when there is an offer and the
   * campaign is not off; an active one points at the offer, an inactive one
   * keeps its offer; only these three fields change.
   */
  lemma RecheckedVoucher(v: VoucherRow, offer: Option<Offer>, status: int, userId: string)
    ensures var w := Rechecked(v, offer, status, userId);
      && (w.active == Some(true) <==> offer.Some? && status != 0)
      && (w.active == Some(true) || w.active == Some(false))
      && (w.active == Some(true) ==> w.offerId == offer.value.id)
      && (w.active == Some(false) ==> w.offerId == v.offerId)
      && w.updatedBy == Some(userId)
      && w == v.(offerId := w.offerId, active := w.active, updatedBy := w.updatedBy)
      && Rechecked(w, offer, status, userId) == w
  {
  }

  /**
   * `recheckCampaignVouchers`. With no voucher for the campaign yet, a daily
   * offer and its voucher are created first (under `createdOfferId`); then
   * a daily offer is built from the campaign as it now stands and saved
   * under `offerId`, and every existing voucher is rechecked against it.
   * JavaScript's printing of numbers in the terms (`render`), the offer
   * name and the voucher code are supplied by the caller.
   */
  method RecheckCampaignVouchers(campaign: TargetCampaign, vouchers: seq<Voucher>, render: real -> string, offerName: string,
                                 createdOfferId: string, code: string, offerId: string, userId: string)
    returns (createdOffer: Option<Offer>, createdVoucher: Option<Voucher>, offer: Option<Offer>)
    requires campaign.id.Some?
    requires campaign.targetType == WEEKLY ==> campaign.startDate <= campaign.endDate
    modifies set v | v in vouchers
    ensures offer == SavedOffer(DailyOffer(campaign.Value(), render, offerName, userId), offerId)
    ensures createdOffer == (if |vouchers| == 0
      then SavedOffer(DailyOffer(campaign.Value(), render, offerName, userId), createdOfferId) else None)
    ensures createdVoucher.Some? <==> createdOffer.Some?
    ensures createdVoucher.Some? ==>
      var v := createdVoucher.value;
      fresh(v) && v.offerId == Some(createdOfferId) && v.campaignId == campaign.id && v.code == Some(code)
    ensures forall v :: v in vouchers ==> v.Value() == Rechecked(old(v.Value()), offer, campaign.status, userId)
  {
    createdOffer, createdVoucher := None, None;
    if |vouchers| == 0 {
      createdOffer, createdVoucher := CreateDailyOfferForTargetCampaign(campaign, render, offerName, createdOfferId, code, userId);
    }
    offer := SavedOffer(DailyOffer(campaign.Value(), render, offerName, userId), offerId);
    RecheckVouchers(vouchers, offer, campaign.status, userId);
  }

  /** The voucher loop of `recheckCampaignVouchers`: each voucher rechecked against `offer`. */
  method RecheckVouchers(vouchers: seq<Voucher>, offer: Option<Offer>, status: int, userId: string)
    modifies set v | v in vouchers
    ensures forall v :: v in vouchers ==> v.Value() == Rechecked(old(v.Value()), offer, status, userId)
  {
    for i := 0 to |vouchers|
      invariant forall v :: v in vouchers[..i] ==> v.Value() == Rechecked(old(v.Value()), offer, status, userId)
      invariant forall v :: v in vouchers && v !in vouchers[..i] ==> v.Value() == old(v.Value())
    {
      var voucher := vouchers[i];
      RecheckedVoucher(old(voucher.Value()), offer, status, userId);
      if offer.None? || status == 0 {
        voucher.active := Some(false);
      } else {
        voucher.offerId := offer.value.id;
        voucher.active := Some(true);
      }
      voucher.updatedBy := Some(userId);
      assert vouchers[..i + 1] == vouchers[..i] + [voucher];
    }
    assert vouchers[..|vouchers|] == vouchers;
  }

  // ----- updateCampaign -----

  /**
   * The rows an edit creates: none unless the edited campaign is on
   * (status 1); then the entries for the given window, with the daily
   * target spread over the whole campaign window.
   */
  function RegeneratedRows(campaign: Campaign, window: (Option<int>, Option<int>), userId: string): seq<CashbackRow>
    requires campaign.id.Some?
    requires campaign.targetType == WEEKLY ==> campaign.startDate <= campaign.endDate
  {
    if campaign.status == 1 then
      CashbackEntries(campaign, window.0, window.1,
        DailyTargetValue(campaign, DaysDiff(campaign.startDate, campaign.endDate)), userId)
    else []
  }

  /** The edit's assignments: status, target and the two percents; nothing else changes. */
  method ApplyUpdateRequest(campaign: TargetCampaign, request: UpdateCampaignDto)
    modifies campaign
    ensures campaign.Value() == Edited(old(campaign.Value()), request)
  {
    campaign.status := request.status;
    campaign.targetAmount := request.targetAmount;
    campaign.metadata := campaign.metadata.(weeklyCashbackPercent := Some(request.weeklyCashbackPercent));
    campaign.metadata := campaign.metadata.(dailyCashbackPercent := Some(request.dailyCashbackPercent));
  }

  /** The edit's row regeneration, done only when the edited campaign is on. */
  method RegenerateCashbacks(campaign: TargetCampaign, startDate: Option<int>, endDate: Option<int>, userId: string)
    returns (rows: seq<TargetCashback>)
    requires campaign.id.Some?
    requires campaign.targetType == WEEKLY ==> campaign.startDate <= campaign.endDate
    ensures forall i :: 0 <= i < |rows| ==> fresh(rows[i])
    ensures Values(rows) == RegeneratedRows(campaign.Value(), (startDate, endDate), userId)
  {
    rows := [];
    if campaign.status == 1 {
      var dailyTarget := DailyTargetValue(campaign.Value(), DaysDiff(campaign.startDate, campaign.endDate));
      rows := CreateCashbackEntriesFromCampaign(campaign, startDate, endDate, dailyTarget, userId);
    }
  }

  /**
   * `updateCampaign`. An unknown campaign is a 404 and an unchanged request
   * changes nothing. Otherwise, in order: the campaign's pending rows are
   * switched off; the edit window is taken from the rows as they stood; the
   * request's status, target and percents are applied; the vouchers are
   * rechecked against the edited campaign; rows are regenerated for the
   * window when the new status is 1; the campaign is saved by the user.
   */
  method UpdateCampaign(campaign: TargetCampaign?, request: UpdateCampaignDto, cashbacks: seq<TargetCashback>,
                        vouchers: seq<Voucher>, render: real -> string, offerName: string, createdOfferId: string,
                        code: string, offerId: string, userId: string)
    returns (r: Result<string, HttpError>, newRows: seq<TargetCashback>, createdVoucher: Option<Voucher>)
    requires Distinct(cashbacks)
    requires campaign != null ==>
      campaign.id.Some? && (campaign.targetType == WEEKLY ==> campaign.startDate <= campaign.endDate)
    modifies campaign, set c | c in cashbacks, set v | v in vouchers
    ensures campaign == null ==> r == Failure(HttpError(404, "Campaign Not Found."))
    ensures campaign == null || IsSameUpdateRequest(old(campaign.Value()), request) ==>
      && (campaign != null ==> r == Success("No Changes") && campaign.Value() == old(campaign.Value()))
      && newRows == [] && createdVoucher.None?
      && Values(cashbacks) == old(Values(cashbacks))
      && forall v :: v in vouchers ==> v.Value() == old(v.Value())
    ensures campaign != null && !IsSameUpdateRequest(old(campaign.Value()), request) ==>
      var edited := Edited(old(campaign.Value()), request);
      && r == Success("updated successfully")
      && campaign.Value() == edited.(modifiedBy := userId)
      && (forall i :: 0 <= i < |cashbacks| ==> cashbacks[i].Value() == Disabled(old(cashbacks[i].Value()), userId))
      && (forall v :: v in vouchers ==>
            v.Value() == Rechecked(old(v.Value()), SavedOffer(DailyOffer(edited, render, offerName, userId), offerId),
                                   request.status, userId))
      && (forall i :: 0 <= i < |newRows| ==> fresh(newRows[i]))
      && Values(newRows) == RegeneratedRows(edited, StartAndEndDates(old(campaign.Value()), old(Values(cashbacks))), userId)
      && (createdVoucher.Some? ==> |vouchers| == 0 && fresh(createdVoucher.value))
  {
    newRows, createdVoucher := [], None;
    if campaign == null {
      return Failure(HttpError(404, "Campaign Not Found.")), newRows, createdVoucher;
    }
    if IsSameUpdateRequest(campaign.Value(), request) {
      return Success("No Changes"), newRows, createdVoucher;
    }
    r, newRows, createdVoucher := EditCampaign(campaign, request, cashbacks, vouchers, render, offerName, createdOfferId,
                                               code, offerId, userId);
  }

  /** The edit path of `updateCampaign`, once the campaign is found and the request changes it. */
  method EditCampaign(campaign: TargetCampaign, request: UpdateCampaignDto, cashbacks: seq<TargetCashback>,
                      vouchers: seq<Voucher>, render: real -> string, offerName: string, createdOfferId: string,
                      code: string, offerId: string, userId: string)
    returns (r: Result<string, HttpError>, newRows: seq<TargetCashback>, createdVoucher: Option<Voucher>)
    requires Distinct(cashbacks)
    requires campaign.id.Some? && (campaign.targetType == WEEKLY ==> campaign.startDate <= campaign.endDate)
    modifies campaign, set c | c in cashbacks, set v | v in vouchers
    ensures var edited := Edited(old(campaign.Value()), request);
      && r == Success("updated successfully")
      && campaign.Value() == edited.(modifiedBy := userId)
      && (forall i :: 0 <= i < |cashbacks| ==> cashbacks[i].Value() == Disabled(old(cashbacks[i].Value()), userId))
      && (forall v :: v in vouchers ==>
            v.Value() == Rechecked(old(v.Value()), SavedOffer(DailyOffer(edited, render, offerName, userId), offerId),
                                   request.status, userId))
      && (forall i :: 0 <= i < |newRows| ==> fresh(newRows[i]))
      && Values(newRows) == RegeneratedRows(edited, StartAndEndDates(old(campaign.Value()), old(Values(cashbacks))), userId)
      && (createdVoucher.Some? ==> |vouchers| == 0 && fresh(createdVoucher.value))
  {
    ghost var before := Values(cashbacks);
    ghost var original := campaign.Value();
    DisableLoyaltyCashbacks(cashbacks, userId);
    var startDate, endDate := GetStartAndEndDates(campaign, cashbacks);
    DisablingKeepsWindow(original, before, Values(cashbacks), userId);
    ApplyUpdateRequest(campaign, request);
    var _, created, _ := RecheckCampaignVouchers(campaign, vouchers, render, offerName, createdOfferId, code, offerId, userId);
    createdVoucher := created;
    newRows := RegenerateCashbacks(campaign, startDate, endDate, userId);
    campaign.modifiedBy := userId;
    r := Success("updated successfully");
  }

  // ----- getDailyTargetMap -----

  /** The first `n` elements grouped by key: each key seen maps to its elements in order. */
  function GroupUpTo<T>(xs: seq<T>, keys: seq<int>, n: nat): map<int, seq<T>>
    requires n <= |xs| && n <= |keys|
  {
    if n == 0 then map[]
    else
      var m := GroupUpTo(xs, keys, n - 1);
      var k := keys[n - 1];
      if k in m then m[k := m[k] + [xs[n - 1]]] else m[k := [xs[n - 1]]]
  }

  /** The elements among the first `n` whose key is `k`, in order. */
  function KeyedUpTo<T>(xs: seq<T>, keys: seq<int>, k: int, n: nat): seq<T>
    requires n <= |xs| && n <= |keys|
  {
    if n == 0 then []
    else KeyedUpTo(xs, keys, k, n - 1) + (if keys[n - 1] == k then [xs[n - 1]] else [])
  }

  /**
   * A key is in the map exactly when some element carries it, and it maps
   * to exactly the elements carrying it, in input order.
   */
  lemma {:induction false} GroupUpToMeaning<T>(xs: seq<T>, keys: seq<int>, n: nat, k: int)
    requires n <= |xs| && n <= |keys|
    ensures k in GroupUpTo(xs, keys, n) <==> exists i :: 0 <= i < n && keys[i] == k
    ensures k in GroupUpTo(xs, keys, n) ==> GroupUpTo(xs, keys, n)[k] == KeyedUpTo(xs, keys, k, n)
    ensures k !in GroupUpTo(xs, keys, n) ==> KeyedUpTo(xs, keys, k, n) == []
  {
    if n > 0 {
      GroupUpToMeaning(xs, keys, n - 1, k);
    }
  }

  /** The campaign id of each row. */
  function CampaignIds(rows: seq<TargetCashback>): (ids: seq<int>)
    reads set r | r in rows
    ensures |ids| == |rows| && forall i :: 0 <= i < |rows| ==> ids[i] == rows[i].targetCampaignId
  {
    seq(|rows|, i requires 0 <= i < |rows| reads rows => rows[i].targetCampaignId)
  }

  /** `getDailyTargetMap`: the rows grouped by campaign id, each list in input order. */
  method GetDailyTargetMap(rows: seq<TargetCashback>) returns (m: map<int, seq<TargetCashback>>)
    ensures m == GroupUpTo(rows, CampaignIds(rows), |rows|)
  {
    ghost var ids := CampaignIds(rows);
    m := map[];
    for i := 0 to |rows|
      invariant m == GroupUpTo(rows, ids, i)
    {
      var row := rows[i];
      if row.targetCampaignId in m {
        m := m[row.targetCampaignId := m[row.targetCampaignId] + [row]];
      } else {
        m := m[row.targetCampaignId := [row]];
      }
    }
  }

  // ----- the store's progress view -----

  /** The status a DAILY row is shown with. */
  datatype DailyCashbackStatus = Current | InProcess | Failed | Locked | Earned

  /**
   * The status cascade of `buildDailyTargetListItemResponse`: tomorrow's
   * row is CURRENT; today's unsettled row is IN_PROCESS; a zero cashback
   * FAILED; any other unsettled row LOCKED; the rest EARNED.
   */
  function DailyStatus(row: CashbackRow, today: int): DailyCashbackStatus
  {
    if row.cashbackDate == today + 1 then Current
    else if row.cashbackDate == today && row.cashback.None? then InProcess
    else if row.cashback == Some(0) then Failed
    else if row.cashback.None? then Locked
    else Earned
  }

  /** Each status, characterised on its own. */
  lemma DailyStatusMeaning(row: CashbackRow, today: int)
    ensures DailyStatus(row, today) == Current <==> row.cashbackDate == today + 1
    ensures DailyStatus(row, today) == InProcess <==> row.cashbackDate == today && row.cashback.None?
    ensures DailyStatus(row, today) == Failed <==> row.cashbackDate != today + 1 && row.cashback == Some(0)
    ensures DailyStatus(row, today) == Locked <==>
      row.cashbackDate != today && row.cashbackDate != today + 1 && row.cashback.None?
    ensures DailyStatus(row, today) == Earned <==>
      row.cashbackDate != today + 1 && row.cashback.Some? && row.cashback.value != 0
  {
  }

  /** One entry of the daily list. */
  datatype DailyTargetItem = DailyTargetItem(
    id: Option<nat>,
    targetAmount: real,
    targetType: string,
    qualifierOrderBillAmount: Option<real>,
    effectiveOrderBillAmount: Option<real>,
    remarks: Option<string>,
    cashback: Option<int>,
    cashbackPercent: real,
    isWalletEligible: bool,
    status: DailyCashbackStatus)

  /**
   * `buildDailyTargetListItemResponse`: the row's fields and its metadata,
   * with the status above; a CURRENT row shows the cart's non-bulk gross
   * amount and an IN_PROCESS row today's delivered order's (0 when there is
   * none) as its qualifier amount. `cart` and `previousOrder` are those
   * amounts when the cart or the order exists.
   */
  function DailyTargetListItem(row: CashbackRow, cart: Option<real>, previousOrder: Option<real>, today: int)
    : (item: DailyTargetItem)
    ensures item.status == DailyStatus(row, today)
    ensures item.status == Current ==> item.qualifierOrderBillAmount == Some(if cart.Some? then cart.value else 0.0)
    ensures item.status == InProcess ==>
      item.qualifierOrderBillAmount == Some(if previousOrder.Some? then previousOrder.value else 0.0)
    ensures item.status != Current && item.status != InProcess ==>
      item.qualifierOrderBillAmount == row.metadata.qualifier
    ensures item.cashback == row.cashback && item.targetAmount == row.targetAmount && item.id == row.id
  {
    var status := DailyStatus(row, today);
    var qualifier :=
      if status == Current then Some(if cart.Some? then cart.value else 0.0)
      else if status == InProcess then Some(if previousOrder.Some? then previousOrder.value else 0.0)
      else row.metadata.qualifier;
    DailyTargetItem(row.id, row.targetAmount, row.targetType, qualifier, row.metadata.effective,
      row.metadata.remarks, row.cashback, row.cashbackPercent, row.metadata.isWalletEligible, status)
  }

  /** `max(0, target - qualifier)`: what is left of a target once `qualifier` counts towards it. */
  function RemainingTarget(target: real, qualifier: real): (r: real)
    ensures r >= 0.0 && r + qualifier >= target
    ensures r == 0.0 <==> target <= qualifier
    ensures r > 0.0 ==> r == target - qualifier
  {
    if target < qualifier then 0.0 else target - qualifier
  }

  /** More qualifying amount never leaves more to do. */
  lemma RemainingTargetShrinks(target: real, q: real, q': real)
    requires q <= q'
    ensures RemainingTarget(target, q') <= RemainingTarget(target, q)
  {
  }

  /** The daily part of the progress view. */
  datatype DailyDetails = DailyDetails(
    targetList: seq<DailyTargetItem>,
    currentQualifierAmount: real,
    todayTargetAmount: Option<real>,
    todayRemainingTargetAmount: Option<real>)

  /** The target of the last CURRENT row among the first `n`, if any. */
  function LastCurrentTarget(rows: seq<CashbackRow>, today: int, n: nat): Option<real>
    requires n <= |rows|
  {
    if n == 0 then None
    else if DailyStatus(rows[n - 1], today) == Current then Some(rows[n - 1].targetAmount)
    else LastCurrentTarget(rows, today, n - 1)
  }

  /** With exactly one row dated tomorrow, today's target is that row's target; with none, there is none. */
  lemma {:induction false} LastCurrentTargetIsTomorrows(rows: seq<CashbackRow>, today: int, n: nat)
    requires n <= |rows|
    ensures (forall j :: 0 <= j < n ==> rows[j].cashbackDate != today + 1) ==> LastCurrentTarget(rows, today, n).None?
    ensures forall i ::
      (0 <= i < n && rows[i].cashbackDate == today + 1 &&
       (forall j :: 0 <= j < n && j != i ==> rows[j].cashbackDate != today + 1)
       ==> LastCurrentTarget(rows, today, n) == Some(rows[i].targetAmount))
  {
    if n > 0 {
      LastCurrentTargetIsTomorrows(rows, today, n - 1);
    }
  }

  /**
   * `buildDailyLoyaltyCashbackResponseBean`: one list item per row in
   * order; the current qualifier is the cart's amount (0 without a cart);
   * today's target comes from the last CURRENT item, and what remains of it
   * is `max(0, target - current qualifier)`.
   */
  method BuildDailyLoyaltyCashbackResponse(rows: seq<CashbackRow>, cart: Option<real>, previousOrder: Option<real>,
                                           today: int) returns (d: DailyDetails)
    ensures |d.targetList| == |rows|
    ensures forall i :: 0 <= i < |rows| ==> d.targetList[i] == DailyTargetListItem(rows[i], cart, previousOrder, today)
    ensures d.currentQualifierAmount == (if cart.Some? then cart.value else 0.0)
    ensures d.todayTargetAmount == LastCurrentTarget(rows, today, |rows|)
    ensures d.todayRemainingTargetAmount ==
      (if d.todayTargetAmount.Some? then Some(RemainingTarget(d.todayTargetAmount.value, d.currentQualifierAmount)) else None)
  {
    var current := if cart.Some? then cart.value else 0.0;
    var targetList: seq<DailyTargetItem> := [];
    var todayTarget: Option<real> := None;
    var todayRemaining: Option<real> := None;
    for i := 0 to |rows|
      invariant |targetList| == i
      invariant forall j :: 0 <= j < i ==> targetList[j] == DailyTargetListItem(rows[j], cart, previousOrder, today)
      invariant todayTarget == LastCurrentTarget(rows, today, i)
      invariant todayRemaining == (if todayTarget.Some? then Some(RemainingTarget(todayTarget.value, current)) else None)
    {
      var item := DailyTargetListItem(rows[i], cart, previousOrder, today);
      if item.status == Current {
        todayTarget := Some(item.targetAmount);
        todayRemaining := Some(if item.targetAmount < current then 0.0 else item.targetAmount - current);
      }
      targetList := targetList + [item];
    }
    d := DailyDetails(targetList, current, todayTarget, todayRemaining);
  }

  /** The sum of the first `n` items' qualifier amounts, a null one counting as 0. */
  function QualifierTotal(items: seq<DailyTargetItem>, n: nat): real
    requires n <= |items|
  {
    if n == 0 then 0.0
    else
      var q := items[n - 1].qualifierOrderBillAmount;
      QualifierTotal(items, n - 1) + (if q.Some? then q.value else 0.0)
  }

  /** Non-negative amounts give a non-negative total, and a list of null amounts totals 0. */
  lemma {:induction false} QualifierTotalBounds(items: seq<DailyTargetItem>, n: nat)
    requires n <= |items|
    ensures (forall i :: 0 <= i < n && items[i].qualifierOrderBillAmount.Some? ==>
               items[i].qualifierOrderBillAmount.value >= 0.0) ==> QualifierTotal(items, n) >= 0.0
    ensures (forall i :: 0 <= i < n ==> items[i].qualifierOrderBillAmount.None?) ==> QualifierTotal(items, n) == 0.0
  {
    if n > 0 {
      QualifierTotalBounds(items, n - 1);
    }
  }

  /** The weekly part of the progress view. */
  datatype WeeklyDetails = WeeklyDetails(
    id: Option<nat>,
    targetAmount: real,
    cashback: Option<int>,
    cashbackPercent: real,
    totalQualifierAmount: real,
    remainingTargetAmount: real)

  /**
   * `buildWeeklyLoyaltyCashbackResponseBean`: the week's qualifier total is
   * the sum over the daily list (when there is one) with null amounts as 0,
   * and the remaining target is `max(0, target - total)`.
   */
  method BuildWeeklyLoyaltyCashbackResponse(row: CashbackRow, daily: Option<DailyDetails>) returns (w: WeeklyDetails)
    ensures w.totalQualifierAmount ==
      (if daily.Some? then QualifierTotal(daily.value.targetList, |daily.value.targetList|) else 0.0)
    ensures w.remainingTargetAmount == RemainingTarget(row.targetAmount, w.totalQualifierAmount)
    ensures w.targetAmount == row.targetAmount && w.cashback == row.cashback && w.id == row.id
  {
    var total := 0.0;
    if daily.Some? {
      var items := daily.value.targetList;
      for i := 0 to |items|
        invariant total == QualifierTotal(items, i)
      {
        total := total + (if items[i].qualifierOrderBillAmount.Some? then items[i].qualifierOrderBillAmount.value else 0.0);
      }
    }
    var remaining := if row.targetAmount < total then 0.0 else row.targetAmount - total;
    w := WeeklyDetails(row.id, row.targetAmount, row.cashback, row.cashbackPercent, total, remaining);
  }
}

=== FILE: target_entities.dfy ===
/**
 * Target campaigns and their cashback rows
 * (src/offer/entity/target-campaign.entity.ts,
 * src/offer/entity/target-cashback.entity.ts). Dates are day numbers.
 */
module TargetEntities {
  import opened Wrappers

  const WEEKLY := "WEEKLY"
  const DAILY := "DAILY"

  /** A campaign's two cashback percentages; either may be null. */
  datatype CampaignMetadata = CampaignMetadata(weeklyCashbackPercent: Option<real>, dailyCashbackPercent: Option<real>)

  /** The value of a target campaign row. */
  datatype Campaign = Campaign(
    id: Option<int>,
    storeId: string,
    targetType: string,
    metadata: CampaignMetadata,
    startDate: int,
    endDate: int,
    campaignType: string,
    targetAmount: real,
    status: int,
    active: int,
    createdBy: string,
    modifiedBy: string)

  /** A target campaign; the edit flow updates its fields in place. */
  class TargetCampaign {
    /** Assigned by the store on save. */
    var id: Option<int>
    var storeId: string
    var targetType: string
    var metadata: CampaignMetadata
    var startDate: int
    var endDate: int
    var campaignType: string
    var targetAmount: real
    var status: int
    var active: int
    var createdBy: string
    var modifiedBy: string

    function Value(): Campaign
      reads this
    {
      Campaign(id, storeId, targetType, metadata, startDate, endDate, campaignType, targetAmount,
        status, active, createdBy, modifiedBy)
    }

    /**
     * `createTargetCampaignEntity` followed by the metadata assignment the
     * upload flow makes right after it: store, types and target copied, the
     * two dates parsed by `dayOf`, status 1, active 1, created and modified
     * by the user; no id yet.
     */
    constructor Create(
      storeId': string, targetType': string, campaignType': string, startDate': string, endDate': string,
      targetAmount': real, userId: string, metadata': CampaignMetadata, dayOf: string -> int)
      ensures storeId == storeId' && targetType == targetType' && campaignType == campaignType'
      ensures targetAmount == targetAmount' && metadata == metadata'
      ensures startDate == dayOf(startDate') && endDate == dayOf(endDate')
      ensures status == 1 && active == 1
      ensures createdBy == userId && modifiedBy == userId
      ensures id.None?
    {
      id := None;
      storeId := storeId';
      campaignType := campaignType';
      startDate := dayOf(startDate');
      targetType := targetType';
      endDate := dayOf(endDate');
      targetAmount := targetAmount';
      status := 1;
      active := 1;
      createdBy := userId;
      modifiedBy := userId;
      metadata := metadata';
    }
  }

  /** What settlement records on a cashback row. */
  datatype CashbackMetadata = CashbackMetadata(
    qualifier: Option<real>,
    effective: Option<real>,
    remarks: Option<string>,
    isWalletEligible: bool)

  /** The metadata of a new row: no amounts, no remarks, not wallet-eligible. */
  const FRESH_METADATA := CashbackMetadata(None, None, None, false)

  /** The value of a cashback row; `cashback` is null until the row is settled. */
  datatype CashbackRow = CashbackRow(
    id: Option<nat>,
    storeId: string,
    cashbackDate: int,
    targetAmount: real,
    targetType: string,
    cashback: Option<int>,
    cashbackPercent: real,
    metadata: CashbackMetadata,
    targetCampaignId: int,
    active: int,
    createdBy: string,
    modifiedBy: string)

  /**
   * `createTargetCashbackEntityFromCampaign`: type, date, percent, target,
   * campaign and store copied verbatim; cashback null with fresh metadata;
   * active 1, created and modified by the user; the id is left to the store.
   */
  function NewCashbackRow(
    storeId: string, cashbackDate: int, cashbackPercent: real, targetCampaignId: int,
    userId: string, targetType: string, targetAmount: real): (r: CashbackRow)
    ensures r.targetType == targetType && r.cashbackDate == cashbackDate && r.cashbackPercent == cashbackPercent
    ensures r.targetAmount == targetAmount && r.targetCampaignId == targetCampaignId && r.storeId == storeId
    ensures r.cashback.None? && r.metadata == CashbackMetadata(None, None, None, false)
    ensures r.active == 1 && r.createdBy == userId && r.modifiedBy == userId
    ensures r.id.None?
  {
    CashbackRow(None, storeId, cashbackDate, targetAmount, targetType, None, cashbackPercent,
      FRESH_METADATA, targetCampaignId, 1, userId, userId)
  }

  /** A cashback row; settlement and editing update its fields in place. */
  class TargetCashback {
    var id: Option<nat>
    var storeId: string
    var cashbackDate: int
    var targetAmount: real
    var targetType: string
    var cashback: Option<int>
    var cashbackPercent: real
    var metadata: CashbackMetadata
    var targetCampaignId: int
    var active: int
    var createdBy: string
    var modifiedBy: string

    function Value(): CashbackRow
      reads this
    {
      CashbackRow(id, storeId, cashbackDate, targetAmount, targetType, cashback, cashbackPercent,
        metadata, targetCampaignId, active, createdBy, modifiedBy)
    }

    constructor FromCampaign(
      storeId': string, cashbackDate': int, cashbackPercent': real, targetCampaignId': int,
      userId: string, targetType': string, targetAmount': real)
      ensures Value() == NewCashbackRow(storeId', cashbackDate', cashbackPercent', targetCampaignId', userId, targetType', targetAmount')
    {
      id := None;
      cashback := None;
      metadata := FRESH_METADATA;
      targetType := targetType';
      cashbackDate := cashbackDate';
      cashbackPercent := cashbackPercent';
      targetAmount := targetAmount';
      targetCampaignId := targetCampaignId';
      storeId := storeId';
      createdBy := userId;
      modifiedBy := userId;
      active := 1;
    }

    /** Stores a whole row value. */
    method Set(r: CashbackRow)
      modifies this
      ensures Value() == r
    {
      id, storeId, cashbackDate, targetAmount, targetType := r.id, r.storeId, r.cashbackDate, r.targetAmount, r.targetType;
      cashback, cashbackPercent, metadata, targetCampaignId := r.cashback, r.cashbackPercent, r.metadata, r.targetCampaignId;
      active, createdBy, modifiedBy := r.active, r.createdBy, r.modifiedBy;
    }
  }

  /** The values of a list of rows. */
  function Values(rows: seq<TargetCashback>): (vs: seq<CashbackRow>)
    reads set r | r in rows
    ensures |vs| == |rows| && forall i :: 0 <= i < |rows| ==> vs[i] == rows[i].Value()
  {
    seq(|rows|, i requires 0 <= i < |rows| reads rows => rows[i].Value())
  }

  predicate Distinct<T(==)>(xs: seq<T>)
  {
    forall i, j :: 0 <= i < j < |xs| ==> xs[i] != xs[j]
  }
}

=== FILE: target_rows.dfy ===
/**
 * Generation of a campaign's cashback rows and of its daily offer
 * (src/offer/target.service.ts): the inclusive day count, the daily target,
 * one DAILY row per day of a window plus the WEEKLY row, the daily offer's
 * rule, the daily offer itself and the campaign voucher pointing at it.
 * Dates are day numbers; offer instants are minutes since day 0.
 */
module TargetRows {
  import opened Wrappers
  import opened Json
  import opened RulesEngine
  import opened TargetEntities
  import opened OfferEntities
  import opened TargetSettlement

  /** The days from `startDate` to `endDate`, both included, in order. */
  function Window(startDate: int, endDate: int): (days: seq<int>)
    ensures |days| == (if startDate <= endDate then endDate - startDate + 1 else 0)
    ensures forall i :: 0 <= i < |days| ==> days[i] == startDate + i
  {
    if startDate <= endDate then seq(endDate - startDate + 1, i => startDate + i) else []
  }

  /** A day is in the window exactly when it lies between the two ends. */
  lemma WindowMembers(startDate: int, endDate: int, d: int)
    ensures d in Window(startDate, endDate) <==> startDate <= d <= endDate
  {
    var w := Window(startDate, endDate);
    if startDate <= d <= endDate {
      assert w[d - startDate] == d;
    }
  }

  /** `getDaysDiff`: whole days from start to end, plus one. */
  function DaysDiff(startDate: int, endDate: int): (n: int)
    ensures n > 0 <==> startDate <= endDate
    ensures n > 0 ==> n == |Window(startDate, endDate)|
  {
    endDate - startDate + 1
  }

  /** `getDailyTargetValue`: a WEEKLY campaign's target spread over its days; any other type keeps the whole target. */
  function DailyTargetValue(campaign: Campaign, daysNum: int): (t: real)
    requires campaign.targetType == WEEKLY ==> daysNum != 0
    ensures campaign.targetType == WEEKLY ==> t * daysNum as real == campaign.targetAmount
    ensures campaign.targetType != WEEKLY ==> t == campaign.targetAmount
  {
    if campaign.targetType == WEEKLY then campaign.targetAmount / daysNum as real else campaign.targetAmount
  }

  // ----- cashback rows -----

  /** The DAILY rows `createDailyLoyaltyCashbacks` saves: one per day of the window. */
  function DailyRows(campaign: Campaign, startDate: int, endDate: int, dailyTarget: real, userId: string): seq<CashbackRow>
    requires campaign.id.Some? && campaign.metadata.dailyCashbackPercent.Some?
  {
    var days := Window(startDate, endDate);
    seq(|days|, i requires 0 <= i < |days| =>
      NewCashbackRow(campaign.storeId, days[i], campaign.metadata.dailyCashbackPercent.value, campaign.id.value,
        userId, DAILY, dailyTarget))
  }

  /** Some row is dated `d`. */
  predicate HasRowOn(rows: seq<CashbackRow>, d: int)
  {
    exists i :: 0 <= i < |rows| && rows[i].cashbackDate == d
  }

  /**
   * The DAILY rows cover the window day by day, each pending, active, of
   * the campaign's store, at the daily percent and the daily target; every
   * one of them is picked up by the pending-row query over the window.
   */
  lemma DailyRowsShape(campaign: Campaign, startDate: int, endDate: int, dailyTarget: real, userId: string)
    requires campaign.id.Some? && campaign.metadata.dailyCashbackPercent.Some?
    ensures var rows := DailyRows(campaign, startDate, endDate, dailyTarget, userId);
      && |rows| == (if startDate <= endDate then DaysDiff(startDate, endDate) else 0)
      && (forall i :: 0 <= i < |rows| ==>
            && rows[i].cashbackDate == startDate + i
            && rows[i].targetType == DAILY && rows[i].cashback.None? && rows[i].active == 1
            && rows[i].storeId == campaign.storeId && rows[i].targetCampaignId == campaign.id.value
            && rows[i].cashbackPercent == campaign.metadata.dailyCashbackPercent.value
            && rows[i].targetAmount == dailyTarget
            && rows[i].metadata == FRESH_METADATA)
      && (forall d :: HasRowOn(rows, d) <==> startDate <= d <= endDate)
  {
    var rows := DailyRows(campaign, startDate, endDate, dailyTarget, userId);
    forall d
      ensures HasRowOn(rows, d) <==> startDate <= d <= endDate
    {
      if startDate <= d <= endDate {
        assert rows[d - startDate].cashbackDate == d;
      }
      if HasRowOn(rows, d) {
        var i :| 0 <= i < |rows| && rows[i].cashbackDate == d;
        assert rows[i].cashbackDate == startDate + i;
      }
    }
  }

  /** Every generated DAILY row is returned by the pending-row query over its window. */
  lemma DailyRowsArePending(campaign: Campaign, startDate: int, endDate: int, dailyTarget: real, userId: string,
                            storeIds: Option<seq<string>>)
    requires campaign.id.Some? && campaign.metadata.dailyCashbackPercent.Some?
    requires storeIds.Some? ==> campaign.storeId in storeIds.value
    ensures var rows := DailyRows(campaign, startDate, endDate, dailyTarget, userId);
      forall i :: 0 <= i < |rows| ==> IsPendingBetween(rows[i], startDate, endDate, [DAILY], storeIds)
  {
  }

  /**
   * `createDailyLoyaltyCashbacks`: one fresh DAILY row per day of the
   * window, in date order.
   */
  method CreateDailyLoyaltyCashbacks(campaign: TargetCampaign, startDate: int, endDate: int, dailyTarget: real, userId: string)
    returns (rows: seq<TargetCashback>)
    requires campaign.id.Some? && campaign.metadata.dailyCashbackPercent.Some?
    ensures forall i :: 0 <= i < |rows| ==> fresh(rows[i])
    ensures Values(rows) == DailyRows(campaign.Value(), startDate, endDate, dailyTarget, userId)
  {
    ghost var spec := DailyRows(campaign.Value(), startDate, endDate, dailyTarget, userId);
    var daysNum := DaysDiff(startDate, endDate);
    rows := [];
    var i := 0;
    while i < daysNum
      invariant 0 <= i && (daysNum > 0 ==> i <= daysNum) && (daysNum <= 0 ==> i == 0)
      invariant |spec| == (if daysNum > 0 then daysNum else 0)
      invariant forall j :: 0 <= j < |rows| ==> fresh(rows[j])
      invariant Values(rows) == spec[..i]
    {
      var row := new TargetCashback.FromCampaign(campaign.storeId, startDate + i, campaign.metadata.dailyCashbackPercent.value,
        campaign.id.value, userId, DAILY, dailyTarget);
      rows := rows + [row];
      assert Values(rows) == spec[..i + 1] by {
        assert spec[i] == row.Value();
        assert Values(rows)[..i] == spec[..i];
      }
      i := i + 1;
    }
    assert spec[..|spec|] == spec;
  }

  /**
   * `createCashbackEntriesFromCampaign`: the DAILY rows of the given window
   * when both window ends and the daily percent are present, then the
   * WEEKLY row at the campaign's end date carrying the whole target when the
   * campaign is WEEKLY and has a weekly percent.
   */
  function CashbackEntries(campaign: Campaign, startDate: Option<int>, endDate: Option<int>, dailyTarget: real,
                           userId: string): seq<CashbackRow>
    requires campaign.id.Some?
  {
    var m := campaign.metadata;
    (if startDate.Some? && endDate.Some? && m.dailyCashbackPercent.Some?
     then DailyRows(campaign, startDate.value, endDate.value, dailyTarget, userId) else []) +
    (if campaign.targetType == WEEKLY && m.weeklyCashbackPercent.Some?
     then [NewCashbackRow(campaign.storeId, campaign.endDate, m.weeklyCashbackPercent.value, campaign.id.value,
             userId, WEEKLY, campaign.targetAmount)]
     else [])
  }

  /** Whether the entries include the WEEKLY row. */
  predicate HasWeeklyEntry(campaign: Campaign)
  {
    campaign.targetType == WEEKLY && campaign.metadata.weeklyCashbackPercent.Some?
  }

  /** Whether the entries include DAILY rows for the window. */
  predicate HasDailyEntries(campaign: Campaign, startDate: Option<int>, endDate: Option<int>)
  {
    startDate.Some? && endDate.Some? && campaign.metadata.dailyCashbackPercent.Some?
  }

  /**
   * The entries are the window's DAILY rows, only when both ends and the
   * daily percent are present, followed by exactly one WEEKLY row exactly
   * when the campaign is WEEKLY with a weekly percent, whatever the window.
   */
  lemma CashbackEntriesShape(campaign: Campaign, startDate: Option<int>, endDate: Option<int>, dailyTarget: real, userId: string)
    requires campaign.id.Some?
    ensures var rows := CashbackEntries(campaign, startDate, endDate, dailyTarget, userId);
      var nDaily := if HasDailyEntries(campaign, startDate, endDate) && startDate.value <= endDate.value
                    then DaysDiff(startDate.value, endDate.value) else 0;
      && |rows| == nDaily + (if HasWeeklyEntry(campaign) then 1 else 0)
      && (forall i :: 0 <= i < nDaily ==>
            rows[i].targetType == DAILY && rows[i].cashbackDate == startDate.value + i && rows[i].cashback.None?)
      && (HasWeeklyEntry(campaign) ==>
            var w := rows[nDaily];
            && w.targetType == WEEKLY && w.cashbackDate == campaign.endDate
            && w.targetAmount == campaign.targetAmount
            && w.cashbackPercent == campaign.metadata.weeklyCashbackPercent.value && w.cashback.None?)
      && ((exists i :: 0 <= i < |rows| && rows[i].targetType == WEEKLY) <==> HasWeeklyEntry(campaign))
  {
    if HasDailyEntries(campaign, startDate, endDate) {
      DailyRowsShape(campaign, startDate.value, endDate.value, dailyTarget, userId);
    }
    var rows := CashbackEntries(campaign, startDate, endDate, dailyTarget, userId);
    var nDaily := if HasDailyEntries(campaign, startDate, endDate) && startDate.value <= endDate.value
                  then DaysDiff(startDate.value, endDate.value) else 0;
    assert forall i :: 0 <= i < nDaily ==> rows[i].targetType == DAILY;
  }

  /** `createCashbackEntriesFromCampaign` on a campaign object: the entries, as fresh rows, in order. */
  method CreateCashbackEntriesFromCampaign(campaign: TargetCampaign, startDate: Option<int>, endDate: Option<int>,
                                           dailyTarget: real, userId: string) returns (rows: seq<TargetCashback>)
    requires campaign.id.Some?
    ensures forall i :: 0 <= i < |rows| ==> fresh(rows[i])
    ensures Values(rows) == CashbackEntries(campaign.Value(), startDate, endDate, dailyTarget, userId)
  {
    rows := [];
    if startDate.Some? && endDate.Some? && campaign.metadata.dailyCashbackPercent.Some? {
      rows := CreateDailyLoyaltyCashbacks(campaign, startDate.value, endDate.value, dailyTarget, userId);
    }
    if campaign.targetType == WEEKLY && campaign.metadata.weeklyCashbackPercent.Some? {
      var weekly := new TargetCashback.FromCampaign(campaign.storeId, campaign.endDate,
        campaign.metadata.weeklyCashbackPercent.value, campaign.id.value, userId, WEEKLY, campaign.targetAmount);
      ghost var daily := Values(rows);
      rows := rows + [weekly];
      assert Values(rows) == daily + [weekly.Value()] by {
        assert Values(rows)[..|daily|] == daily;
      }
    }
  }

  // ----- the daily offer -----

  /** The fact the daily offer's rule tests. */
  const DAILY_TARGET_FACT := "spGrossAmountWithoutBulkSkus"

  /** `createTargetCampaignDailyOffersRule`: all of one condition, an order-level event with no params. */
  function DailyOfferRule(dailyTarget: real): (rule: Rule)
    ensures rule.event == Event(ORDER_LEVEL_EVENT, map[])
  {
    Rule(All([Leaf(DAILY_TARGET_FACT, GreaterThanInclusive, Num(dailyTarget))]), Event(ORDER_LEVEL_EVENT, map[]))
  }

  /**
   * The rule holds of an order exactly when its non-bulk gross amount is a
   * number of at least the daily target; it needs no custom operator.
   */
  lemma DailyOfferRuleMeaning(dailyTarget: real, facts: Facts)
    ensures !UsesCustomOperator(DailyOfferRule(dailyTarget).conditions)
    ensures Evaluate(DailyOfferRule(dailyTarget).conditions, facts) <==>
      DAILY_TARGET_FACT in facts && ToNumber(facts[DAILY_TARGET_FACT]).Finite? &&
      ToNumber(facts[DAILY_TARGET_FACT]).r >= dailyTarget
  {
    var leaf := Leaf(DAILY_TARGET_FACT, GreaterThanInclusive, Num(dailyTarget));
    EvaluateAllIff([leaf], facts);
    assert !UsesCustomOperatorIn([leaf]) by {
      assert [leaf][1..] == [];
      assert !UsesCustomOperatorIn([]);
    }
    assert ToNumber(Num(dailyTarget)) == Finite(dailyTarget);
  }

  const DAILY_OFFER_TITLE := "Sorted गाल्ला"

  /** The conditions that close the daily offer's terms. */
  const DAILY_OFFER_CONDITIONS := ".\nT&C:\nApplicable on only non bulk items.\nCashback will be processed post refunds.\nCashback will be received in Sorted wallet post all refund against that order are closed."

  /**
   * The daily offer's terms: the percent and the daily target as JavaScript
   * prints numbers, which `render` stands for, then the fixed conditions.
   */
  function DailyOfferTerms(render: real -> string, percent: real, dailyTarget: real): (terms: string)
    ensures |terms| >= |render(percent)| + |render(dailyTarget)| + |DAILY_OFFER_CONDITIONS|
    ensures terms[..|render(percent)|] == render(percent)
    ensures terms[|terms| - |DAILY_OFFER_CONDITIONS|..] == DAILY_OFFER_CONDITIONS
  {
    render(percent) + "% Cashback on effective order of " + render(dailyTarget) + DAILY_OFFER_CONDITIONS
  }

  /** Minutes in a day; the offer window opens at 02:00 and closes at 18:00. */
  const MINUTES_PER_DAY := 1440
  const OPENS_AT := 120
  const CLOSES_AT := 1080

  /**
   * `createDailyOfferFromCampaignDetails`: a daily offer exists exactly when
   * the daily percent is positive. It is a PERCENT cashback-level,
   * auto-applicable offer at the daily percent with no cap, whose rule
   * demands the daily target of the whole campaign window, open from 02:00
   * the day before the start to 18:00 the day before the end. Its terms
   * state the percent and the daily target. The timestamped name is supplied
   * by the caller.
   */
  function DailyOffer(campaign: Campaign, render: real -> string, offerName: string, userId: string): (offer: Option<Offer>)
    requires campaign.targetType == WEEKLY ==> campaign.startDate <= campaign.endDate
    ensures offer.Some? <==> campaign.metadata.dailyCashbackPercent.Some? && campaign.metadata.dailyCashbackPercent.value > 0.0
    ensures offer.Some? ==>
      var o := offer.value;
      var daily := DailyTargetValue(campaign, DaysDiff(campaign.startDate, campaign.endDate));
      && o.discountType == Some(Percent) && o.discountValue == campaign.metadata.dailyCashbackPercent.value
      && o.maxLimit.None? && o.offerLevel == Some(CASHBACK_LEVEL) && o.isAutoApplicable == Some(true)
      && o.applicationRules == Some(DailyOfferRule(daily))
      && o.offerStart == Some((campaign.startDate - 1) * MINUTES_PER_DAY + OPENS_AT)
      && o.offerEnd == Some((campaign.endDate - 1) * MINUTES_PER_DAY + CLOSES_AT)
      && o.title == Some(DAILY_OFFER_TITLE) && o.active == Some(true) && o.updatedBy == Some(userId)
      && o.terms == Some(DailyOfferTerms(render, o.discountValue, daily))
  {
    var percent := campaign.metadata.dailyCashbackPercent;
    if percent.Some? && percent.value > 0.0 then
      var daysNum := DaysDiff(campaign.startDate, campaign.endDate);
      var dailyTarget := DailyTargetValue(campaign, daysNum);
      Some(NewOfferEntity(
        DailyOfferTerms(render, percent.value, dailyTarget), DAILY_OFFER_TITLE,
        (campaign.startDate - 1) * MINUTES_PER_DAY + OPENS_AT,
        (campaign.endDate - 1) * MINUTES_PER_DAY + CLOSES_AT,
        None, Some(Percent), percent.value, DailyOfferRule(dailyTarget),
        offerName, CASHBACK_LEVEL, true, userId))
    else
      None
  }

  /**
   * `createDailyOfferForTargetCampaign`: when a daily offer is created (and
   * saved under `offerId`), one voucher is created for it: the given code,
   * assigned to the campaign's store, FRANCHISE, STATIC, ASSIGNED, public,
   * tagged with the campaign id. No offer, no voucher.
   */
  method CreateDailyOfferForTargetCampaign(campaign: TargetCampaign, render: real -> string, offerName: string, offerId: string,
                                           code: string, userId: string)
    returns (offer: Option<Offer>, voucher: Option<Voucher>)
    requires campaign.id.Some?
    requires campaign.targetType == WEEKLY ==> campaign.startDate <= campaign.endDate
    ensures offer == (var o := DailyOffer(campaign.Value(), render, offerName, userId);
                      if o.Some? then Some(o.value.(id := Some(offerId))) else None)
    ensures voucher.Some? <==> offer.Some?
    ensures voucher.Some? ==>
      var v := voucher.value;
      && fresh(v)
      && v.offerId == Some(offerId) && v.code == Some(code) && v.assignedTo == Some(campaign.storeId)
      && v.voucherFor == Some(FRANCHISE) && v.voucherType == Some(STATIC)
      && v.applicableFor == Some(APPLICABLE_ASSIGNED) && v.isPublic == Some(true)
      && v.campaignId == campaign.id && v.updatedBy == Some(userId)
  {
    var created := DailyOffer(campaign.Value(), render, offerName, userId);
    offer := None;
    voucher := None;
    if created.Some? {
      offer := Some(created.value.(id := Some(offerId)));
      var v := new Voucher.Entity(offerId, code, campaign.storeId, FRANCHISE, STATIC, APPLICABLE_ASSIGNED, true,
        campaign.id.value, userId);
      voucher := Some(v);
    }
  }
}

=== FILE: target_settlement.dfy ===
/**
 * Settlement of target-campaign cashback rows (src/offer/target.service.ts):
 * the daily pass over pending daily rows, the weekly pass over pending weekly
 * rows, and the pending-row query. Wallet credits are an appended log.
 */
module TargetSettlement {
  import opened Wrappers
  import opened Strings
  import opened TargetEntities

  /** `Math.ceil`. */
  function Ceil(x: real): (c: int)
    ensures c as real - 1.0 < x <= c as real
  {
    -((-x).Floor)
  }

  /** The store's effective order for the day, as the order service reports it. */
  datatype EffectiveOrder = EffectiveOrder(
    storeId: string,
    displayOrderId: string,
    effectiveAmount: real,
    qualifierAmount: real,
    hasPendingRefundTicket: bool,
    isOfferApplied: Option<bool>,
    voucherCode: Option<string>)

  /** One wallet credit: the store, the amount and the idempotency key. */
  datatype Credit = Credit(storeId: string, amount: int, key: string)

  /** `LCB-<id>`; a row without an id renders as `LCB-undefined`. */
  function CreditKey(id: Option<nat>): string
  {
    "LCB-" + (if id.Some? then NatToString(id.value) else "undefined")
  }

  /** Two row ids give the same key exactly when they are the same id. */
  lemma CreditKeyInjective(a: nat, b: nat)
    ensures CreditKey(Some(a)) == CreditKey(Some(b)) <==> a == b
  {
    if CreditKey(Some(a)) == CreditKey(Some(b)) {
      assert NatToString(a) == CreditKey(Some(a))[4..];
      assert NatToString(b) == CreditKey(Some(b))[4..];
      NatToStringInjective(a, b);
    }
  }

  const WALLET_ACTIVE := "ACTIVE"

  // ----- pending rows -----

  /**
   * The pending-row query between two days: cashback null, the date in the
   * closed range, active, of one of the given types, and of one of the given
   * stores when a store list is given.
   */
  predicate IsPendingBetween(row: CashbackRow, fromDay: int, toDay: int, types: seq<string>, storeIds: Option<seq<string>>)
  {
    row.cashback.None? && fromDay <= row.cashbackDate <= toDay && row.active == 1 &&
    row.targetType in types && (storeIds.None? || row.storeId in storeIds.value)
  }

  // ----- daily settlement -----

  /**
   * The branches of the daily cascade, in the order they are tried.
   * `MissingVoucher` is the TypeError of reading the campaign voucher's code
   * when the store has none: the test after the zero-percent one reaches it.
   */
  datatype DailyCase =
    | NoOrder | RefundPending | VoucherNotApplied | ZeroPercent | MissingVoucher | DifferentVoucher | WalletIneligible | Payable

  predicate WalletEligible(row: CashbackRow, wallets: Option<map<string, string>>)
  {
    row.metadata.isWalletEligible ||
    (wallets.Some? && row.storeId in wallets.value && wallets.value[row.storeId] == WALLET_ACTIVE)
  }

  function Lookup(orders: map<string, EffectiveOrder>, storeId: string): Option<EffectiveOrder>
  {
    if storeId in orders then Some(orders[storeId]) else None
  }

  /** The first branch whose condition holds. */
  function DailyCaseOf(row: CashbackRow, order: Option<EffectiveOrder>, voucherCodes: map<string, string>,
                       wallets: Option<map<string, string>>): DailyCase
  {
    if order.None? then NoOrder
    else
      var o := order.value;
      if o.hasPendingRefundTicket then RefundPending
      else if o.isOfferApplied == Some(false) then VoucherNotApplied
      else if row.cashbackPercent == 0.0 then ZeroPercent
      else if o.storeId !in voucherCodes then MissingVoucher
      else if o.voucherCode != Some(voucherCodes[o.storeId]) then DifferentVoucher
      else if !WalletEligible(row, wallets) then WalletIneligible
      else Payable
  }

  /** The order's effective and qualifier amounts recorded on the metadata. */
  function WithAmounts(m: CashbackMetadata, o: EffectiveOrder): CashbackMetadata
  {
    m.(effective := Some(o.effectiveAmount), qualifier := Some(o.qualifierAmount))
  }

  /** The cashback the final branch computes: ceil(effective × percent / 100). */
  function DailyAmount(row: CashbackRow, o: EffectiveOrder): int
  {
    Ceil(o.effectiveAmount * row.cashbackPercent / 100.0)
  }

  /**
   * One iteration of the daily pass: the row after it, and the wallet credit
   * it issues, if any. An iteration that throws has changed nothing.
   */
  function SettleDaily(row: CashbackRow, order: Option<EffectiveOrder>, voucherCodes: map<string, string>,
                       wallets: Option<map<string, string>>, userId: string): (r: (CashbackRow, Option<Credit>))
  {
    var m := row.metadata;
    match DailyCaseOf(row, order, voucherCodes, wallets)
    case NoOrder =>
      (row.(cashback := Some(0), metadata := m.(effective := Some(0.0), qualifier := Some(0.0), remarks := Some("No Order Placed."))), None)
    case RefundPending =>
      (row.(metadata := m.(remarks := Some("Refund Ticket Pending for order"))), None)
    case VoucherNotApplied =>
      (row.(cashback := Some(0), metadata := WithAmounts(m.(remarks := Some("Voucher not applied")), order.value)), None)
    case ZeroPercent =>
      (row.(cashback := Some(0), metadata := WithAmounts(m.(remarks := Some("Daily cashback is 0")), order.value)), None)
    case MissingVoucher =>
      (row, None)
    case DifferentVoucher =>
      (row.(cashback := Some(0), metadata := WithAmounts(m.(remarks := Some("Different Voucher Applied")), order.value)), None)
    case WalletIneligible =>
      (row.(metadata := WithAmounts(m.(remarks := Some("Wallet ineligible for cashback.")), order.value)), None)
    case Payable =>
      PayDaily(row, order.value, userId)
  }

  /** The final branch: the computed cashback and its credit when positive, otherwise no cashback. */
  function PayDaily(row: CashbackRow, o: EffectiveOrder, userId: string): (CashbackRow, Option<Credit>)
  {
    var c := DailyAmount(row, o);
    var settled := WithAmounts(row.metadata, o);
    if c > 0 then
      (row.(cashback := Some(c), metadata := settled.(isWalletEligible := true, remarks := Some("Cashback Processed.")), modifiedBy := userId),
       Some(Credit(row.storeId, c, CreditKey(row.id))))
    else
      (row.(cashback := Some(0), metadata := settled.(remarks := Some("No Cashback Given.")), modifiedBy := userId), None)
  }

  /**
   * The daily cascade branch by branch: what each branch writes, that only
   * the cashback, the metadata and (in the final branch) modifiedBy change,
   * that a credit is issued exactly when the final branch computes a
   * positive cashback, and that an assigned cashback is never negative.
   */
  lemma DailyCascade(row: CashbackRow, order: Option<EffectiveOrder>, voucherCodes: map<string, string>,
                     wallets: Option<map<string, string>>, userId: string)
    ensures var (r, credit) := SettleDaily(row, order, voucherCodes, wallets, userId);
      var k := DailyCaseOf(row, order, voucherCodes, wallets);
      // only the cashback, the metadata and (in the last branch) modifiedBy change
      && r == row.(cashback := r.cashback, metadata := r.metadata, modifiedBy := r.modifiedBy)
      && r.modifiedBy == (if k == Payable then userId else row.modifiedBy)
      // no order: zero cashback, zero amounts
      && (order.None? ==>
            r.cashback == Some(0) && r.metadata.effective == Some(0.0) && r.metadata.qualifier == Some(0.0)
            && r.metadata.remarks == Some("No Order Placed."))
      // a pending refund ticket only sets the remark
      && (k == RefundPending ==> r == row.(metadata := row.metadata.(remarks := Some("Refund Ticket Pending for order"))))
      // the three rejections: zero cashback, the order's amounts, their own remark
      && (k == VoucherNotApplied ==>
            r.cashback == Some(0) && r.metadata == WithAmounts(row.metadata, order.value).(remarks := Some("Voucher not applied")))
      && (k == ZeroPercent ==>
            r.cashback == Some(0) && r.metadata == WithAmounts(row.metadata, order.value).(remarks := Some("Daily cashback is 0")))
      // the campaign voucher is looked up only for a non-zero percent; a store without one throws, changing nothing
      && (k == MissingVoucher <==>
            order.Some? && !order.value.hasPendingRefundTicket && order.value.isOfferApplied != Some(false)
            && row.cashbackPercent != 0.0 && order.value.storeId !in voucherCodes)
      && (k == MissingVoucher ==> r == row && credit.None?)
      && (k == DifferentVoucher ==>
            r.cashback == Some(0) && r.metadata == WithAmounts(row.metadata, order.value).(remarks := Some("Different Voucher Applied")))
      // wallet ineligible: amounts and remark recorded, cashback left as it was
      && (k == WalletIneligible ==>
            r.cashback == row.cashback
            && r.metadata == WithAmounts(row.metadata, order.value).(remarks := Some("Wallet ineligible for cashback.")))
      // the final branch: a credit iff the computed cashback is positive, otherwise zero
      && (k == Payable && DailyAmount(row, order.value) > 0 ==>
            r.cashback == Some(DailyAmount(row, order.value))
            && r.metadata == WithAmounts(row.metadata, order.value).(isWalletEligible := true, remarks := Some("Cashback Processed."))
            && credit == Some(Credit(row.storeId, DailyAmount(row, order.value), CreditKey(row.id))))
      && (k == Payable && DailyAmount(row, order.value) <= 0 ==>
            r.cashback == Some(0) && r.metadata == WithAmounts(row.metadata, order.value).(remarks := Some("No Cashback Given.")))
      && (credit.Some? <==> k == Payable && DailyAmount(row, order.value) > 0)
      // whatever cashback the pass assigns is never negative
      && (r.cashback != row.cashback ==> r.cashback.Some? && r.cashback.value >= 0)
  {
  }

  /**
   * A pending row stays pending exactly in the refund-ticket and
   * wallet-ineligible branches and when the step throws; a row that got a credit no longer matches
   * the pending-row query, so it cannot be credited by a later run.
   */
  lemma SettledRowsLeavePending(row: CashbackRow, order: Option<EffectiveOrder>, voucherCodes: map<string, string>,
                                wallets: Option<map<string, string>>, userId: string,
                                fromDay: int, toDay: int, types: seq<string>, storeIds: Option<seq<string>>)
    requires row.cashback.None?
    ensures var r := SettleDaily(row, order, voucherCodes, wallets, userId);
      (r.0.cashback.None? <==> DailyCaseOf(row, order, voucherCodes, wallets) in {RefundPending, MissingVoucher, WalletIneligible}) &&
      (r.1.Some? ==> !IsPendingBetween(r.0, fromDay, toDay, types, storeIds))
  {
  }

  /** The credits of a daily pass over `rows`, in row order. */
  function DailyCredits(rows: seq<CashbackRow>, orders: map<string, EffectiveOrder>, voucherCodes: map<string, string>,
                        wallets: Option<map<string, string>>, userId: string): seq<Credit>
  {
    if |rows| == 0 then []
    else
      var last := rows[|rows| - 1];
      var out := SettleDaily(last, Lookup(orders, last.storeId), voucherCodes, wallets, userId);
      DailyCredits(rows[..|rows| - 1], orders, voucherCodes, wallets, userId) + (if out.1.Some? then [out.1.value] else [])
  }

  /** One more row appends that row's credit, if any. */
  lemma DailyCreditsSnoc(rows: seq<CashbackRow>, i: nat, orders: map<string, EffectiveOrder>, voucherCodes: map<string, string>,
                         wallets: Option<map<string, string>>, userId: string)
    requires i < |rows|
    ensures DailyCredits(rows[..i + 1], orders, voucherCodes, wallets, userId) ==
      DailyCredits(rows[..i], orders, voucherCodes, wallets, userId) +
      (var out := SettleDaily(rows[i], Lookup(orders, rows[i].storeId), voucherCodes, wallets, userId);
       if out.1.Some? then [out.1.value] else [])
  {
    assert rows[..i + 1][..i] == rows[..i];
  }

  /** A credit of the daily step is positive and keyed by the row's id, for the row's store. */
  lemma DailyCreditOfRow(row: CashbackRow, order: Option<EffectiveOrder>, voucherCodes: map<string, string>,
                         wallets: Option<map<string, string>>, userId: string)
    ensures var credit := SettleDaily(row, order, voucherCodes, wallets, userId).1;
      credit.Some? ==> credit.value.amount > 0 && credit.value.key == CreditKey(row.id) && credit.value.storeId == row.storeId
  {
  }

  /**
   * A daily pass issues at most one credit per row: each credit is positive
   * and is keyed by a row's id, for that row's store.
   */
  lemma {:induction false} DailyCreditsPerRow(rows: seq<CashbackRow>, orders: map<string, EffectiveOrder>, voucherCodes: map<string, string>,
                                             wallets: Option<map<string, string>>, userId: string)
    ensures var credits := DailyCredits(rows, orders, voucherCodes, wallets, userId);
      && |credits| <= |rows|
      && forall c :: c in credits ==>
           c.amount > 0 && exists i :: 0 <= i < |rows| && c.key == CreditKey(rows[i].id) && c.storeId == rows[i].storeId
  {
    if |rows| > 0 {
      var n := |rows| - 1;
      var init := rows[..n];
      var last := rows[n];
      DailyCreditsPerRow(init, orders, voucherCodes, wallets, userId);
      DailyCreditOfRow(last, Lookup(orders, last.storeId), voucherCodes, wallets, userId);
      var before := DailyCredits(init, orders, voucherCodes, wallets, userId);
      var credits := DailyCredits(rows, orders, voucherCodes, wallets, userId);
      forall c | c in credits
        ensures c.amount > 0 && exists i :: 0 <= i < |rows| && c.key == CreditKey(rows[i].id) && c.storeId == rows[i].storeId
      {
        if c in before {
          var i :| 0 <= i < |init| && c.key == CreditKey(init[i].id) && c.storeId == init[i].storeId;
          assert rows[i] == init[i];
        } else {
          assert c.key == CreditKey(rows[n].id);
        }
      }
    }
  }

  /**
   * With distinct row ids, the credits of a daily pass carry pairwise
   * distinct keys: the wallet never sees the same idempotency key twice.
   */
  lemma {:induction false} DailyCreditKeysDistinct(rows: seq<CashbackRow>, orders: map<string, EffectiveOrder>, voucherCodes: map<string, string>,
                                                  wallets: Option<map<string, string>>, userId: string)
    requires forall i :: 0 <= i < |rows| ==> rows[i].id.Some?
    requires forall i, j :: 0 <= i < j < |rows| ==> rows[i].id != rows[j].id
    ensures var credits := DailyCredits(rows, orders, voucherCodes, wallets, userId);
      forall a, b :: 0 <= a < b < |credits| ==> credits[a].key != credits[b].key
  {
    if |rows| > 0 {
      var n := |rows| - 1;
      var init := rows[..n];
      var last := rows[n];
      DailyCreditKeysDistinct(init, orders, voucherCodes, wallets, userId);
      DailyCreditsPerRow(init, orders, voucherCodes, wallets, userId);
      DailyCreditOfRow(last, Lookup(orders, last.storeId), voucherCodes, wallets, userId);
      var before := DailyCredits(init, orders, voucherCodes, wallets, userId);
      var credits := DailyCredits(rows, orders, voucherCodes, wallets, userId);
      forall a, b | 0 <= a < b < |credits|
        ensures credits[a].key != credits[b].key
      {
        if b >= |before| {
          assert credits[a] == before[a];
          assert credits[a] in before;
          var i :| 0 <= i < |init| && credits[a].key == CreditKey(init[i].id) && credits[a].storeId == init[i].storeId;
          assert credits[b].key == CreditKey(last.id);
          assert rows[i] == init[i] && rows[i].id != rows[n].id;
          CreditKeyInjective(init[i].id.value, last.id.value);
        } else {
          assert credits[a] == before[a] && credits[b] == before[b];
        }
      }
    }
  }

  /**
   * The row-level daily step, as the loop body performs it on a row object;
   * `thrown` when reading the campaign voucher's code throws.
   */
  method SettleDailyRow(row: TargetCashback, order: Option<EffectiveOrder>, voucherCodes: map<string, string>,
                        wallets: Option<map<string, string>>, userId: string) returns (credit: Option<Credit>, thrown: bool)
    modifies row
    ensures (row.Value(), credit) == SettleDaily(old(row.Value()), order, voucherCodes, wallets, userId)
    ensures thrown <==> DailyCaseOf(old(row.Value()), order, voucherCodes, wallets) == MissingVoucher
  {
    credit, thrown := None, false;
    if order.None? {
      row.cashback := Some(0);
      row.metadata := row.metadata.(effective := Some(0.0), qualifier := Some(0.0));
      row.metadata := row.metadata.(remarks := Some("No Order Placed."));
    } else if order.value.hasPendingRefundTicket {
      row.metadata := row.metadata.(remarks := Some("Refund Ticket Pending for order"));
    } else if order.value.isOfferApplied == Some(false) {
      row.cashback := Some(0);
      row.metadata := row.metadata.(remarks := Some("Voucher not applied"));
      row.metadata := WithAmounts(row.metadata, order.value);
    } else if row.cashbackPercent == 0.0 {
      row.cashback := Some(0);
      row.metadata := row.metadata.(remarks := Some("Daily cashback is 0"));
      row.metadata := WithAmounts(row.metadata, order.value);
    } else if order.value.storeId !in voucherCodes {
      thrown := true;
    } else if order.value.voucherCode != Some(voucherCodes[order.value.storeId]) {
      row.cashback := Some(0);
      row.metadata := row.metadata.(remarks := Some("Different Voucher Applied"));
      row.metadata := WithAmounts(row.metadata, order.value);
    } else if !(row.metadata.isWalletEligible ||
                (wallets.Some? && row.storeId in wallets.value && wallets.value[row.storeId] == WALLET_ACTIVE)) {
      row.metadata := row.metadata.(remarks := Some("Wallet ineligible for cashback."));
      row.metadata := WithAmounts(row.metadata, order.value);
    } else {
      credit := PayDailyRow(row, order.value, userId);
    }
  }

  /** The final branch on a row object. */
  method PayDailyRow(row: TargetCashback, o: EffectiveOrder, userId: string) returns (credit: Option<Credit>)
    modifies row
    ensures (row.Value(), credit) == PayDaily(old(row.Value()), o, userId)
  {
    ghost var v := row.Value();
    credit := None;
    row.metadata := WithAmounts(row.metadata, o);
    var c := Ceil(o.effectiveAmount * row.cashbackPercent / 100.0);
    row.cashback := Some(c);
    assert c == DailyAmount(v, o);
    if c > 0 {
      row.metadata := row.metadata.(isWalletEligible := true);
      row.metadata := row.metadata.(remarks := Some("Cashback Processed."));
      credit := Some(Credit(row.storeId, c, CreditKey(row.id)));
    } else {
      row.metadata := row.metadata.(remarks := Some("No Cashback Given."));
      row.cashback := Some(0);
    }
    row.modifiedBy := userId;
  }

  /** Whether the daily step on `row` throws for want of a campaign voucher. */
  predicate DailyThrows(row: CashbackRow, orders: map<string, EffectiveOrder>, voucherCodes: map<string, string>,
                        wallets: Option<map<string, string>>)
  {
    DailyCaseOf(row, Lookup(orders, row.storeId), voucherCodes, wallets) == MissingVoucher
  }

  /**
   * How many rows the daily pass settles: up to the first row whose step
   * throws, or all of them.
   */
  function DailySettledCount(rows: seq<CashbackRow>, orders: map<string, EffectiveOrder>, voucherCodes: map<string, string>,
                             wallets: Option<map<string, string>>): (n: nat)
    ensures n <= |rows|
    ensures forall j :: 0 <= j < n ==> !DailyThrows(rows[j], orders, voucherCodes, wallets)
    ensures n < |rows| ==> DailyThrows(rows[n], orders, voucherCodes, wallets)
  {
    if |rows| == 0 || DailyThrows(rows[0], orders, voucherCodes, wallets) then 0
    else
      var n := 1 + DailySettledCount(rows[1..], orders, voucherCodes, wallets);
      assert forall j :: 1 <= j < |rows| ==> rows[j] == rows[1..][j - 1];
      n
  }

  /**
   * `processDailyCashbacks`: the rows are settled in order against their
   * stores' orders, each saved and credited before the next. A row whose
   * step throws ends the pass: the rows before it stay settled and their
   * credits stay issued, that row and the rest keep their values, and the
   * pass reports that it did not complete. The loop runs up to that row,
   * whose index is `DailySettledCount`.
   */
  method ProcessDailyCashbacks(rows: seq<TargetCashback>, orders: map<string, EffectiveOrder>, voucherCodes: map<string, string>,
                               wallets: Option<map<string, string>>, userId: string)
    returns (credits: seq<Credit>, completed: bool)
    requires Distinct(rows)
    modifies set r | r in rows
    ensures var before := old(Values(rows));
      var n := DailySettledCount(before, orders, voucherCodes, wallets);
      && (completed <==> n == |rows|)
      && (forall i :: 0 <= i < n ==>
            rows[i].Value() == SettleDaily(before[i], Lookup(orders, before[i].storeId), voucherCodes, wallets, userId).0)
      && (forall i :: n <= i < |rows| ==> rows[i].Value() == before[i])
      && credits == DailyCredits(before[..n], orders, voucherCodes, wallets, userId)
  {
    ghost var before := Values(rows);
    var n := DailySettledCount(Values(rows), orders, voucherCodes, wallets);
    credits := [];
    for i := 0 to n
      invariant forall j :: 0 <= j < i ==>
        rows[j].Value() == SettleDaily(before[j], Lookup(orders, before[j].storeId), voucherCodes, wallets, userId).0
      invariant forall j :: i <= j < |rows| ==> rows[j].Value() == before[j]
      invariant credits == DailyCredits(before[..i], orders, voucherCodes, wallets, userId)
    {
      credits := SettleDailyAt(rows, i, before, orders, voucherCodes, wallets, userId, credits);
    }
    completed := n == |rows|;
  }

  /** The loop body of `processDailyCashbacks` on the `i`-th row, which does not throw; the other rows keep their values. */
  method SettleDailyAt(rows: seq<TargetCashback>, i: nat, ghost before: seq<CashbackRow>, orders: map<string, EffectiveOrder>,
                       voucherCodes: map<string, string>, wallets: Option<map<string, string>>, userId: string,
                       credits: seq<Credit>) returns (credits': seq<Credit>)
    requires Distinct(rows) && i < |rows| == |before|
    requires !DailyThrows(before[i], orders, voucherCodes, wallets)
    requires forall j :: 0 <= j < i ==>
      rows[j].Value() == SettleDaily(before[j], Lookup(orders, before[j].storeId), voucherCodes, wallets, userId).0
    requires forall j :: i <= j < |rows| ==> rows[j].Value() == before[j]
    requires credits == DailyCredits(before[..i], orders, voucherCodes, wallets, userId)
    modifies rows[i]
    ensures forall j :: 0 <= j < i + 1 ==>
      rows[j].Value() == SettleDaily(before[j], Lookup(orders, before[j].storeId), voucherCodes, wallets, userId).0
    ensures forall j :: i + 1 <= j < |rows| ==> rows[j].Value() == before[j]
    ensures credits' == DailyCredits(before[..i + 1], orders, voucherCodes, wallets, userId)
  {
    var row := rows[i];
    assert row.Value() == before[i];
    var credit, thrown := SettleDailyRow(row, Lookup(orders, row.storeId), voucherCodes, wallets, userId);
    assert !thrown;
    DailyCreditsSnoc(before, i, orders, voucherCodes, wallets, userId);
    credits' := credits;
    if credit.Some? {
      credits' := credits + [credit.value];
    }
  }

  // ----- weekly settlement -----

  /** A daily row counts towards the week once it has a cashback and an effective amount. */
  predicate DailyDone(d: CashbackRow) { d.cashback.Some? && d.metadata.effective.Some? }

  /** The summed effective amounts of the finished daily rows. */
  function TotalEffective(ds: seq<CashbackRow>): real
  {
    if |ds| == 0 then 0.0
    else
      var d := ds[|ds| - 1];
      TotalEffective(ds[..|ds| - 1]) + (if DailyDone(d) then d.metadata.effective.value else 0.0)
  }

  /** The summed qualifier amounts of the finished daily rows; a null amount adds nothing. */
  function TotalQualifier(ds: seq<CashbackRow>): real
  {
    if |ds| == 0 then 0.0
    else
      var d := ds[|ds| - 1];
      TotalQualifier(ds[..|ds| - 1]) +
        (if DailyDone(d) && d.metadata.qualifier.Some? then d.metadata.qualifier.value else 0.0)
  }

  predicate AnyDailyPending(ds: seq<CashbackRow>)
  {
    exists i :: 0 <= i < |ds| && !DailyDone(ds[i])
  }

  /** The cashback the weekly pass computes: ceil(summed effective × percent / 100). */
  function WeeklyAmount(row: CashbackRow, ds: seq<CashbackRow>): int
  {
    Ceil(TotalEffective(ds) * row.cashbackPercent / 100.0)
  }

  /** One iteration of the weekly pass: the weekly row after it and its credit, if any. */
  function SettleWeekly(row: CashbackRow, ds: seq<CashbackRow>, userId: string): (CashbackRow, Option<Credit>)
  {
    var m := row.metadata;
    var settled :=
      if AnyDailyPending(ds) then
        (row.(metadata := m.(remarks := Some("Daily Cashbacks are yet to be processed for this campaign."))), None)
      else if TotalQualifier(ds) < row.targetAmount then
        (row.(cashback := Some(0), metadata := m.(remarks := Some("Target Value Not Met."))), None)
      else
        var c := WeeklyAmount(row, ds);
        if c > 0 then
          (row.(cashback := Some(c), metadata := m.(remarks := Some("Cashback Processed."))),
           Some(Credit(row.storeId, c, CreditKey(row.id))))
        else
          (row.(cashback := Some(0), metadata := m.(remarks := Some("No Cashback Given."))), None);
    var w := settled.0;
    (w.(metadata := w.metadata.(effective := Some(TotalEffective(ds)), qualifier := Some(TotalQualifier(ds))),
        modifiedBy := userId), settled.1)
  }

  /**
   * The weekly cascade branch by branch: the totals are always recorded,
   * only the cashback, the metadata and modifiedBy change, and a credit is
   * issued exactly when every daily row is finished, the target is met and
   * the computed cashback is positive.
   */
  lemma WeeklyCascade(row: CashbackRow, ds: seq<CashbackRow>, userId: string)
    ensures var (r, credit) := SettleWeekly(row, ds, userId);
      && r == row.(cashback := r.cashback, metadata := r.metadata, modifiedBy := userId)
      && r.metadata == row.metadata.(effective := Some(TotalEffective(ds)), qualifier := Some(TotalQualifier(ds)),
                                     remarks := r.metadata.remarks)
      // one unfinished daily row keeps the weekly cashback as it was, with a remark
      && (AnyDailyPending(ds) ==>
            r.cashback == row.cashback && credit.None?
            && r.metadata.remarks == Some("Daily Cashbacks are yet to be processed for this campaign."))
      // target missed
      && (!AnyDailyPending(ds) && TotalQualifier(ds) < row.targetAmount ==>
            r.cashback == Some(0) && credit.None? && r.metadata.remarks == Some("Target Value Not Met."))
      // target met with a positive cashback: credited
      && (!AnyDailyPending(ds) && TotalQualifier(ds) >= row.targetAmount && WeeklyAmount(row, ds) > 0 ==>
            r.cashback == Some(WeeklyAmount(row, ds)) && r.metadata.remarks == Some("Cashback Processed.")
            && credit == Some(Credit(row.storeId, WeeklyAmount(row, ds), CreditKey(row.id))))
      // target met but nothing to pay
      && (!AnyDailyPending(ds) && TotalQualifier(ds) >= row.targetAmount && WeeklyAmount(row, ds) <= 0 ==>
            r.cashback == Some(0) && credit.None? && r.metadata.remarks == Some("No Cashback Given."))
      && (credit.Some? <==> !AnyDailyPending(ds) && TotalQualifier(ds) >= row.targetAmount && WeeklyAmount(row, ds) > 0)
  {
  }

  /** Target 700 met by qualifiers of 750, 5% of a summed 700 effective: a credit of 35. */
  lemma {:induction false} WeeklyWorkedExample(row: CashbackRow, d1: CashbackRow, d2: CashbackRow, userId: string)
    requires row.targetAmount == 700.0 && row.cashbackPercent == 5.0
    requires d1.cashback == Some(20) && d1.metadata.effective == Some(400.0) && d1.metadata.qualifier == Some(450.0)
    requires d2.cashback == Some(0) && d2.metadata.effective == Some(300.0) && d2.metadata.qualifier == Some(300.0)
    ensures SettleWeekly(row, [d1, d2], userId).0.cashback == Some(35)
    ensures SettleWeekly(row, [d1, d2], userId).1 == Some(Credit(row.storeId, 35, CreditKey(row.id)))
  {
    var ds := [d1, d2];
    assert DailyDone(d1) && DailyDone(d2);
    assert ds[..1] == [d1] && [d1][..0] == [];
    assert TotalEffective([d1]) == 400.0 by { assert TotalEffective([]) == 0.0; }
    assert TotalQualifier([d1]) == 450.0 by { assert TotalQualifier([]) == 0.0; }
    assert TotalEffective(ds) == 700.0;
    assert TotalQualifier(ds) == 750.0;
    assert !DailyDone(ds[0]) ==> false;
    assert !AnyDailyPending(ds);
    assert WeeklyAmount(row, ds) == Ceil(35.0) == 35;
  }

  /** Extending a prefix of the daily rows by one row extends the two totals and the pending test. */
  lemma WeeklyPrefixStep(ds: seq<CashbackRow>, i: nat)
    requires i < |ds|
    ensures TotalEffective(ds[..i + 1]) == TotalEffective(ds[..i]) + (if DailyDone(ds[i]) then ds[i].metadata.effective.value else 0.0)
    ensures TotalQualifier(ds[..i + 1]) == TotalQualifier(ds[..i]) +
      (if DailyDone(ds[i]) && ds[i].metadata.qualifier.Some? then ds[i].metadata.qualifier.value else 0.0)
    ensures AnyDailyPending(ds[..i + 1]) <==> AnyDailyPending(ds[..i]) || !DailyDone(ds[i])
  {
    var p, q := ds[..i + 1], ds[..i];
    assert p[..i] == q && p[i] == ds[i];
    if AnyDailyPending(p) && DailyDone(ds[i]) {
      var k :| 0 <= k < i + 1 && !DailyDone(p[k]);
      assert k < i && q[k] == p[k];
    }
    if AnyDailyPending(q) {
      var k :| 0 <= k < i && !DailyDone(q[k]);
      assert p[k] == q[k];
    }
  }

  /**
   * The row-level weekly step: sum the campaign's daily rows, then settle
   * the weekly row. The daily rows are only read here, so they are passed
   * as values.
   */
  method SettleWeeklyRow(row: TargetCashback, ds: seq<CashbackRow>, userId: string) returns (credit: Option<Credit>)
    modifies row
    ensures (row.Value(), credit) == SettleWeekly(old(row.Value()), ds, userId)
  {
    ghost var v := row.Value();
    var totalEffective := 0.0;
    var totalQualifier := 0.0;
    var hasPending := false;
    for i := 0 to |ds|
      invariant row.Value() == v
      invariant totalEffective == TotalEffective(ds[..i])
      invariant totalQualifier == TotalQualifier(ds[..i])
      invariant hasPending <==> AnyDailyPending(ds[..i])
    {
      var d := ds[i];
      WeeklyPrefixStep(ds, i);
      if d.cashback.Some? && d.metadata.effective.Some? {
        totalEffective := totalEffective + d.metadata.effective.value;
        totalQualifier := totalQualifier + (if d.metadata.qualifier.Some? then d.metadata.qualifier.value else 0.0);
      } else {
        hasPending := true;
      }
    }
    assert ds[..|ds|] == ds;
    credit := None;
    if hasPending {
      row.metadata := row.metadata.(remarks := Some("Daily Cashbacks are yet to be processed for this campaign."));
    } else if totalQualifier < row.targetAmount {
      row.cashback := Some(0);
      row.metadata := row.metadata.(remarks := Some("Target Value Not Met."));
    } else {
      var c := Ceil(totalEffective * row.cashbackPercent / 100.0);
      assert c == WeeklyAmount(v, ds);
      row.cashback := Some(c);
      if c > 0 {
        row.metadata := row.metadata.(remarks := Some("Cashback Processed."));
        credit := Some(Credit(row.storeId, c, CreditKey(row.id)));
      } else {
        row.metadata := row.metadata.(remarks := Some("No Cashback Given."));
        row.cashback := Some(0);
      }
    }
    row.metadata := row.metadata.(effective := Some(totalEffective));
    row.metadata := row.metadata.(qualifier := Some(totalQualifier));
    row.modifiedBy := userId;
  }

  /** The credits of a weekly pass over `rows`, in row order. */
  function WeeklyCredits(rows: seq<CashbackRow>, dailies: map<int, seq<CashbackRow>>, userId: string): seq<Credit>
    requires forall i :: 0 <= i < |rows| ==> rows[i].targetCampaignId in dailies
  {
    if |rows| == 0 then []
    else
      var last := rows[|rows| - 1];
      var out := SettleWeekly(last, dailies[last.targetCampaignId], userId);
      WeeklyCredits(rows[..|rows| - 1], dailies, userId) + (if out.1.Some? then [out.1.value] else [])
  }

  /** One more row appends that row's credit, if any. */
  lemma WeeklyCreditsSnoc(rows: seq<CashbackRow>, i: nat, dailies: map<int, seq<CashbackRow>>, userId: string)
    requires i < |rows| && forall j :: 0 <= j < |rows| ==> rows[j].targetCampaignId in dailies
    ensures WeeklyCredits(rows[..i + 1], dailies, userId) ==
      WeeklyCredits(rows[..i], dailies, userId) +
      (var out := SettleWeekly(rows[i], dailies[rows[i].targetCampaignId], userId);
       if out.1.Some? then [out.1.value] else [])
  {
    assert rows[..i + 1][..i] == rows[..i];
  }

  /**
   * `processWeeklyCashbacks`: every weekly row is settled against the daily
   * rows of its campaign, and the credits are appended in row order.
   */
  method ProcessWeeklyCashbacks(rows: seq<TargetCashback>, dailies: map<int, seq<CashbackRow>>, userId: string)
    returns (credits: seq<Credit>)
    requires Distinct(rows)
    requires forall i :: 0 <= i < |rows| ==> rows[i].targetCampaignId in dailies
    modifies set r | r in rows
    ensures forall i :: 0 <= i < |rows| ==>
      rows[i].Value() == SettleWeekly(old(rows[i].Value()), dailies[old(rows[i].targetCampaignId)], userId).0
    ensures credits == WeeklyCredits(old(Values(rows)), dailies, userId)
  {
    ghost var before := Values(rows);
    credits := [];
    for i := 0 to |rows|
      invariant forall j :: 0 <= j < i ==>
        rows[j].Value() == SettleWeekly(before[j], dailies[before[j].targetCampaignId], userId).0
      invariant forall j :: i <= j < |rows| ==> rows[j].Value() == before[j]
      invariant credits == WeeklyCredits(before[..i], dailies, userId)
    {
      credits := SettleWeeklyAt(rows, i, before, dailies, userId, credits);
    }
    assert before[..|rows|] == before;
  }

  /** The loop body of `processWeeklyCashbacks` on the `i`-th row; the other rows keep their values. */
  method SettleWeeklyAt(rows: seq<TargetCashback>, i: nat, ghost before: seq<CashbackRow>, dailies: map<int, seq<CashbackRow>>,
                        userId: string, credits: seq<Credit>) returns (credits': seq<Credit>)
    requires Distinct(rows) && i < |rows| == |before|
    requires forall j :: 0 <= j < |rows| ==> before[j].targetCampaignId in dailies
    requires forall j :: 0 <= j < i ==>
      rows[j].Value() == SettleWeekly(before[j], dailies[before[j].targetCampaignId], userId).0
    requires forall j :: i <= j < |rows| ==> rows[j].Value() == before[j]
    requires credits == WeeklyCredits(before[..i], dailies, userId)
    modifies rows[i]
    ensures forall j :: 0 <= j < i + 1 ==>
      rows[j].Value() == SettleWeekly(before[j], dailies[before[j].targetCampaignId], userId).0
    ensures forall j :: i + 1 <= j < |rows| ==> rows[j].Value() == before[j]
    ensures credits' == WeeklyCredits(before[..i + 1], dailies, userId)
  {
    var row := rows[i];
    assert row.Value() == before[i];
    var credit := SettleWeeklyRow(row, dailies[row.targetCampaignId], userId);
    WeeklyCreditsSnoc(before, i, dailies, userId);
    credits' := credits;
    if credit.Some? {
      credits' := credits + [credit.value];
    }
  }
}

=== FILE: target_upload.dfy ===
/**
 * Validation of an uploaded target-campaign sheet
 * (`validateTargetCampaignUpload` and `checkOverlappingEntry` in
 * src/offer/target.service.ts): a first-failure-wins cascade of ten checks
 * per row, the overlap test against the store's active campaigns, a set of
 * store ids accepted so far, and the success/failed split.
 */
module TargetUpload {
  import opened Wrappers
  import opened Json
  import opened Common
  import opened Partition
  import opened TargetEntities

  /** An error recorded against a row: type, message and the offending field. */
  datatype FieldError = FieldError(errorType: string, message: string, field: string)

  const FIELD_ERROR := "FIELD_ERROR"

  /** The window of an active campaign already stored for a store. */
  datatype Span = Span(startDate: int, endDate: int)

  /** One uploaded row: the dates as text, the numbers as the sheet gives them. */
  datatype UploadRow = UploadRow(
    storeId: Option<string>,
    startDate: Option<string>,
    endDate: Option<string>,
    weeklyCashbackPercent: Value,
    dailyCashbackPercent: Value,
    targetAmount: Value,
    errors: seq<FieldError>)

  /**
   * What the validation reads besides the rows: the stores' active campaign
   * windows, today's day number and the calendar reading of a date text
   * (`None` for a date the calendar rejects).
   */
  datatype UploadContext = UploadContext(existing: map<string, seq<Span>>, today: int, parseDay: string -> Option<int>)

  /** `checkOverlappingEntry`: the first stored window meeting the closed interval decides. */
  function CheckOverlappingEntry(startDate: int, endDate: int, spans: seq<Span>): bool
  {
    if |spans| == 0 then false
    else if spans[0].startDate <= endDate && spans[0].endDate >= startDate then true
    else CheckOverlappingEntry(startDate, endDate, spans[1..])
  }

  /** Overlap holds exactly when some stored window shares a day with the new one. */
  lemma {:induction false} CheckOverlappingEntryIff(startDate: int, endDate: int, spans: seq<Span>)
    ensures CheckOverlappingEntry(startDate, endDate, spans) <==>
      exists i :: 0 <= i < |spans| && spans[i].startDate <= endDate && spans[i].endDate >= startDate
  {
    if |spans| > 0 {
      CheckOverlappingEntryIff(startDate, endDate, spans[1..]);
      if exists i :: 0 <= i < |spans| && spans[i].startDate <= endDate && spans[i].endDate >= startDate {
        var i :| 0 <= i < |spans| && spans[i].startDate <= endDate && spans[i].endDate >= startDate;
        if i > 0 {
          assert spans[1..][i - 1] == spans[i];
        }
      }
      if CheckOverlappingEntry(startDate, endDate, spans[1..]) {
        var i :| 0 <= i < |spans[1..]| && spans[1..][i].startDate <= endDate && spans[1..][i].endDate >= startDate;
        assert spans[i + 1] == spans[1..][i];
      }
    }
  }

  /** Day `d` lies in the window. */
  predicate Covers(w: Span, d: int) { w.startDate <= d <= w.endDate }

  /** Two windows overlap in the sense above exactly when they share a day. */
  lemma OverlapMeansCommonDay(a: Span, b: Span)
    requires a.startDate <= a.endDate && b.startDate <= b.endDate
    ensures (a.startDate <= b.endDate && a.endDate >= b.startDate) <==> exists d :: Covers(a, d) && Covers(b, d)
  {
    if a.startDate <= b.endDate && a.endDate >= b.startDate {
      var d := if a.startDate <= b.startDate then b.startDate else a.startDate;
      assert Covers(a, d) && Covers(b, d);
    }
  }

  /** moment's `isSameOrBefore` on two day readings; an unreadable date compares false. */
  predicate SameOrBefore(a: Option<int>, b: Option<int>)
  {
    a.Some? && b.Some? && a.value <= b.value
  }

  /** A percent or amount the cascade rejects: missing, not a number, or negative. */
  predicate BadAmount(v: Value)
  {
    IsNullish(v) || IsNaN(v) || NumberLess(v, 0.0)
  }

  /** The first check a row fails, given the store ids accepted before it. */
  function UploadCheck(row: UploadRow, seen: set<string>, ctx: UploadContext): Option<FieldError>
  {
    if row.startDate.None? || !IsValidDateFormat(row.startDate.value) then
      Some(FieldError(FIELD_ERROR, "invalid start date format", "startDate"))
    else if row.endDate.None? || !IsValidDateFormat(row.endDate.value) then
      Some(FieldError(FIELD_ERROR, "invalid end date format", "endDate"))
    else
      var s, e := ctx.parseDay(row.startDate.value), ctx.parseDay(row.endDate.value);
      if !SameOrBefore(s, e) then
        Some(FieldError(FIELD_ERROR, "end date should be greater than start date", "startDateEndDate"))
      else if SameOrBefore(s, Some(ctx.today)) then
        Some(FieldError(FIELD_ERROR, "start date should be greater than today's date.", "startDateEndDate"))
      else if row.storeId.Some? && row.storeId.value in ctx.existing &&
              CheckOverlappingEntry(s.value, e.value, ctx.existing[row.storeId.value]) then
        Some(FieldError(FIELD_ERROR, "overlapping start and end date", "startDateEndDate"))
      else if row.storeId.None? then
        Some(FieldError(FIELD_ERROR, "store id cannot be null", "storeId"))
      else if row.storeId.value in seen then
        Some(FieldError(FIELD_ERROR, "duplicate store id.", "storeId"))
      else if BadAmount(row.weeklyCashbackPercent) then
        Some(FieldError(FIELD_ERROR, "weekly cashback percent invalid value", "weeklyCashbackPercent"))
      else if BadAmount(row.dailyCashbackPercent) || !IsIntegerValued(row.dailyCashbackPercent) then
        Some(FieldError(FIELD_ERROR, "daily cashback percent invalid value", "dailyCashbackPercent"))
      else if BadAmount(row.targetAmount) then
        Some(FieldError(FIELD_ERROR, "target amount invalid value", "targetAmount"))
      else
        None
  }

  /**
   * A row that passes every check: both dates read by the calendar, the
   * start after today and not after the end, no overlap with the store's
   * active campaigns, a store id not yet accepted, non-negative numbers and
   * an integral daily percent.
   */
  lemma UploadCheckPasses(row: UploadRow, seen: set<string>, ctx: UploadContext)
    ensures UploadCheck(row, seen, ctx).None? <==>
      && row.startDate.Some? && IsValidDateFormat(row.startDate.value)
      && row.endDate.Some? && IsValidDateFormat(row.endDate.value)
      && var s, e := ctx.parseDay(row.startDate.value), ctx.parseDay(row.endDate.value);
      && s.Some? && e.Some? && ctx.today < s.value <= e.value
      && row.storeId.Some? && row.storeId.value !in seen
      && (row.storeId.value in ctx.existing ==>
            forall i :: 0 <= i < |ctx.existing[row.storeId.value]| ==>
              var w := ctx.existing[row.storeId.value][i];
              !(w.startDate <= e.value && w.endDate >= s.value))
      && !IsNullish(row.weeklyCashbackPercent) && ToNumber(row.weeklyCashbackPercent).Finite? && ToNumber(row.weeklyCashbackPercent).r >= 0.0
      && !IsNullish(row.dailyCashbackPercent) && IsIntegerValued(row.dailyCashbackPercent) && ToNumber(row.dailyCashbackPercent).r >= 0.0
      && !IsNullish(row.targetAmount) && ToNumber(row.targetAmount).Finite? && ToNumber(row.targetAmount).r >= 0.0
  {
    if row.startDate.Some? && row.endDate.Some? {
      var s, e := ctx.parseDay(row.startDate.value), ctx.parseDay(row.endDate.value);
      if s.Some? && e.Some? && row.storeId.Some? && row.storeId.value in ctx.existing {
        CheckOverlappingEntryIff(s.value, e.value, ctx.existing[row.storeId.value]);
      }
    }
  }

  /**
   * One iteration: a failing row gets exactly that one error appended; a
   * passing row has its three numbers converted and its store id joins the
   * accepted set.
   */
  function UploadStep(row: UploadRow, seen: set<string>, ctx: UploadContext): (UploadRow, set<string>)
  {
    match UploadCheck(row, seen, ctx)
    case Some(err) => (row.(errors := row.errors + [err]), seen)
    case None =>
      (row.(weeklyCashbackPercent := NumberValue(row.weeklyCashbackPercent),
            dailyCashbackPercent := NumberValue(row.dailyCashbackPercent),
            targetAmount := NumberValue(row.targetAmount)),
       seen + {row.storeId.value})
  }

  /** The store ids accepted by the pass before row `i`. */
  function SeenBefore(rows: seq<UploadRow>, ctx: UploadContext, i: nat): set<string>
    requires i <= |rows|
  {
    if i == 0 then {} else UploadStep(rows[i - 1], SeenBefore(rows, ctx, i - 1), ctx).1
  }

  /** Row `i` after its step against the stores accepted before it. */
  function StepOut(rows: seq<UploadRow>, ctx: UploadContext, i: nat): UploadRow
    requires i < |rows|
  {
    UploadStep(rows[i], SeenBefore(rows, ctx, i), ctx).0
  }

  /** The whole pass over the rows in order. */
  function UploadPass(rows: seq<UploadRow>, ctx: UploadContext): (out: seq<UploadRow>)
    ensures |out| == |rows|
  {
    seq(|rows|, j requires 0 <= j < |rows| => StepOut(rows, ctx, j))
  }

  /** Whether the pass accepted row `i`: every check passed. */
  predicate Accepted(rows: seq<UploadRow>, ctx: UploadContext, i: nat)
    requires i < |rows|
  {
    UploadCheck(rows[i], SeenBefore(rows, ctx, i), ctx).None?
  }

  /**
   * The pass keeps each row's store id and dates; a rejected row gains
   * exactly one error after those it had, an accepted row none.
   */
  lemma UploadPassAtMostOneError(rows: seq<UploadRow>, ctx: UploadContext)
    ensures var out := UploadPass(rows, ctx);
      forall i :: 0 <= i < |rows| ==>
        && out[i].storeId == rows[i].storeId
        && out[i].startDate == rows[i].startDate && out[i].endDate == rows[i].endDate
        && |out[i].errors| == |rows[i].errors| + (if Accepted(rows, ctx, i) then 0 else 1)
        && out[i].errors[..|rows[i].errors|] == rows[i].errors
  {
    var out := UploadPass(rows, ctx);
    forall i | 0 <= i < |rows|
      ensures out[i].errors[..|rows[i].errors|] == rows[i].errors
    {
      if !Accepted(rows, ctx, i) {
        var e := UploadCheck(rows[i], SeenBefore(rows, ctx, i), ctx).value;
        assert out[i].errors == rows[i].errors + [e];
      }
    }
  }

  /** One more row: the accepted set grows by that row's store id exactly when it is accepted. */
  lemma SeenBeforeStep(rows: seq<UploadRow>, ctx: UploadContext, i: nat)
    requires i < |rows|
    ensures SeenBefore(rows, ctx, i + 1) ==
      SeenBefore(rows, ctx, i) + (if Accepted(rows, ctx, i) then {rows[i].storeId.value} else {})
    ensures Accepted(rows, ctx, i) ==> rows[i].storeId.Some?
  {
  }

  /** An accepted row's store id is in the accepted set of every later row. */
  lemma {:induction false} SeenBeforeHas(rows: seq<UploadRow>, ctx: UploadContext, j: nat, i: nat)
    requires j < i <= |rows| && Accepted(rows, ctx, j)
    ensures rows[j].storeId.Some? && rows[j].storeId.value in SeenBefore(rows, ctx, i)
  {
    SeenBeforeStep(rows, ctx, i - 1);
    if j < i - 1 {
      SeenBeforeHas(rows, ctx, j, i - 1);
    }
  }

  /** Every id in the accepted set comes from an accepted row before it. */
  lemma {:induction false} SeenBeforeWitness(rows: seq<UploadRow>, ctx: UploadContext, i: nat, s: string) returns (j: nat)
    requires i <= |rows| && s in SeenBefore(rows, ctx, i)
    ensures j < i && Accepted(rows, ctx, j) && rows[j].storeId == Some(s)
  {
    SeenBeforeStep(rows, ctx, i - 1);
    if s in SeenBefore(rows, ctx, i - 1) {
      j := SeenBeforeWitness(rows, ctx, i - 1, s);
    } else {
      j := i - 1;
    }
  }

  /** No two accepted rows share a store id, and every accepted row has one. */
  lemma UploadAcceptedStoresDistinct(rows: seq<UploadRow>, ctx: UploadContext)
    ensures forall i :: 0 <= i < |rows| && Accepted(rows, ctx, i) ==> rows[i].storeId.Some?
    ensures forall i, j :: 0 <= i < j < |rows| && Accepted(rows, ctx, i) && Accepted(rows, ctx, j) ==>
      rows[i].storeId != rows[j].storeId
  {
    forall i | 0 <= i < |rows| && Accepted(rows, ctx, i)
      ensures rows[i].storeId.Some?
    {
      SeenBeforeStep(rows, ctx, i);
    }
    forall i, j | 0 <= i < j < |rows| && Accepted(rows, ctx, i) && Accepted(rows, ctx, j)
      ensures rows[i].storeId != rows[j].storeId
    {
      SeenBeforeHas(rows, ctx, i, j);
    }
  }

  /**
   * A record of the pass: `outs[i]` is row `i` after its step and `seens[i]`
   * the accepted set before it. The trigger keeps the steps folded until a
   * proof asks for one.
   */
  predicate PassTrace(rows: seq<UploadRow>, ctx: UploadContext, outs: seq<UploadRow>, seens: seq<set<string>>)
  {
    && |outs| == |rows| && |seens| == |rows| + 1 && seens[0] == {}
    && forall i {:trigger UploadStep(rows[i], seens[i], ctx)} :: 0 <= i < |rows| ==>
         (outs[i], seens[i + 1]) == UploadStep(rows[i], seens[i], ctx)
  }

  /** The pass has a record. */
  lemma PassTraceOf(rows: seq<UploadRow>, ctx: UploadContext) returns (outs: seq<UploadRow>, seens: seq<set<string>>)
    ensures PassTrace(rows, ctx, outs, seens)
  {
    outs := UploadPass(rows, ctx);
    seens := seq(|rows| + 1, i requires 0 <= i <= |rows| => SeenBefore(rows, ctx, i));
    forall i | 0 <= i < |rows|
      ensures (outs[i], seens[i + 1]) == UploadStep(rows[i], seens[i], ctx)
    {
      assert outs[i] == StepOut(rows, ctx, i);
    }
  }

  /** And any record is the pass itself. */
  lemma {:induction false} PassTraceIsPass(rows: seq<UploadRow>, ctx: UploadContext, outs: seq<UploadRow>, seens: seq<set<string>>)
    requires PassTrace(rows, ctx, outs, seens)
    ensures outs == UploadPass(rows, ctx)
  {
    forall i | 0 <= i <= |rows|
      ensures seens[i] == SeenBefore(rows, ctx, i)
    {
      TraceSeen(rows, ctx, outs, seens, i);
    }
    forall i | 0 <= i < |rows|
      ensures outs[i] == UploadPass(rows, ctx)[i]
    {
      assert (outs[i], seens[i + 1]) == UploadStep(rows[i], seens[i], ctx);
    }
  }

  lemma {:induction false} TraceSeen(rows: seq<UploadRow>, ctx: UploadContext, outs: seq<UploadRow>, seens: seq<set<string>>, i: nat)
    requires PassTrace(rows, ctx, outs, seens) && i <= |rows|
    ensures seens[i] == SeenBefore(rows, ctx, i)
  {
    if i > 0 {
      TraceSeen(rows, ctx, outs, seens, i - 1);
      assert (outs[i - 1], seens[i]) == UploadStep(rows[i - 1], seens[i - 1], ctx);
    }
  }

  /** The failure flags of a list of rows: true for a row holding an error. */
  function Failures(rows: seq<UploadRow>): (fs: seq<bool>)
    ensures |fs| == |rows| && forall i :: 0 <= i < |rows| ==> fs[i] == (|rows[i].errors| > 0)
  {
    seq(|rows|, i requires 0 <= i < |rows| => |rows[i].errors| > 0)
  }

  /** An uploaded row object; validation appends to its errors and converts its numbers in place. */
  class CampaignUploadRow {
    var storeId: Option<string>
    var startDate: Option<string>
    var endDate: Option<string>
    var weeklyCashbackPercent: Value
    var dailyCashbackPercent: Value
    var targetAmount: Value
    var errors: seq<FieldError>

    function Value(): UploadRow
      reads this
    {
      UploadRow(storeId, startDate, endDate, weeklyCashbackPercent, dailyCashbackPercent, targetAmount, errors)
    }

    /** A freshly parsed row: the fields as read, no errors. */
    constructor (storeId': Option<string>, startDate': Option<string>, endDate': Option<string>,
                 weekly: Value, daily: Value, target: Value)
      ensures Value() == UploadRow(storeId', startDate', endDate', weekly, daily, target, [])
    {
      storeId, startDate, endDate := storeId', startDate', endDate';
      weeklyCashbackPercent, dailyCashbackPercent, targetAmount := weekly, daily, target;
      errors := [];
    }

    /** The loop body on one row: the cascade, then the conversion and the accepted set. */
    method Check(seen: set<string>, ctx: UploadContext) returns (seen': set<string>)
      modifies this
      ensures (Value(), seen') == UploadStep(old(Value()), seen, ctx)
    {
      seen' := seen;
      if startDate.None? || !IsValidDateFormat(startDate.value) {
        errors := errors + [FieldError(FIELD_ERROR, "invalid start date format", "startDate")];
      } else if endDate.None? || !IsValidDateFormat(endDate.value) {
        errors := errors + [FieldError(FIELD_ERROR, "invalid end date format", "endDate")];
      } else if !SameOrBefore(ctx.parseDay(startDate.value), ctx.parseDay(endDate.value)) {
        errors := errors + [FieldError(FIELD_ERROR, "end date should be greater than start date", "startDateEndDate")];
      } else if SameOrBefore(ctx.parseDay(startDate.value), Some(ctx.today)) {
        errors := errors + [FieldError(FIELD_ERROR, "start date should be greater than today's date.", "startDateEndDate")];
      } else if storeId.Some? && storeId.value in ctx.existing &&
                CheckOverlappingEntry(ctx.parseDay(startDate.value).value, ctx.parseDay(endDate.value).value,
                  ctx.existing[storeId.value]) {
        errors := errors + [FieldError(FIELD_ERROR, "overlapping start and end date", "startDateEndDate")];
      } else if storeId.None? {
        errors := errors + [FieldError(FIELD_ERROR, "store id cannot be null", "storeId")];
      } else if storeId.value in seen {
        errors := errors + [FieldError(FIELD_ERROR, "duplicate store id.", "storeId")];
      } else if BadAmount(weeklyCashbackPercent) {
        errors := errors + [FieldError(FIELD_ERROR, "weekly cashback percent invalid value", "weeklyCashbackPercent")];
      } else if BadAmount(dailyCashbackPercent) || !IsIntegerValued(dailyCashbackPercent) {
        errors := errors + [FieldError(FIELD_ERROR, "daily cashback percent invalid value", "dailyCashbackPercent")];
      } else if BadAmount(targetAmount) {
        errors := errors + [FieldError(FIELD_ERROR, "target amount invalid value", "targetAmount")];
      } else {
        weeklyCashbackPercent := NumberValue(weeklyCashbackPercent);
        dailyCashbackPercent := NumberValue(dailyCashbackPercent);
        targetAmount := NumberValue(targetAmount);
        seen' := seen + {storeId.value};
      }
    }
  }

  /** The loop body on row `i`, stated against a record of the pass. */
  method CheckRow(row: CampaignUploadRow, seen: set<string>, ctx: UploadContext,
                  ghost rows: seq<UploadRow>, ghost outs: seq<UploadRow>, ghost seens: seq<set<string>>, ghost i: nat)
    returns (seen': set<string>)
    requires PassTrace(rows, ctx, outs, seens) && i < |rows|
    requires row.Value() == rows[i] && seen == seens[i]
    modifies row
    ensures row.Value() == outs[i] && seen' == seens[i + 1]
  {
    seen' := row.Check(seen, ctx);
  }

  /** The values of a list of row objects. */
  function RowValues(rows: seq<CampaignUploadRow>): (vs: seq<UploadRow>)
    reads set r | r in rows
    ensures |vs| == |rows| && forall i :: 0 <= i < |rows| ==> vs[i] == rows[i].Value()
  {
    seq(|rows|, i requires 0 <= i < |rows| reads rows => rows[i].Value())
  }

  lemma UploadFinished(rows: seq<CampaignUploadRow>, ctx: UploadContext, before: seq<UploadRow>, outs: seq<UploadRow>,
                       seens: seq<set<string>>, flags: seq<bool>, successRows: seq<CampaignUploadRow>, failedRows: seq<CampaignUploadRow>)
    requires PassTrace(before, ctx, outs, seens) && |rows| == |before|
    requires forall j :: 0 <= j < |rows| ==> rows[j].Value() == outs[j]
    requires |flags| == |rows| && forall j :: 0 <= j < |rows| ==> flags[j] == (|outs[j].errors| > 0)
    requires successRows == Select(rows, flags, false) && failedRows == Select(rows, flags, true)
    ensures RowValues(rows) == UploadPass(before, ctx)
    ensures successRows == Select(rows, Failures(RowValues(rows)), false)
    ensures failedRows == Select(rows, Failures(RowValues(rows)), true)
  {
    RowValuesAre(rows, outs);
    FailuresAre(outs, flags);
    PassTraceIsPass(before, ctx, outs, seens);
  }

  lemma RowValuesAre(rows: seq<CampaignUploadRow>, vs: seq<UploadRow>)
    requires |vs| == |rows| && forall j :: 0 <= j < |rows| ==> rows[j].Value() == vs[j]
    ensures RowValues(rows) == vs
  {
  }

  lemma FailuresAre(rows: seq<UploadRow>, flags: seq<bool>)
    requires |flags| == |rows| && forall j :: 0 <= j < |rows| ==> flags[j] == (|rows[j].errors| > 0)
    ensures Failures(rows) == flags
  {
  }

  /**
   * `validateTargetCampaignUpload`: every row is checked in order against
   * the stores accepted before it, and goes to the success list when it
   * holds no error and to the failed list otherwise, in input order.
   */
  method ValidateTargetCampaignUpload(rows: seq<CampaignUploadRow>, ctx: UploadContext)
    returns (successRows: seq<CampaignUploadRow>, failedRows: seq<CampaignUploadRow>)
    requires Distinct(rows)
    modifies set r | r in rows
    ensures RowValues(rows) == UploadPass(old(RowValues(rows)), ctx)
    ensures successRows == Select(rows, Failures(RowValues(rows)), false)
    ensures failedRows == Select(rows, Failures(RowValues(rows)), true)
  {
    ghost var before := RowValues(rows);
    ghost var outs, seens := PassTraceOf(before, ctx);
    ghost var flags;
    successRows, failedRows, flags := ValidateRows(rows, ctx, before, outs, seens);
    UploadFinished(rows, ctx, before, outs, seens, flags, successRows, failedRows);
  }

  /** The loop of `validateTargetCampaignUpload`, stated against a record of the pass. */
  method ValidateRows(rows: seq<CampaignUploadRow>, ctx: UploadContext,
                      ghost before: seq<UploadRow>, ghost outs: seq<UploadRow>, ghost seens: seq<set<string>>)
    returns (successRows: seq<CampaignUploadRow>, failedRows: seq<CampaignUploadRow>, ghost flags: seq<bool>)
    requires Distinct(rows) && PassTrace(before, ctx, outs, seens) && |before| == |rows|
    requires forall j :: 0 <= j < |rows| ==> rows[j].Value() == before[j]
    modifies set r | r in rows
    ensures forall j :: 0 <= j < |rows| ==> rows[j].Value() == outs[j]
    ensures |flags| == |rows| && forall j :: 0 <= j < |rows| ==> flags[j] == (|outs[j].errors| > 0)
    ensures successRows == Select(rows, flags, false) && failedRows == Select(rows, flags, true)
  {
    flags := [];
    var seen: set<string> := {};
    successRows, failedRows := [], [];
    for i := 0 to |rows|
      invariant seen == seens[i]
      invariant forall j :: 0 <= j < i ==> rows[j].Value() == outs[j]
      invariant forall j :: i <= j < |rows| ==> rows[j].Value() == before[j]
      invariant |flags| == i && forall j :: 0 <= j < i ==> flags[j] == (|outs[j].errors| > 0)
      invariant successRows == SelectUpTo(rows, flags, false, i)
      invariant failedRows == SelectUpTo(rows, flags, true, i)
    {
      var row := rows[i];
      seen := CheckRow(row, seen, ctx, before, outs, seens, i);
      var failed := |row.errors| > 0;
      SelectUpToFlags(rows, flags, flags + [failed], false, i);
      SelectUpToFlags(rows, flags, flags + [failed], true, i);
      flags := flags + [failed];
      if !failed {
        successRows := successRows + [row];
      } else {
        failedRows := failedRows + [row];
      }
    }
  }
}

=== FILE: wrappers.dfy ===
/** Optional values and results, used for JavaScript `null`/`undefined` results and thrown errors. */
module Wrappers {
  datatype Option<T> = None | Some(value: T)

  datatype Result<T, E> = Success(value: T) | Failure(error: E)

  /** A thrown `HttpException`: its status code and message. */
  datatype HttpError = HttpError(status: int, message: string)
}
